=== FILE: README.md ===
# Two-dimensional matrix container, modelled in Dafny

This project models the core of a small Python library of generic
two-dimensional matrices. It covers the current package `matrices/` and the
differences of its predecessor `matrix_types/`.

A matrix holds three things:

- a row-major grid `_data` (a list of row lists);
- an authoritative shape `_shape = (rows, cols)`;
- a fill value `_default`.

The abstract base `MatrixABC` implements everything as underscore helpers
that change the object in place:

- construction and resizing;
- transposition and flipping;
- row and column insertion, removal and swapping;
- cell-wise, scalar and matrix-product arithmetic, and `map`;
- cell and slice reads and writes;
- the read-only views, equality, truthiness, length and membership.

`Matrix` wraps each helper so that it mutates the receiver and returns it.
`FrozenMatrix` wraps each helper so that it copies the receiver, mutates the
copy and returns it.

Cells are integers. A Python exception is an `Err(error)` value. An operation
that raises part way through a loop has an `Effect`: the exception together
with the state the loop left behind.

Layout:

- `errors.dfy` (`Errors`): the exception kinds, plus `Option`, `Result` and `Outcome`.
- `iterutils.dfy` (`IterUtils`): `chunked`, `_anysum`, `_sumprod` and the list product `matmul`.
- `selectors.dfy` (`Selectors`): index checks and the resolution of an index, tuple or slice into indices.
- `grid.dfy` (`Grid`): the state `Mat` as a value, its invariant `WellFormed`, and the shape operations as functions of the old state.
- `arith.dfy` (`Arith`): cell-wise, scalar and product arithmetic, and `map`, as functions.
- `access.dfy` (`Access`): cell and slice reads and writes, `set` and `del`.
- `views.dfy` (`Views`): `aslist`, `keys`, `values`, `items`, `asdict`, `empty`, `bool`, `len`, `in` and `==`.
- `construct.dfy` (`Construction`): `__init__`, meaning shape inference, the argument checks and the three initialisers.
- `base.dfy` (`Base.MatrixABC`): a class whose fields `data`, `rows`, `cols` and `dflt` the methods update in place.
  - Every method is proved against the function above that defines it, with loops carrying their invariants.
  - The copying variants (`matadd`, `scaladd`, `+`, ...) return fresh objects.
- `matrix.dfy` (`Mutable.Matrix`): the mutable class. Each method changes the wrapped `MatrixABC` and returns the receiver (`Ok(this)`) or raises.
- `frozen.dfy` (`Immutable.FrozenMatrix`): the immutable class. Its methods have no `modifies` clause, so the receiver provably never changes, and every result is a fresh object.
- `legacy.dfy` (`Legacy`): what `matrix_types/` does differently.

The invariant `WellFormed` requires:

- a non-negative shape;
- every row list exactly `cols` long;
- one row list per row when `cols > 0`.

A matrix without columns may hold fewer row lists than its row count. The
flat constructor leaves such states (an `(r, 0)` shape with no rows), and so
does transposing a `(0, c)` matrix. The model reproduces them, together with
what later operations do on them: `Grid.ResizePartial`,
`Grid.TransposeTwiceDropsEmptyRows` and `Construction.FlatWithoutCols`.
`Dense` is the invariant plus exactly one row list per row.

## The earlier package `matrix_types`

The helpers in `matrix_types/_base.py` are the same code as those in
`matrices/_base.py`. This applies to:

- the constructor checks, `_init_from_matrix` and `_init_from_sequence`;
- `_resize`, `_transpose`, `_flip`, insertion and swapping;
- removal, which `matrix_types` calls `_delrow` and `_delcol`;
- arithmetic and `_map`;
- `aslist`, `bool`, `len`, `in` and `==`.

Its `flatten` is `values`. The wrappers in `matrix_types/_matrix.py` and
`matrix_types/_frozen_matrix.py` are the same code as their `matrices`
counterparts, so the same members model both:

- `Mutable.Matrix` covers `matrix_types/_matrix.py:14-109`:
  - `delrow` and `delcol` are `RemoveRow` and `RemoveCol`;
  - the `+=`, `-=`, `*=` and `@=` operators are `IOperator`, `IScalar` and `IMatMul`.
- `Immutable.FrozenMatrix` covers `matrix_types/_frozen_matrix.py:14-69`. Its `resize` takes `cols` as a required argument, which may be None beside a shape sequence.
- `Views.Values` covers `matrix_types/_base.py:888-915`.

The `Legacy` module holds what differs:

- Column tuples are checked against the row count (`Legacy.ResolveColumnAsWritten`).
- Every item or slice assignment raises NotImplementedError (`Legacy.Assign`).
- Construction from rows pads the caller's own object instead of a copy, so a list of too few rows is extended in place and a tuple of too few rows raises AttributeError (`Legacy.InitFromRowsAsWritten`).
- `asdict` is built in a loop (`Legacy.AsDictLoop`).
- `__iter__` raises NotImplementedError (`matrix_types/_base.py:1045-1046`) instead of iterating over `keys()`; iteration is not modelled in either package.

## Model

The functions that define each operation on values state nothing beyond their own bodies. The lemma rows in the table below specify them, as follows:

- `Grid.Transpose` and its helper `Grid.Transposed` (matrices/_base.py:316-320): `Grid.TransposeCells`, `Grid.TransposeTwice`, `Grid.TransposeTwiceDropsEmptyRows`.
- `Grid.Resize` (matrices/_base.py:351-377), with `Grid.Fill`, `Grid.Widen` and `Grid.Narrow`: `Grid.ResizeCells`, `Grid.ResizeRejects`, `Grid.ResizeWellFormed`, `Grid.ResizeGrowShrink`, `Grid.ResizeIdempotent`, `Grid.ResizePartial`, `Grid.NarrowUndoesWiden`.
- `Grid.Flip` (matrices/_base.py:422-431): `Grid.FlipCells`, `Grid.FlipTwice`.
- `Grid.InsertRow` (matrices/_base.py:515-526): `Grid.InsertRowCells`, `Grid.InsertThenRemoveRow`.
- `Grid.InsertCol` (matrices/_base.py:544-556): `Grid.InsertColCells`, `Grid.InsertColPartial`, `Grid.InsertThenRemoveCol`.
- `Grid.RemoveRow` (matrices/_base.py:640-645): `Grid.RemoveRowCells`, `Grid.InsertThenRemoveRow`.
- `Grid.RemoveCol` (matrices/_base.py:663-668): `Grid.RemoveColCells`, `Grid.RemoveColWithoutRows`, `Grid.InsertThenRemoveCol`.
- `Grid.SwapRows` (matrices/_base.py:686-690): `Grid.SwapRowsCells`, `Grid.SwapRowsTwice`.
- `Grid.SwapCols` (matrices/_base.py:705-711): `Grid.SwapColsCells`, `Grid.SwapColsTwice`.
- `Arith.Elementwise` and its helper `Arith.CombineRow` (matrices/_base.py:728-761): `Arith.ElementwiseCells`, `Arith.AddThenSubtract`, `Arith.SubtractSelf`, `Arith.AddCommutes`.
- `Arith.MapCells` (matrices/_base.py:903-907): `Arith.MapCellsLaw`, `Arith.MapCompose`.
- `Arith.Scalar` (matrices/_base.py:808-849): the map of `x op scalar`, so `Arith.MapCellsLaw`, and `Arith.ScalarAddThenSubtract`.
- `Arith.MatMulOp` (matrices/_base.py:780-786): `Arith.MatMulOpCells`, `Arith.MatMulOpWellFormed`, `Arith.MatMulEmptyInner`, `Arith.CompatibleSymmetric`, `Arith.SquareExample`.
- `IterUtils.MatMul` (matrices/_iterutils.py:37-39), with `IterUtils.Products` and `IterUtils.Column`: `IterUtils.MatMulCells`, `IterUtils.MatMulCell`, `IterUtils.MatMulMismatch`, `IterUtils.MatMulExample`, `IterUtils.ProductStreamAt`, `IterUtils.FoldSumIsDot`.
- `IterUtils.FoldSum` (matrices/_iterutils.py:14-29): `IterUtils.AnySum`, `IterUtils.FoldSumIsDot`.
- `IterUtils.Concat` (matrices/_base.py:1073-1074): `IterUtils.ConcatRect`.
- `IterUtils.Dot` has no counterpart in the source. It is the independent reference that `IterUtils.FoldSumIsDot`, `IterUtils.SumProd` and `Arith.MatMulOpCells` check the product against.
- `Access.Get` (matrices/_base.py:1215-1258) and `Access.GetSlice` with `Access.Submatrix` (matrices/_base.py:1144-1150): `Access.GetChecked`, `Access.SubmatrixCells`, `Access.FullSliceCopies`, `Access.EmptyRowRange`, `Access.SliceStopBeyondEnd`.
- `Access.SetSlice` and `Access.WriteCells` (matrices/_base.py:1152-1181): `Access.SetSliceRejects`, `Access.SetSlicePartial`, `Access.WriteCellsLaw`.
- `Access.Set` (matrices/_matrix.py:279-315): `Access.SetItem`, `Access.SetThenGet`, and the rows for `_setslice` above.
- `Access.Delete` (matrices/_matrix.py:320-321): `Access.DeleteCells`.
- `Views.Keys` (matrices/_base.py:1030-1046), with `Views.Swapped`: `Views.KeysInRange`, `Views.KeysOrder`, `Views.KeysDistinct`, `Views.SwappedTwice`.
- `Views.Values` (matrices/_base.py:1048-1078; also `flatten` at matrix_types/_base.py:888-915): `Views.ValuesOrder`, `Views.EmptyIsFalsy`.
- `Views.Items` (matrices/_base.py:1080-1119): `Views.ItemsMatch`, `Views.ItemsMatchAt`.
- `Views.Len` (matrices/_base.py:1301-1302): `Views.KeysOrder`, `Views.ValuesOrder`, `Views.AsDictKeys`, which count rows·cols keys, values and entries.
- `Views.Truthy` and `Views.IsEmpty` (matrices/_base.py:1294-1299, 306-312): `Views.EmptyIsFalsy`.
- `Views.Contains` (matrices/_base.py:1304-1305): `Views.ContainsLaw`.
- `Views.Equal`, `Views.EqualsRows` and `Views.EqualsRowsAsWritten` (matrices/_base.py:1283-1291): `Views.EqualIgnoresDefault`, `Views.EqualsRowsPrefix`, `Views.EqualsRowsLaw`, `Views.PrefixEqualLaw`.
- `Construction.Construct` (matrices/_base.py:53-142): `Construction.ConstructRejects`, `Construction.RowsCells`, `Construction.RowsInferred`, `Construction.FlatCells`, `Construction.FlatWithoutCols`, `Construction.CopyKeepsDefault`, `Construction.CopyResized`, `Construction.ConstructWellFormed`, `Construction.FromOwnRows`, `Construction.FromOwnValues`.
- `Construction.Initialised` (matrices/_base.py:150-180) and `Construction.FlatLayout` (matrices/_base.py:171-180): `Construction.FlatShape`, `Construction.FlatCells`, `Construction.RowsCells`, `Construction.ConstructWellFormed`, `Base.MatrixABC.Init`.
- `Legacy.GetAsWritten` and `Legacy.GetSliceAsWritten` (matrix_types/_base.py:998-1028): `Legacy.ResolveColumnAsWritten`, `Legacy.GetAgrees`, `Legacy.ColumnTupleFinding`.

| member | source | states |
|---|---|---|
| `IterUtils.Chunked` | matrices/_iterutils.py:9-11 | A chunk size of 0 yields nothing. Otherwise the chunks concatenate back to the input, each holds 1 to n items, and all but the last hold exactly n. |
| `IterUtils.ChunkedExact` | matrices/_iterutils.py:9-11 | When the input holds k·n items, chunking gives k rows of n, and item j of row i is input item i·n + j. |
| `IterUtils.AnySum` | matrices/_iterutils.py:14-29 | An empty input raises ValueError. Otherwise the result is the left fold of `+` starting from the first item. |
| `IterUtils.FoldSumIsDot` | matrices/_iterutils.py:32-34 | Summing the pairwise products from the left equals the reference dot product. |
| `IterUtils.SumProd` | matrices/_iterutils.py:32-34 | ValueError exactly when the lengths differ (strict zip) or both vectors are empty. Otherwise the result is the dot product. |
| `IterUtils.ProductStream` | matrices/_iterutils.py:39 | The stream of row-by-column sums of products has rows(m1)·width(m2) items. |
| `IterUtils.ProductStreamAt` | matrices/_iterutils.py:39 | Item i·n + j of the stream is the dot product of row i and column j. |
| `IterUtils.MatMulCells` | matrices/_iterutils.py:37-39 | An a×b times b×c product (b, c > 0) has a rows of c items. Item (i, j) is the `_sumprod` of row i and column j. |
| `IterUtils.MatMulCell` | matrices/_iterutils.py:37-39 | The same for a single cell (i, j). |
| `IterUtils.MatMulMismatch` | matrices/_iterutils.py:37-39 | A row of m1 whose length differs from the height of m2 raises ValueError. |
| `IterUtils.MatMulExample` | matrices/_iterutils.py:37-39 | The 3×3 matrix of 1..9 squared is [[30,36,42],[66,81,96],[102,126,150]]. |
| `IterUtils.ConcatRect` | matrices/_base.py:1073-1074 | Chaining rows of c cells puts cell (i, j) at position i·c + j and gives rows·c items. |
| `IterUtils.Pairs` | matrices/_base.py:1160 | Pairing every row with every column gives \|rows\|·\|cols\| pairs drawn from the two lists. |
| `IterUtils.PairsAt` | matrices/_base.py:1043 | The pair of row i and column j is at position i·\|cols\| + j. |
| `IterUtils.PairsDistinct` | matrices/_base.py:1116 | Pairing two lists that have no repeats gives no pair twice, so the row-major keys are distinct. |
| `IterUtils.PairsIndex` | matrices/_base.py:1116 | Position k holds row k / \|cols\| and column k % \|cols\|. |
| `Selectors.InBounds` | matrices/_base.py:215-216 | The rejection test `i == n or abs(i) > n` admits exactly -n <= i < n for a non-negative length. |
| `Selectors.Offset` | matrices/_base.py:1136 | Python's reading of a negative index lands inside the dimension for every admitted index. |
| `Selectors.Bound` | matrices/_base.py:256-261 | A non-negative slice bound is kept, even beyond the length. A negative one counts from the end and lands between 0 and the length. |
| `Selectors.Range` | matrices/_base.py:262-266 | `range(start, stop, step)`: item k is start + k·step, every item lies strictly before stop, and the next step would pass stop. |
| `Selectors.RangeUnit` | matrices/_base.py:262-266 | With step 1 the range is start, ..., stop - 1. |
| `Selectors.Resolve` | matrices/_base.py:242-292 | An index or tuple resolves iff every index passes the bounds test, and every index it resolves to then lies inside the dimension. The only failure is IndexError, and a slice never fails. `_coltoindices` is the same code for the column count. |
| `Selectors.SliceIndicesInRange` | matrices/_base.py:256-266 | A resolved slice holds no negative index. With a positive step and no stop beyond the length, every index is valid. |
| `Selectors.Iota` | matrices/_base.py:195-196 | `range(n)` holds exactly 0, ..., n - 1 in order. |
| `Selectors.FullSlice` | matrices/_base.py:256-266 | `:` selects every index in order, and so does a stop of 0 (Python's `or` reads 0 as missing). |
| `Selectors.NegativeStop` | matrices/_base.py:259-261 | `[:-1]` drops the last index. |
| `Grid.Fit` | matrices/_base.py:517-522 | A line cut or padded to n cells keeps its own cells where it has them and the default after. |
| `Grid.TransposeCells` | matrices/_base.py:316-320 | Transposing keeps the invariant and moves cell (i, j) to (j, i). A (0, c) matrix with c > 0 becomes (c, 0) without row lists. |
| `Grid.TransposeTwice` | matrices/_base.py:316-320 | Transposing twice restores a matrix with columns, or one without row lists. |
| `Grid.TransposeTwiceDropsEmptyRows` | matrices/_base.py:316-320 | A (1, 0) matrix with one empty row loses that row list when transposed twice. |
| `Grid.Reverse` | matrices/_base.py:425 | `list.reverse()` puts item \|s\|-1-k at position k. |
| `Grid.ReverseTwice` | matrices/_base.py:425 | Reversing twice restores the list. |
| `Grid.FlipCells` | matrices/_base.py:422-431 | "row" mirrors the rows and "col" mirrors the cells of each row. Shape and default are kept. Any other direction is a ValueError. |
| `Grid.FlipTwice` | matrices/_base.py:422-431 | Flipping twice the same way restores the matrix. |
| `Grid.RowStep` | matrices/_base.py:363-368 | The row step appends default rows of the old width, or deletes the rows from the new count on. |
| `Grid.NarrowUndoesWiden` | matrices/_base.py:369-375 | Widening rows of c cells by k gives rows of c + k cells, and cutting them back to c restores the rows, so the two column steps of `_resize` undo each other. |
| `Grid.ResizeCells` | matrices/_base.py:351-377 | Resizing a dense matrix to (r, c) succeeds and gives a dense r×c matrix with the same default. The two call forms agree. Cells inside both shapes are kept and new cells hold the default. |
| `Grid.ResizeRejects` | matrices/_base.py:353-362 | Unreadable or negative sizes raise ValueError and change nothing. |
| `Grid.ResizeWellFormed` | matrices/_base.py:351-377 | Every completed resize keeps the invariant. |
| `Grid.ResizeGrowShrink` | matrices/_base.py:351-377 | Growing and then resizing back to the old shape restores the matrix. |
| `Grid.ResizeIdempotent` | matrices/_base.py:351-377 | Resizing a second time to the same shape changes nothing. |
| `Grid.ResizePartial` | matrices/_base.py:369-372 | On a (3, 0) matrix with one row list, widening raises IndexError after widening that row, and the old shape is kept. The state left behind breaks the invariant. |
| `Grid.InsertColPartial` | matrices/_base.py:544-556 | On a (3, 0) matrix with one row list, inserting a column fills that row list and then raises IndexError with the old shape. The state left behind breaks the invariant. |
| `Grid.InsertPos` | matrices/_base.py:524 | `list.insert` clips its position to the list. A negative position counts from the end. |
| `Grid.InsertAt` | matrices/_base.py:554 | `list.insert` puts the item at that position and shifts the rest by one. |
| `Grid.InsertRowCells` | matrices/_base.py:515-526 | Inserting a row adds the fitted line at the insert position, keeps the other rows in order, adds one to the row count, keeps the column count and the default, and keeps the invariant. |
| `Grid.InsertColCells` | matrices/_base.py:544-556 | On a dense matrix, cell i of the line (or the default) goes into row i at the insert position (negative positions count from the end, clipped to the row), the cells before and after it keep their order, and the column count grows by one. The row count and the default are kept. |
| `Grid.RemoveAt` | matrices/_base.py:643 | `del s[p]` drops exactly item p. |
| `Grid.RemoveRowCells` | matrices/_base.py:640-645 | On a dense matrix, removal succeeds iff -rows <= index < rows (otherwise IndexError), drops exactly that row and keeps the invariant. The shape becomes (rows - 1, cols), and the default is kept. |
| `Grid.InsertThenRemoveRow` | matrices/_base.py:640-645 | Removing a row just inserted at a position in range restores the matrix. |
| `Grid.RemoveColCells` | matrices/_base.py:663-668 | On a dense matrix with rows, removal succeeds iff -cols <= index < cols (otherwise IndexError) and drops that cell from every row. The shape becomes (rows, cols - 1), and the default is kept. |
| `Grid.RemoveColWithoutRows` | matrices/_base.py:663-668 | Without rows nothing is checked: any index is accepted and the column count drops, to -1 from a (0, 0) matrix. |
| `Grid.InsertThenRemoveCol` | matrices/_base.py:663-668 | Removing a column just inserted at a position in range restores a dense matrix with rows. |
| `Grid.SwapRowsCells` | matrices/_base.py:686-690 | Swapping succeeds iff both indices are in range, exchanges the two rows and leaves the others alone. Shape and default are kept. |
| `Grid.SwapColsCells` | matrices/_base.py:705-711 | Swapping succeeds iff both indices are in range, exchanges the two cells in every row and nothing else. Shape and default are kept. |
| `Grid.SwapRowsTwice` | matrices/_base.py:686-690 | Swapping the same rows twice restores the matrix. |
| `Grid.SwapColsTwice` | matrices/_base.py:705-711 | Swapping the same columns twice restores the matrix. |
| `Arith.ElementwiseCells` | matrices/_base.py:728-735 | `_imatadd` / `_imatsub` succeed iff the shapes are equal (otherwise ValueError). The result keeps the shape, the default and the invariant, and cell (i, j) becomes `m[i][j] op o[i][j]`. |
| `Arith.AddThenSubtract` | matrices/_base.py:754-761 | Adding a matrix and then subtracting it restores the receiver. |
| `Arith.SubtractSelf` | matrices/_matrix.py:177-184 | A matrix minus itself is all zeros. |
| `Arith.AddCommutes` | matrices/_base.py:728-735 | Addition gives the same grid in either order. |
| `Arith.MapCellsLaw` | matrices/_base.py:903-907 | `_map` keeps the shape, default and invariant and applies f to every cell. |
| `Arith.MapCompose` | matrices/_base.py:903-907 | Mapping f and then g is mapping their composition once. |
| `Arith.ScalarAddThenSubtract` | matrices/_base.py:827-830 | Adding a scalar and then subtracting it restores the matrix. |
| `Arith.CompatibleSymmetric` | matrices/_base.py:780-783 | The product's shape test is symmetric, and an incompatible pair raises ValueError in either order. |
| `Arith.MatMulOpCells` | matrices/_base.py:780-786 | A dense k×n matrix times a dense n×k one (k, n > 0) gives a dense k×k matrix with the receiver's default. Cell (i, j) is the dot product of row i and column j. |
| `Arith.MatMulOpWellFormed` | matrices/_base.py:780-786 | Every completed product keeps the invariant. |
| `Arith.MatMulEmptyInner` | matrices/_base.py:784 | An n×0 times 0×n product raises IndexError, because `len(m2[0])` has no row to read. |
| `Arith.SquareExample` | matrices/_base.py:780-786 | A worked 3×3 product through `_imatmul`, default kept. |
| `Access.GetItem` | matrices/_base.py:1132-1136 | A read succeeds iff both indices pass their checks (otherwise IndexError), and gives the cell with negative indices counted from the end. |
| `Access.SetItem` | matrices/_base.py:1138-1142 | A write succeeds iff both indices pass their checks (otherwise IndexError). It changes that one cell and nothing else. |
| `Access.SetThenGet` | matrices/_base.py:1132-1142 | Reading the cell just written gives the value, and every other cell reads as before. |
| `Access.SubmatrixCells` | matrices/_base.py:1144-1150 | Valid selections give a dense matrix of the selected cells in selection order, with the receiver's default. |
| `Access.GetChecked` | matrices/_base.py:1215-1258 | With index and tuple selectors, `get` fails (IndexError) exactly when a selector is out of range. |
| `Access.FullSliceCopies` | matrices/_base.py:1144-1150 | `m[:, :]` of a matrix with rows equals it. |
| `Access.EmptyRowRange` | matrices/_base.py:1144-1150 | An empty row range gives a (0, 0) matrix. |
| `Access.SliceStopBeyondEnd` | matrices/_base.py:1148 | A stop past the last row is not clipped and raises IndexError. |
| `Access.Flatten` | matrices/_base.py:1161-1175 | A scalar right-hand side is a TypeError, and a flat sequence is taken as it is. |
| `Access.Target` | matrices/_base.py:1180-1181 | An admitted pair of indices names a cell inside the shape. |
| `Access.WriteCellsLaw` | matrices/_base.py:1180-1181 | Writing distinct valid cells in order stores value k in cell k and leaves every other cell alone. |
| `Access.SetSliceRejects` | matrices/_base.py:1161-1179 | A scalar payload (TypeError) and a count mismatch (ValueError) are rejected before any cell is written. |
| `Access.SetSlicePartial` | matrices/_base.py:1176-1181 | A write whose column stop runs past the end writes the cells that exist, then raises IndexError. |
| `Access.DeleteCells` | matrices/_matrix.py:320-321 | `del m[r, c]` resets that cell to the default. Deleting a slice raises TypeError once its selectors resolve. |
| `Views.AsList` | matrices/_base.py:994-998 | `aslist` rejects any `by` but "row" and "col" with TypeError. |
| `Views.SwappedTwice` | matrices/_base.py:1045 | Turning every (row, column) pair round twice gives the pairs back. |
| `Views.KeysInRange` | matrices/_base.py:1030-1046 | Every key names a cell of the grid. |
| `Views.KeysOrder` | matrices/_base.py:1042-1046 | There are rows·cols keys. Cell (i, j) is key i·cols + j by row and key j·rows + i by column. |
| `Views.ValuesOrder` | matrices/_base.py:1073-1078 | There are rows·cols values. By row, value i·cols + j is cell (i, j); by column, value j·rows + i is. |
| `Views.ItemsMatch` | matrices/_base.py:1115-1119 | `items` pairs key k with value k, in both orders. |
| `Views.ItemsMatchAt` | matrices/_base.py:1115-1119 | The same for a single position k. |
| `Views.AsDict` | matrices/_base.py:1000-1028 | Every key of `asdict` is a cell of the shape and maps to that cell. |
| `Views.AsDictKeys` | matrices/_base.py:1028 | `asdict` has exactly the keys of `keys()`, one per cell, rows·cols in all. |
| `Views.KeysDistinct` | matrices/_base.py:1043 | No key is listed twice. |
| `Views.EmptyIsFalsy` | matrices/_base.py:306-312 | `empty()` is `not bool(m)`, which follows from the two definitions. With a row list per row, `empty()` holds exactly when every entry of `values()` is the default. |
| `Views.ContainsLaw` | matrices/_base.py:1304-1305 | On a dense matrix, `x in m` holds iff some cell holds x. A missing row list raises IndexError. |
| `Views.EqualIgnoresDefault` | matrices/_base.py:1283-1285 | Direct consequences of comparing grids only: two matrices that differ only in the default are equal, and two (2, 0) matrices with and without row lists are not. |
| `Views.EqualsRowsPrefix` | matrices/_base.py:1286-1291 | As written, a two-row matrix equals its first row alone, and any matrix equals an empty sequence. |
| `Views.EqualsRowsLaw` | matrices/_base.py:1283-1291 | When the sequence has as many rows as the grid, the row-by-row comparison as written gives exactly whole-grid equality (proved by induction through `Views.PrefixEqualLaw`). That the corrected comparison agrees with matrix equality on another matrix's rows follows from the definitions. |
| `Views.PrefixEqualLaw` | matrices/_base.py:1289 | Comparing from row r on, for equal lengths, is equality of the remaining rows. |
| `Construction.MaxLen` | matrices/_base.py:98 | The result is the length of the longest line, and 0 for no lines. |
| `Construction.InferShape` | matrices/_base.py:92-100 | A shape is inferred for everything but a non-empty flat sequence. One inferred from rows or an empty sequence is a pair of non-negative counts. |
| `Construction.RowsLayout` | matrices/_base.py:150-169 | There are r rows of c cells. A cell holds the given value where the line has one, the default otherwise. |
| `Construction.ConstructRejects` | matrices/_base.py:86-129 | TypeError for a missing shape on a non-empty flat sequence, a missing default, or a shape that is not a pair. ValueError for a negative dimension. |
| `Construction.RowsCells` | matrices/_base.py:150-169 | From rows with a shape, the result is dense r×c, with given values where present and the default elsewhere. |
| `Construction.RowsInferred` | matrices/_base.py:97-98 | Without a shape the result is the construction with shape (number of lines, longest line): dense, one row per line, every given value kept, and the default in every cell past the end of a shorter line. |
| `Construction.FlatCells` | matrices/_base.py:171-180 | From a flat sequence with columns, cell (i, j) holds value i·c + j, or the default past the end. |
| `Construction.FlatWithoutCols` | matrices/_base.py:180 | A flat (r, 0) construction leaves no row lists at all. |
| `Construction.CopyKeepsDefault` | matrices/_base.py:144-148 | A matrix argument with no shape or its own shape is copied unchanged, keeping its own default whatever default is passed. |
| `Construction.CopyResized` | matrices/_base.py:140-142 | A matrix argument with another shape is resized to it. |
| `Construction.ConstructWellFormed` | matrices/_base.py:53-142 | Every constructed state keeps the invariant. |
| `Construction.FlatShape` | matrices/_base.py:175-180 | With columns, the flat layout has r rows of c cells. |
| `Construction.FromOwnRows` | matrices/_base.py:150-169 | Rebuilding from a matrix's own rows, shape and default gives it back. |
| `Construction.FromOwnValues` | matrices/_base.py:171-180 | Rebuilding from a matrix's row-major values, shape and default gives it back. |
| `Base.MatrixABC.Init` | matrices/_base.py:144-180 | The three initialisers leave exactly the state `Initialised` describes. |
| `Base.MatrixABC.New` | matrices/_base.py:53-142 | The constructor raises exactly the errors of `Construct`. Otherwise it gives a fresh object in the constructed state. |
| `Base.MatrixABC.Copy` | matrices/_base.py:956-961 | `copy()` is a fresh object with the same state. |
| `Base.MatrixABC.Transpose` | matrices/_base.py:316-320 | The new state is the transpose of the old. |
| `Base.MatrixABC.Resize` | matrices/_base.py:351-377 | The outcome and new state are those of `Grid.Resize`, including the partial widening. |
| `Base.MatrixABC.AppendRows` | matrices/_base.py:363-366 | The append loop adds exactly k copies of the blank row. |
| `Base.MatrixABC.WidenRows` | matrices/_base.py:369-372 | The widening loop widens every existing row list. It completes iff there is one row list per row. |
| `Base.MatrixABC.NarrowRows` | matrices/_base.py:373-375 | The cutting loop cuts every row list to c cells. |
| `Base.MatrixABC.Flip` | matrices/_base.py:422-431 | The new state is `Grid.Flip` of the old. A bad direction changes nothing. |
| `Base.MatrixABC.InsertRow` | matrices/_base.py:515-526 | The new state is `Grid.InsertRow` of the old. |
| `Base.MatrixABC.InsertCol` | matrices/_base.py:544-556 | The outcome and new state are those of `Grid.InsertCol`. |
| `Base.MatrixABC.RemoveRow` | matrices/_base.py:640-645 | The new state is `Grid.RemoveRow` of the old. On IndexError nothing changes. |
| `Base.MatrixABC.RemoveCol` | matrices/_base.py:663-668 | The new state is `Grid.RemoveCol` of the old. On IndexError nothing changes. |
| `Base.MatrixABC.SwapRows` | matrices/_base.py:686-690 | The new state is `Grid.SwapRows` of the old. On IndexError nothing changes. |
| `Base.MatrixABC.SwapCols` | matrices/_base.py:705-711 | The new state is `Grid.SwapCols` of the old. On IndexError nothing changes. |
| `Base.MatrixABC.CombineGrid` | matrices/_base.py:733-735 | The double loop leaves row i equal to the combination of row i of both grids, and leaves the grid alone without columns. |
| `Base.MatrixABC.IElementwise` | matrices/_base.py:728-761 | The new state is `Arith.Elementwise` of the old. On ValueError nothing changes. |
| `Base.MatrixABC.IMatMul` | matrices/_base.py:780-786 | The new state is `Arith.MatMulOp` of the old. On error nothing changes. |
| `Base.MatrixABC.MapGrid` | matrices/_base.py:905-907 | The double loop leaves the grid that `Arith.MapCells` describes. |
| `Base.MatrixABC.Map` | matrices/_base.py:903-907 | The new state is `Arith.MapCells` of the old. |
| `Base.MatrixABC.IScalar` | matrices/_base.py:808-812 | The new state is `Arith.Scalar` of the old: every cell `x` becomes `x op scalar`, the loop `_map` runs, for `_iscaladd`, `_iscalsub` (827-830) and `_iscalmul` (845-849). |
| `Base.MatrixABC.SetItem` | matrices/_base.py:1138-1142 | The new state is `Access.SetItem` of the old. On IndexError nothing changes. |
| `Base.MatrixABC.SetSlice` | matrices/_base.py:1152-1181 | The outcome and new state are those of `Access.SetSlice`, including a partial write. |
| `Base.MatrixABC.WriteAll` | matrices/_base.py:1180-1181 | The write loop has the outcome and state of `Access.WriteCells`. |
| `Base.MatrixABC.MatElementwise` | matrices/_base.py:737-778 | `matadd` and `matsub` give a fresh object in the `Elementwise` state, or ValueError. |
| `Base.MatrixABC.MatMulCopy` | matrices/_base.py:788-806 | `matmul` gives a fresh object in the `MatMulOp` state, or its error. |
| `Base.MatrixABC.ScalarCopy` | matrices/_base.py:814-825 | `scaladd`, `scalsub` and `scalmul` give a fresh object in the `Scalar` state. |
| `Base.MatrixABC.Operator` | matrices/_base.py:1307-1315 | `+` and `-` are cell-wise for a matrix operand and scalar otherwise. Each gives a fresh object. |
| `Mutable.Matrix.New` | matrices/_base.py:53-76 | `Matrix(...)` raises the constructor's errors, or gives a fresh object in the constructed state. |
| `Mutable.Matrix.Transpose` | matrices/_matrix.py:101-103 | The receiver is transposed and returned. |
| `Mutable.Matrix.Resize` | matrices/_matrix.py:105-107 | The receiver takes `Grid.Resize`'s state and is returned, or the error is raised. |
| `Mutable.Matrix.SetShape` | matrices/_matrix.py:257-259 | The setter calls `resize` without its required `cols` argument, so it raises TypeError. |
| `Mutable.Matrix.Flip` | matrices/_matrix.py:109-111 | The receiver is flipped and returned. A bad direction raises and changes nothing. |
| `Mutable.Matrix.FlipH` | matrices/_base.py:455-482 | `fliph` is `flip(by="col")`. |
| `Mutable.Matrix.FlipV` | matrices/_base.py:484-513 | `flipv` is `flip(by="row")` and always succeeds. |
| `Mutable.Matrix.InsertRow` | matrices/_matrix.py:113-115 | The row is inserted into the receiver, which is returned. |
| `Mutable.Matrix.AppendRow` | matrices/_base.py:574-589 | `appendrow` inserts at the row count. |
| `Mutable.Matrix.PrependRow` | matrices/_base.py:608-622 | `prependrow` inserts at 0. |
| `Mutable.Matrix.InsertCol` | matrices/_matrix.py:117-119 | The column is inserted into the receiver, which is returned. |
| `Mutable.Matrix.AppendCol` | matrices/_base.py:591-606 | `appendcol` inserts at the column count. |
| `Mutable.Matrix.PrependCol` | matrices/_base.py:624-638 | `prependcol` inserts at 0. |
| `Mutable.Matrix.RemoveRow` | matrices/_matrix.py:121-123 | The row is removed and the receiver returned. An out-of-range index raises IndexError and changes nothing. |
| `Mutable.Matrix.RemoveCol` | matrices/_matrix.py:125-127 | The column is removed and the receiver returned. A bad index raises IndexError and changes nothing. |
| `Mutable.Matrix.SwapRows` | matrices/_matrix.py:129-131 | The rows are swapped and the receiver returned, or IndexError with nothing changed. |
| `Mutable.Matrix.SwapCols` | matrices/_matrix.py:133-135 | The columns are swapped and the receiver returned, or IndexError with nothing changed. |
| `Mutable.Matrix.IMatElementwise` | matrices/_matrix.py:139-191 | `imatadd` and `imatsub` give the `Elementwise` state, with the operand read as it was at the call (it may be the receiver), and return the receiver. A shape mismatch raises ValueError and changes nothing. |
| `Mutable.Matrix.IMatMul` | matrices/_matrix.py:193-228 | `imatmul` and `@=` give the product state, or the error with nothing changed. |
| `Mutable.Matrix.IScalar` | matrices/_matrix.py:230-240 | `iscaladd`, `iscalsub`, `iscalmul` and `*=` give the `Scalar` state and return the receiver. |
| `Mutable.Matrix.IOperator` | matrices/_matrix.py:325-333 | `+=` and `-=` are cell-wise for a matrix operand and scalar otherwise. |
| `Mutable.Matrix.Map` | matrices/_matrix.py:242-249 | `map` gives the `MapCells` state and returns the receiver. |
| `Mutable.Matrix.SetDefault` | matrices/_matrix.py:265-267 | Setting `default` changes the default and no cell. |
| `Mutable.Matrix.Set` | matrices/_matrix.py:279-318 | `set` and `m[r, c] = v` write one cell for two indices and a slice otherwise, with the outcome and state of `Access.Set`. |
| `Mutable.Matrix.Delete` | matrices/_matrix.py:320-321 | `del m[r, c]` is assignment of the default. |
| `Immutable.FrozenMatrix.New` | matrices/_base.py:77-89 | `FrozenMatrix(...)` raises the constructor's errors, or gives a fresh object in the constructed state. |
| `Immutable.FrozenMatrix.Transpose` | matrices/_frozen_matrix.py:37-40 | The result is a fresh transposed copy. |
| `Immutable.FrozenMatrix.Resize` | matrices/_frozen_matrix.py:42-45 | The result is a fresh resized copy, for a shape sequence alone or for two counts, or the error. |
| `Immutable.FrozenMatrix.Flip` | matrices/_frozen_matrix.py:47-50 | The result is a fresh flipped copy, or ValueError. |
| `Immutable.FrozenMatrix.FlipH` | matrices/_base.py:455 | The result is a fresh copy with the columns reversed. |
| `Immutable.FrozenMatrix.FlipV` | matrices/_base.py:484 | The result is a fresh copy with the rows reversed. |
| `Immutable.FrozenMatrix.InsertRow` | matrices/_frozen_matrix.py:52-55 | The result is a fresh copy with the row inserted. |
| `Immutable.FrozenMatrix.InsertCol` | matrices/_frozen_matrix.py:57-60 | The result is a fresh copy with the column inserted, or the error. |
| `Immutable.FrozenMatrix.RemoveRow` | matrices/_frozen_matrix.py:62-65 | The result is a fresh copy without the row, or IndexError. |
| `Immutable.FrozenMatrix.RemoveCol` | matrices/_frozen_matrix.py:67-70 | The result is a fresh copy without the column, or IndexError. |
| `Immutable.FrozenMatrix.SwapRows` | matrices/_frozen_matrix.py:72-75 | The result is a fresh copy with the rows swapped, or IndexError. |
| `Immutable.FrozenMatrix.SwapCols` | matrices/_frozen_matrix.py:77-80 | The result is a fresh copy with the columns swapped, or IndexError. |
| `Immutable.FrozenMatrix.Map` | matrices/_frozen_matrix.py:84-92 | The result is a fresh copy with f applied to every cell. |
| `Legacy.ResolveColumnAsWritten` | matrix_types/_base.py:199-215 | A column tuple is rejected iff some element equals the ROW count or exceeds it in absolute value. A single column index is checked against the column count. |
| `Legacy.GetAgrees` | matrix_types/_base.py:998-1028 | `get` agrees with `matrices` whenever the column selector is not a tuple or the matrix is square. |
| `Legacy.ColumnTupleFinding` | matrix_types/_base.py:213-215 | In a 2×3 matrix, `get(0, (2,))` raises IndexError, while the `matrices` check returns the 1×1 submatrix [[3]]. |
| `Legacy.Assign` | matrix_types/_matrix.py:87-91 | Item assignment, deletion and slice assignment (`_base.py:1006-1012`) all raise NotImplementedError and change nothing. |
| `Legacy.InitFromRowsAsWritten` | matrix_types/_base.py:129-147 | With enough rows, the grid is `RowsLayout` and the caller's object is untouched. With too few, an object without `append` (a tuple) raises AttributeError and nothing is built; a list ends up extended with default rows up to the row count, and the grid is `RowsLayout`. |
| `Legacy.AsDictLoop` | matrix_types/_base.py:945-973 | The dictionary filled cell by cell equals `Views.AsDict`: exactly rows·cols entries, each mapping (r, c) to its cell. |

## Findings

| source | as written | input that shows it | evidently intended | confidence | as-written member | corrected member |
|---|---|---|---|---|---|---|
| matrix_types/_base.py:213-215 | A column-index tuple is bounds-checked against `_shape[0]`, the row count. | A 2×3 matrix and `get(0, (2,))`: column 2 exists, yet IndexError is raised. | Check against `_shape[1]`, as the single-index branch at line 209 and matrices/_base.py:239 do. | high; not executed | `Legacy.ColumnTupleFinding` | `Selectors.Resolve` |
| matrices/_base.py:1286-1291 | `m == seq` compares only the first `len(seq)` rows and never the lengths. | `Matrix([[1], [2]], default=0) == [[1]]` and `== []` are both True. A longer sequence whose leading rows match raises IndexError. | True only when the sequence holds exactly the rows of the grid. | high; not executed | `Views.EqualsRowsPrefix` | `Views.EqualsRowsLaw` |

## Left out

- Formatting: `__str__`, `__repr__`, matrices/formatter.py and matrix_types/_formatter.py are display rendering. They only read the grid and never change it.
- `__getitem__`, `__iter__` and the one-argument `get((row, col))` form only unpack or iterate. The model takes the two selectors directly (`Access.Get`). In `matrices`, `__iter__` yields `keys()` (`Views.Keys`); in `matrix_types` it raises NotImplementedError.
- `foreach` calls a function for its side effects only and leaves the cells unchanged. Functions in this model have no side effects, so it has nothing to model.
- The `*args` and `**kwargs` passed through `map` and `foreach` are left out. A mapped function is a Dafny function `int -> int`.
- Cells are integers. The generic cell type `T`, other numeric types and the TypeError that `_anysum` raises for operands without `+` are not modelled.
- Run-time type checks (`isinstance`) are not modelled: a non-integer index or shape entry, a tuple with a non-integer element, a shape that is not a tuple, and unexpected keyword arguments. Their TypeError paths cannot be reached with the typed arguments here. The checks on the shape's length, negative sizes and missing shape or default are modelled.
- A data argument mixing sequences and scalars is not representable. `Construction.Source` is either all rows or all scalars.
- `Mutable.Matrix.Set`: two plain indices with a sequence value store that sequence in one cell, which integer cells cannot hold. That case is excluded by its requires, and likewise for `Access.Set`.
- `copy()` deep-copies the grid. Here states are values, so no aliasing between copies exists to model.
- `Views.EqualsRows`: equality with a value that is neither a matrix nor a sequence (`self._data == other`) is left out.
- `Grid.Resize` and `Grid.InsertCol`: when they raise part way on a matrix without columns that holds fewer row lists than rows, the state they leave has cells under a column count of 0 and breaks the invariant (`Grid.ResizePartial`, `Grid.InsertColPartial`). `Base.MatrixABC.Resize` and `Base.MatrixABC.InsertCol` leave that state too. The object stays usable in Python, but every later method here requires the invariant, so nothing done to it afterwards is modelled.
- After `removecol` on a matrix without rows, the column count can be negative (`Grid.RemoveColWithoutRows`). Operations on such a state are not modelled, because every class method requires the invariant.
- `_calculate_helpers` caches `range(rows)` and `range(cols)`. The model always reads the ranges from the current shape, which is what every caller sees after the helper runs.
- `matrix_types/__init__.py` imports a `Matrix` that `matrix_types/_base.py` does not define. The earlier `FrozenMatrix` does not override the abstract `__setitem__`. The model describes the code of those classes whatever their importability.
- `more_itertools` (used by `matrix_types`) is not part of this model. Its `chunked` and `matmul` are taken to behave as matrices/_iterutils.py does.
- The text of exception messages is not modelled, only the exception kind.

=== FILE: access.dfy ===
/** Reading and writing cells and submatrices of MatrixABC
    (matrices/_base.py): `_getitem`, `_setitem`, `_getslice`, `_setslice`,
    `get`, and `Matrix.set` / `__delitem__` (matrices/_matrix.py). */
module Access {
  import opened Errors
  import opened IterUtils
  import opened Selectors
  import opened Grid

  /** Whether a row and a column index pass both bounds checks. */
  predicate Addresses(m: Mat, row: int, col: int)
  {
    InBounds(row, m.rows) && InBounds(col, m.cols)
  }

  /** `_getitem`: both indices are checked (IndexError), then the cell is
      read, negative indices counting from the end. */
  function GetItem(m: Mat, row: int, col: int): (r: Result<int>)
    requires WellFormed(m)
    ensures r.Ok? <==> Addresses(m, row, col)
    ensures r.Err? ==> r.error == IndexError
    ensures r.Ok? ==> Dense(m) && r.value == m.data[Offset(row, m.rows)][Offset(col, m.cols)]
  {
    if !Addresses(m, row, col) then Err(IndexError)
    else Ok(m.data[Offset(row, m.rows)][Offset(col, m.cols)])
  }

  /** `_setitem`: both indices are checked (IndexError), then the one cell
      is overwritten; nothing else changes. */
  function SetItem(m: Mat, row: int, col: int, v: int): (r: Result<Mat>)
    requires WellFormed(m)
    ensures r.Ok? <==> Addresses(m, row, col)
    ensures r.Err? ==> r.error == IndexError
    ensures r.Ok? ==> Dense(r.value) && r.value.rows == m.rows && r.value.cols == m.cols && r.value.dflt == m.dflt
    ensures r.Ok? ==> forall i, j :: 0 <= i < m.rows && 0 <= j < m.cols ==>
      r.value.data[i][j] == if i == Offset(row, m.rows) && j == Offset(col, m.cols) then v else m.data[i][j]
  {
    if !Addresses(m, row, col) then Err(IndexError)
    else
      var i, j := Offset(row, m.rows), Offset(col, m.cols);
      Ok(m.(data := m.data[i := m.data[i][j := v]]))
  }

  /** Reading a cell just written gives the written value; every other cell
      reads as before. */
  lemma SetThenGet(m: Mat, row: int, col: int, v: int, row2: int, col2: int)
    requires WellFormed(m) && Addresses(m, row, col)
    ensures SetItem(m, row, col, v).Ok?
    ensures GetItem(SetItem(m, row, col, v).value, row, col) == Ok(v)
    ensures Offset(row2, m.rows) != Offset(row, m.rows) || Offset(col2, m.cols) != Offset(col, m.cols) ==>
      GetItem(SetItem(m, row, col, v).value, row2, col2) == GetItem(m, row2, col2)
  {
  }

  /** `[[data[r][c] for c in cols] for r in rows]` made into a new matrix
      with the same default: IndexError when a selected row or column does
      not exist (only read when both selections are non-empty); a (0, 0)
      matrix when no row is selected. */
  function Submatrix(m: Mat, rs: seq<int>, cs: seq<int>): (r: Result<Mat>)
    requires WellFormed(m)
  {
    if rs != [] && cs != [] &&
       ((exists k :: 0 <= k < |rs| && !PyValid(rs[k], |m.data|)) ||
        (exists k :: 0 <= k < |cs| && !PyValid(cs[k], m.cols)))
    then Err(IndexError)
    else if rs == [] then Ok(Mat([], 0, 0, m.dflt))
    else
      Ok(Mat(seq(|rs|, i requires 0 <= i < |rs| =>
               seq(|cs|, j requires 0 <= j < |cs| => m.data[Offset(rs[i], |m.data|)][Offset(cs[j], m.cols)])),
             |rs|, |cs|, m.dflt))
  }

  /** `_getslice`: resolve the row and column selectors, then take the
      submatrix. */
  function GetSlice(m: Mat, rsel: Selector, csel: Selector): Result<Mat>
    requires WellFormed(m)
  {
    var rs :- Resolve(rsel, m.rows);
    var cs :- Resolve(csel, m.cols);
    Submatrix(m, rs, cs)
  }

  /** What `get` returns: a cell value or a submatrix. */
  datatype Got = Value(v: int) | Sub(sub: Mat)

  /** `get(row, col)`: a single cell when both selectors are indices,
      otherwise a submatrix. */
  function Get(m: Mat, rsel: Selector, csel: Selector): Result<Got>
    requires WellFormed(m)
  {
    if rsel.Idx? && csel.Idx? then
      var v :- GetItem(m, rsel.i, csel.i);
      Ok(Value(v))
    else
      var s :- GetSlice(m, rsel, csel);
      Ok(Sub(s))
  }

  /** Selecting valid rows and columns gives a dense matrix of the selected
      cells, in the order selected. */
  lemma SubmatrixCells(m: Mat, rs: seq<int>, cs: seq<int>)
    requires Dense(m) && rs != []
    requires forall k :: 0 <= k < |rs| ==> InBounds(rs[k], m.rows)
    requires forall k :: 0 <= k < |cs| ==> InBounds(cs[k], m.cols)
    ensures Submatrix(m, rs, cs).Ok?
    ensures var s := Submatrix(m, rs, cs).value;
      Dense(s) && s.rows == |rs| && s.cols == |cs| && s.dflt == m.dflt &&
      forall i, j :: 0 <= i < |rs| && 0 <= j < |cs| ==> s.data[i][j] == m.data[Offset(rs[i], m.rows)][Offset(cs[j], m.cols)]
  {
  }

  /** Index and tuple selectors are checked up front, so on a dense matrix
      `get` with them fails exactly when a selector is out of range. */
  lemma GetChecked(m: Mat, rsel: Selector, csel: Selector)
    requires Dense(m) && !rsel.Slice? && !csel.Slice?
    ensures Get(m, rsel, csel).Ok? <==> Resolve(rsel, m.rows).Ok? && Resolve(csel, m.cols).Ok?
    ensures Get(m, rsel, csel).Err? ==> Get(m, rsel, csel).error == IndexError
  {
    if Resolve(rsel, m.rows).Ok? && Resolve(csel, m.cols).Ok? && !(rsel.Idx? && csel.Idx?) {
      var rs, cs := Resolve(rsel, m.rows).value, Resolve(csel, m.cols).value;
      if rs != [] {
        SubmatrixCells(m, rs, cs);
      }
    }
  }

  /** `m[:, :]` of a matrix with rows is an equal copy. */
  lemma {:induction false} FullSliceCopies(m: Mat)
    requires Dense(m) && m.rows > 0
    ensures GetSlice(m, Slice(None, None, None), Slice(None, None, None)) == Ok(m)
  {
    FullSlice(m.rows, None);
    FullSlice(m.cols, None);
    var rs, cs := Iota(m.rows), Iota(m.cols);
    SubmatrixCells(m, rs, cs);
    var s := Submatrix(m, rs, cs).value;
    forall i | 0 <= i < m.rows ensures s.data[i] == m.data[i] {
      assert |s.data[i]| == m.cols;
      forall j | 0 <= j < m.cols ensures s.data[i][j] == m.data[i][j] {
        assert rs[i] == i && cs[j] == j;
      }
    }
    assert s.data == m.data;
  }

  /** An empty row range such as `m[2:2, :]` gives a (0, 0) matrix. */
  lemma EmptyRowRange(m: Mat, k: int, csel: Selector)
    requires Dense(m) && k > 0 && Resolve(csel, m.cols).Ok?
    ensures GetSlice(m, Slice(Some(k), Some(k), None), csel) == Ok(Mat([], 0, 0, m.dflt))
  {
  }

  /** Slice stops are not clipped: a stop past the last row raises
      IndexError instead of stopping at the edge as list slicing does. */
  lemma {:induction false} SliceStopBeyondEnd(m: Mat)
    requires Dense(m) && m.rows > 0 && m.cols > 0
    ensures GetSlice(m, Slice(None, Some(m.rows + 1), None), Idx(0)) == Err(IndexError)
  {
    var rs := Range(0, m.rows + 1, 1);
    RangeUnit(0, m.rows + 1);
    assert rs[m.rows] == m.rows && !PyValid(rs[m.rows], |m.data|);
  }

  // ------------------------------------------------------------ slice writes

  /** The right-hand side of a slice assignment. */
  datatype Payload =
    | Single(v: int)
    | FlatSeq(items: seq<int>)
    | Nested(lines: seq<seq<int>>)
    | OfMatrix(src: Mat)

  /** How `_setslice` flattens its values: a matrix by its row-major values,
      a sequence of sequences by chaining them, a flat sequence as it is;
      anything that is not a sequence is a TypeError. */
  function Flatten(p: Payload): (r: Result<seq<int>>)
    ensures r.Err? <==> p.Single?
    ensures r.Err? ==> r.error == TypeError
    ensures p.FlatSeq? ==> r == Ok(p.items)
  {
    match p
    case Single(_) => Err(TypeError)
    case FlatSeq(items) => Ok(items)
    case Nested(lines) => Ok(Concat(lines))
    case OfMatrix(src) => Ok(Concat(src.data))
  }

  /** The cell a pair of indices addresses, negative indices read. */
  function Target(m: Mat, cell: (int, int)): (t: (int, int))
    ensures Addresses(m, cell.0, cell.1) ==> 0 <= t.0 < m.rows && 0 <= t.1 < m.cols
  {
    (Offset(cell.0, m.rows), Offset(cell.1, m.cols))
  }

  /** The `_setitem` calls of `_setslice`, one per cell in order; the first
      that raises stops the loop and leaves the earlier writes in place. */
  function WriteCells(m: Mat, cells: seq<(int, int)>, vals: seq<int>): Effect
    requires WellFormed(m) && |cells| == |vals|
    decreases |cells|
  {
    if cells == [] then Effect(Pass, m)
    else
      match SetItem(m, cells[0].0, cells[0].1, vals[0])
      case Err(e) => Effect(Fail(e), m)
      case Ok(m1) => WriteCells(m1, cells[1..], vals[1..])
  }

  /** `_setslice`: resolve the selectors, pair every selected row with
      every selected column, flatten the values (TypeError), demand one
      value per cell (ValueError), then write them in order. */
  function SetSlice(m: Mat, rsel: Selector, csel: Selector, p: Payload): Effect
    requires WellFormed(m)
  {
    match Resolve(rsel, m.rows)
    case Err(e) => Effect(Fail(e), m)
    case Ok(rs) =>
      match Resolve(csel, m.cols)
      case Err(e) => Effect(Fail(e), m)
      case Ok(cs) =>
        var cells := Pairs(rs, cs);
        match Flatten(p)
        case Err(e) => Effect(Fail(e), m)
        case Ok(vals) =>
          if |vals| != |cells| then Effect(Fail(ValueError), m)
          else WriteCells(m, cells, vals)
  }

  /** Writing to distinct, valid cells stores value k in cell k and leaves
      every other cell alone. */
  lemma {:induction false} WriteCellsLaw(m: Mat, cells: seq<(int, int)>, vals: seq<int>)
    requires Dense(m) && |cells| == |vals|
    requires forall k :: 0 <= k < |cells| ==> Addresses(m, cells[k].0, cells[k].1)
    requires forall k, l :: 0 <= k < l < |cells| ==> Target(m, cells[k]) != Target(m, cells[l])
    ensures var e := WriteCells(m, cells, vals);
      e.outcome == Pass && Dense(e.after) &&
      e.after.rows == m.rows && e.after.cols == m.cols && e.after.dflt == m.dflt &&
      (forall k :: 0 <= k < |cells| ==> e.after.data[Target(m, cells[k]).0][Target(m, cells[k]).1] == vals[k]) &&
      (forall i, j :: 0 <= i < m.rows && 0 <= j < m.cols && (i, j) !in Targets(m, cells) ==> e.after.data[i][j] == m.data[i][j])
    decreases |cells|
  {
    if cells != [] {
      var m1 := SetItem(m, cells[0].0, cells[0].1, vals[0]).value;
      TargetsCons(m, m1, cells);
      WriteCellsLaw(m1, cells[1..], vals[1..]);
      var after := WriteCells(m, cells, vals).after;
      assert Target(m, cells[0]) !in Targets(m1, cells[1..]);
      forall k | 0 <= k < |cells|
        ensures after.data[Target(m, cells[k]).0][Target(m, cells[k]).1] == vals[k]
      {
        if k > 0 {
          assert Target(m, cells[k]) == Target(m1, cells[1..][k - 1]);
        }
      }
    }
  }

  /** The targets of a list are those of its head and of its tail; the tail
      reads the same targets on any matrix of the same shape. */
  lemma {:induction false} TargetsCons(m: Mat, m1: Mat, cells: seq<(int, int)>)
    requires cells != [] && m1.rows == m.rows && m1.cols == m.cols
    ensures Targets(m, cells) == {Target(m, cells[0])} + Targets(m1, cells[1..])
    ensures forall k :: 0 <= k < |cells| - 1 ==> Target(m1, cells[1..][k]) == Target(m, cells[k + 1])
  {
    assert forall k :: 0 <= k < |cells| - 1 ==> cells[1..][k] == cells[k + 1];
  }

  /** The set of cells a list of index pairs addresses. */
  function Targets(m: Mat, cells: seq<(int, int)>): set<(int, int)>
  {
    set k | 0 <= k < |cells| :: Target(m, cells[k])
  }

  /** A scalar right-hand side is a TypeError and a count mismatch a
      ValueError, both before any cell is written. */
  lemma SetSliceRejects(m: Mat, rsel: Selector, csel: Selector, p: Payload)
    requires WellFormed(m) && Resolve(rsel, m.rows).Ok? && Resolve(csel, m.cols).Ok?
    ensures p.Single? ==> SetSlice(m, rsel, csel, p) == Effect(Fail(TypeError), m)
    ensures p.FlatSeq? && |p.items| != |Resolve(rsel, m.rows).value| * |Resolve(csel, m.cols).value| ==>
      SetSlice(m, rsel, csel, p) == Effect(Fail(ValueError), m)
  {
  }

  /** A slice write whose stop runs past the last column writes the cells
      that exist and then raises IndexError, leaving a partial update. */
  lemma {:induction false} SetSlicePartial()
    ensures SetSlice(Mat([[1, 2]], 1, 2, 0), Idx(0), Slice(None, Some(3), None), FlatSeq([7, 8, 9]))
         == Effect(Fail(IndexError), Mat([[7, 8]], 1, 2, 0))
  {
    var m := Mat([[1, 2]], 1, 2, 0);
    RangeUnit(0, 3);
    var cs := Range(0, 3, 1);
    assert cs == [0, 1, 2];
    var cells := Pairs([0], cs);
    assert cells == [(0, 0), (0, 1), (0, 2)];
    var m1 := SetItem(m, 0, 0, 7).value;
    assert [1, 2][0 := 7] == [7, 2];
    assert m1.data == [[1, 2]][0 := [7, 2]] == [[7, 2]];
    var m2 := SetItem(m1, 0, 1, 8).value;
    assert [7, 2][1 := 8] == [7, 8];
    assert m2.data == [[7, 2]][0 := [7, 8]] == [[7, 8]];
    assert WriteCells(m2, cells[2..], [7, 8, 9][2..]) == Effect(Fail(IndexError), m2);
    assert cells[1..][1..] == cells[2..];
    assert [7, 8, 9][1..][1..] == [7, 8, 9][2..];
  }

  /** `Matrix.set(row, col, values)`: a single cell when both selectors are
      indices, otherwise a slice write. */
  function Set(m: Mat, rsel: Selector, csel: Selector, p: Payload): Effect
    requires WellFormed(m)
    requires rsel.Idx? && csel.Idx? ==> p.Single?
  {
    if rsel.Idx? && csel.Idx? then
      match SetItem(m, rsel.i, csel.i, p.v)
      case Err(e) => Effect(Fail(e), m)
      case Ok(m1) => Effect(Pass, m1)
    else SetSlice(m, rsel, csel, p)
  }

  /** `Matrix.__delitem__`: sets the selection to the default, which for a
      single cell resets it and for a slice is a TypeError (a scalar is not
      a sequence of values). */
  function Delete(m: Mat, rsel: Selector, csel: Selector): Effect
    requires WellFormed(m)
  {
    Set(m, rsel, csel, Single(m.dflt))
  }

  /** Deleting a cell resets it to the default; deleting a slice raises
      TypeError once its selectors resolve. */
  lemma DeleteCells(m: Mat, rsel: Selector, csel: Selector)
    requires WellFormed(m)
    ensures rsel.Idx? && csel.Idx? && Addresses(m, rsel.i, csel.i) ==>
      Delete(m, rsel, csel).outcome == Pass &&
      GetItem(Delete(m, rsel, csel).after, rsel.i, csel.i) == Ok(m.dflt)
    ensures !(rsel.Idx? && csel.Idx?) && Resolve(rsel, m.rows).Ok? && Resolve(csel, m.cols).Ok? ==>
      Delete(m, rsel, csel) == Effect(Fail(TypeError), m)
  {
  }
}

=== FILE: arith.dfy ===
/** Cell-wise arithmetic, scalar arithmetic, `map` and the matrix product of
    MatrixABC (matrices/_base.py), as functions of the operands' states. */
module Arith {
  import opened Errors
  import opened IterUtils
  import opened Grid

  /** The Python operator a cell-wise or scalar operation applies. */
  datatype ArithOp = Plus | Minus | Times

  /** The right-hand side of `+`, `-`, `+=` and `-=`: another matrix (its
      state) or a scalar. */
  datatype Operand = MatrixOperand(m: Mat) | ScalarOperand(s: int)

  function Apply(op: ArithOp, x: int, y: int): int
  {
    match op
    case Plus => x + y
    case Minus => x - y
    case Times => x * y
  }

  /** One row combined cell by cell with the matching row of the other
      operand, `row[c] = row[c] op other_row[c]`. */
  function CombineRow(a: seq<int>, b: seq<int>, op: ArithOp): (r: seq<int>)
    requires |b| >= |a|
    ensures |r| == |a| && forall j :: 0 <= j < |a| ==> r[j] == Apply(op, a[j], b[j])
  {
    seq(|a|, j requires 0 <= j < |a| => Apply(op, a[j], b[j]))
  }

  /** `_imatadd` / `_imatsub`: ValueError when the shapes differ; otherwise
      every cell in the row and column ranges becomes `self op other`. The
      receiver's default is kept. */
  function Elementwise(m: Mat, o: Mat, op: ArithOp): Result<Mat>
    requires WellFormed(m) && WellFormed(o)
  {
    if m.rows != o.rows || m.cols != o.cols then Err(ValueError)
    else if m.cols == 0 then Ok(m)
    else Ok(m.(data := seq(m.rows, i requires 0 <= i < m.rows => CombineRow(m.data[i], o.data[i], op))))
  }

  /** The cell-wise operations succeed exactly on equal shapes, keep the
      invariant and the shape, and combine the cells pairwise. */
  lemma ElementwiseCells(m: Mat, o: Mat, op: ArithOp)
    requires WellFormed(m) && WellFormed(o)
    ensures Elementwise(m, o, op).Ok? <==> (m.rows == o.rows && m.cols == o.cols)
    ensures Elementwise(m, o, op).Err? ==> Elementwise(m, o, op).error == ValueError
    ensures Elementwise(m, o, op).Ok? ==>
      var r := Elementwise(m, o, op).value;
      WellFormed(r) && (Dense(m) ==> Dense(r)) && r.rows == m.rows && r.cols == m.cols && r.dflt == m.dflt &&
      forall i, j :: 0 <= i < m.rows && 0 <= j < m.cols ==> r.data[i][j] == Apply(op, m.data[i][j], o.data[i][j])
  {
  }

  /** Adding a matrix and then subtracting it again restores the receiver. */
  lemma {:induction false} AddThenSubtract(m: Mat, o: Mat)
    requires WellFormed(m) && WellFormed(o) && m.rows == o.rows && m.cols == o.cols
    ensures Elementwise(m, o, Plus).Ok?
    ensures Elementwise(Elementwise(m, o, Plus).value, o, Minus) == Ok(m)
  {
    ElementwiseCells(m, o, Plus);
    var s := Elementwise(m, o, Plus).value;
    ElementwiseCells(s, o, Minus);
    if m.cols > 0 {
      var back := Elementwise(s, o, Minus).value;
      forall i | 0 <= i < m.rows ensures back.data[i] == m.data[i] {
        assert back.data[i] == CombineRow(s.data[i], o.data[i], Minus);
        assert s.data[i] == CombineRow(m.data[i], o.data[i], Plus);
      }
      assert back.data == m.data;
    }
  }

  /** A matrix minus itself holds only zeros. */
  lemma SubtractSelf(m: Mat)
    requires WellFormed(m)
    ensures Elementwise(m, m, Minus).Ok?
    ensures forall i, j :: 0 <= i < m.rows && 0 <= j < m.cols ==> Elementwise(m, m, Minus).value.data[i][j] == 0
  {
    ElementwiseCells(m, m, Minus);
  }

  /** Addition gives the same grid in either order (the defaults may differ,
      and equality compares grids only). */
  lemma {:induction false} AddCommutes(m: Mat, o: Mat)
    requires WellFormed(m) && WellFormed(o) && m.rows == o.rows && m.cols == o.cols
    ensures Elementwise(m, o, Plus).Ok? && Elementwise(o, m, Plus).Ok?
    ensures m.data == o.data || m.cols > 0 ==> Elementwise(m, o, Plus).value.data == Elementwise(o, m, Plus).value.data
  {
    ElementwiseCells(m, o, Plus);
    ElementwiseCells(o, m, Plus);
    if m.cols > 0 {
      var x, y := Elementwise(m, o, Plus).value, Elementwise(o, m, Plus).value;
      forall i | 0 <= i < m.rows ensures x.data[i] == y.data[i] {
        assert |x.data[i]| == |y.data[i]| == m.cols;
      }
    }
  }

  /** `_map(func)`: every cell in the row and column ranges becomes
      `func(cell)`. */
  function MapCells(m: Mat, f: int -> int): Mat
    requires WellFormed(m)
  {
    m.(data := seq(|m.data|, i requires 0 <= i < |m.data| =>
      seq(|m.data[i]|, j requires 0 <= j < |m.data[i]| => f(m.data[i][j]))))
  }

  /** Mapping keeps the shape and the invariant and applies the function to
      each cell. */
  lemma MapCellsLaw(m: Mat, f: int -> int)
    requires WellFormed(m)
    ensures WellFormed(MapCells(m, f)) && (Dense(m) ==> Dense(MapCells(m, f)))
    ensures MapCells(m, f).rows == m.rows && MapCells(m, f).cols == m.cols && MapCells(m, f).dflt == m.dflt
    ensures forall i, j :: 0 <= i < |m.data| && 0 <= j < m.cols ==> MapCells(m, f).data[i][j] == f(m.data[i][j])
  {
  }

  /** `_iscaladd` / `_iscalsub` / `_iscalmul`: the same loop as `_map`,
      with `cell op scalar` as the function. */
  function Scalar(m: Mat, op: ArithOp, s: int): Mat
    requires WellFormed(m)
  {
    MapCells(m, x => Apply(op, x, s))
  }

  /** Mapping twice is mapping the composition once. */
  lemma {:induction false} MapCompose(m: Mat, f: int -> int, g: int -> int)
    requires WellFormed(m)
    ensures WellFormed(MapCells(m, f))
    ensures MapCells(MapCells(m, f), g) == MapCells(m, x => g(f(x)))
  {
    MapCellsLaw(m, f);
    var a := MapCells(MapCells(m, f), g);
    var b := MapCells(m, x => g(f(x)));
    forall i | 0 <= i < |m.data| ensures a.data[i] == b.data[i] {
      assert |a.data[i]| == |b.data[i]| == |m.data[i]|;
    }
  }

  /** Adding a scalar and then subtracting it restores the matrix. */
  lemma {:induction false} ScalarAddThenSubtract(m: Mat, s: int)
    requires WellFormed(m)
    ensures WellFormed(Scalar(m, Plus, s)) && Scalar(Scalar(m, Plus, s), Minus, s) == m
  {
    var a := Scalar(m, Plus, s);
    assert WellFormed(a) by {
      MapCellsLaw(m, x => Apply(Plus, x, s));
    }
    var b := Scalar(a, Minus, s);
    forall i | 0 <= i < |m.data| ensures b.data[i] == m.data[i] {
      assert |b.data[i]| == |m.data[i]|;
    }
  }

  /** Whether `other` can multiply the receiver: its shape must be the
      receiver's shape reversed. */
  predicate Compatible(m: Mat, o: Mat)
  {
    m.rows == o.cols && m.cols == o.rows
  }

  /** `_imatmul`: ValueError unless the shapes are compatible; otherwise the
      grid becomes `matmul` of the two grids (whose own IndexError and
      ValueError pass through) and the shape `(rows, other.cols)`. */
  function MatMulOp(m: Mat, o: Mat): Result<Mat>
  {
    if !Compatible(m, o) then Err(ValueError)
    else
      var d :- MatMul(m.data, o.data);
      Ok(Mat(d, m.rows, o.cols, m.dflt))
  }

  /** The shape test is symmetric: a pair that is incompatible one way
      round is incompatible the other way round too. */
  lemma CompatibleSymmetric(m: Mat, o: Mat)
    ensures Compatible(m, o) <==> Compatible(o, m)
    ensures !Compatible(m, o) ==> MatMulOp(m, o) == Err(ValueError) && MatMulOp(o, m) == Err(ValueError)
  {
  }

  /** Multiplying a dense `k x n` matrix by a dense `n x k` one with
      `k, n > 0` gives a dense `k x k` matrix whose cell (i, j) is the sum of
      products of row i and column j. */
  lemma {:induction false} MatMulOpCells(m: Mat, o: Mat)
    requires Dense(m) && Dense(o) && Compatible(m, o) && m.rows > 0 && m.cols > 0
    ensures MatMulOp(m, o).Ok?
    ensures var r := MatMulOp(m, o).value;
      Dense(r) && r.rows == m.rows && r.cols == o.cols && r.dflt == m.dflt &&
      forall i, j :: 0 <= i < m.rows && 0 <= j < o.cols ==> r.data[i][j] == Dot(m.data[i], Column(o.data, j))
  {
    assert |o.data[0]| == o.cols;
    MatMulCells(m.data, o.data, o.cols);
    var r := MatMulOp(m, o).value;
    forall i | 0 <= i < m.rows ensures |r.data[i]| == o.cols {
      MatMulCell(m.data, o.data, o.cols, i, 0);
    }
  }

  /** Whenever the product succeeds the result keeps the invariant. */
  lemma {:induction false} MatMulOpWellFormed(m: Mat, o: Mat)
    requires WellFormed(m) && WellFormed(o) && MatMulOp(m, o).Ok?
    ensures WellFormed(MatMulOp(m, o).value)
  {
    if m.rows > 0 && m.cols > 0 {
      MatMulOpCells(m, o);
    }
  }

  /** An `n x 0` matrix times a `0 x n` matrix raises IndexError, because
      the right operand holds no row to take the result width from. */
  lemma MatMulEmptyInner(m: Mat, o: Mat)
    requires WellFormed(m) && WellFormed(o) && Compatible(m, o) && m.cols == 0
    ensures MatMulOp(m, o) == Err(IndexError)
  {
  }

  /** The 3 x 3 matrix of 1..9 squared. */
  lemma SquareExample(d: int)
    ensures MatMulOp(Mat([[1, 2, 3], [4, 5, 6], [7, 8, 9]], 3, 3, d), Mat([[1, 2, 3], [4, 5, 6], [7, 8, 9]], 3, 3, d))
         == Ok(Mat([[30, 36, 42], [66, 81, 96], [102, 126, 150]], 3, 3, d))
  {
    MatMulExample();
  }
}

=== FILE: base.dfy ===
/** MatrixABC (matrices/_base.py) as an object: its `_data`, `_shape` and
    `_default` are fields that the underscore helpers update in place. Every
    method is proved against the function of the old state that defines it
    in Grid, Arith, Access or Construction; what those functions promise is
    proved there. */
module Base {
  import opened Errors
  import opened IterUtils
  import opened Selectors
  import opened Grid
  import opened Arith
  import opened Access
  import opened Views
  import opened Construction

  class MatrixABC {
    var data: seq<seq<int>>
    var rows: int
    var cols: int
    var dflt: int

    /** The state as a value. */
    function Value(): Mat
      reads this
    {
      Mat(data, rows, cols, dflt)
    }

    ghost predicate Valid()
      reads this
    {
      WellFormed(Value())
    }

    /** `_init_from_matrix`, `_init_from_seqseq` and `_init_from_sequence`
        for a shape and default already checked by `New`. */
    constructor Init(src: Source, r: nat, c: nat, d: int)
      ensures Value() == Initialised(src, r, c, d)
    {
      match src {
        case Copy(m) =>
          data, rows, cols, dflt := m.data, m.rows, m.cols, m.dflt;
        case Rows(ls) =>
          dflt, rows, cols := d, r, c;
          if |ls| > 0 {
            var out: seq<seq<int>> := [];
            var i := 0;
            while i < r
              invariant 0 <= i <= r && |out| == i
              invariant forall k :: 0 <= k < i ==> out[k] == Fit(if k < |ls| then ls[k] else [], c, d)
            {
              out := out + [Fit(if i < |ls| then ls[i] else [], c, d)];
              i := i + 1;
            }
            data := out;
          } else {
            data := FlatLayout([], r, c, d);
          }
        case Flat(xs) =>
          data, rows, cols, dflt := FlatLayout(xs, r, c, d), r, c, d;
      }
    }

    /** `MatrixABC.__init__`: the argument errors, the initialiser, and a
        resize when the state does not have the requested shape. */
    static method New(src: Source, shape: Option<seq<int>>, dflt: Option<int>) returns (r: Result<MatrixABC>)
      requires src.Copy? ==> WellFormed(src.src)
      ensures Construct(src, shape, dflt).Err? ==> r == Err(Construct(src, shape, dflt).error)
      ensures Construct(src, shape, dflt).Ok? ==>
        r.Ok? && fresh(r.value) && r.value.Value() == Construct(src, shape, dflt).value
    {
      var sh: seq<int>;
      if shape.Some? {
        sh := shape.value;
      } else {
        var inferred := InferShape(src);
        if inferred.None? {
          return Err(TypeError);
        }
        sh := inferred.value;
      }
      if dflt.None? && !src.Copy? {
        return Err(TypeError);
      }
      if |sh| != 2 {
        return Err(TypeError);
      }
      if sh[0] < 0 || sh[1] < 0 {
        return Err(ValueError);
      }
      var x := new MatrixABC.Init(src, sh[0], sh[1], if dflt.Some? then dflt.value else src.src.dflt);
      if [x.rows, x.cols] != sh {
        var o := x.Resize(ShapeSeq(sh), None);
        if o.Fail? {
          return Err(o.error);
        }
      }
      return Ok(x);
    }

    /** `copy()`: a new object with the same state. */
    method Copy() returns (c: MatrixABC)
      ensures fresh(c) && c.Value() == Value()
    {
      c := new MatrixABC.Init(Source.Copy(Value()), 0, 0, dflt);
    }

    // ------------------------------------------------------------ shape

    /** `_transpose`. */
    method Transpose()
      requires Valid()
      modifies this
      ensures Value() == Grid.Transpose(old(Value()))
    {
      data, rows, cols := Transposed(data), cols, rows;
    }

    /** `_resize`: the row step, then the column step over the new row
        range; the shape is stored last, so a row list found missing part
        way leaves the rows before it widened and the old shape. */
    method Resize(rowsArg: RowsArg, colsArg: Option<int>) returns (o: Outcome)
      requires Valid()
      modifies this
      ensures Effect(o, Value()) == Grid.Resize(old(Value()), rowsArg, colsArg)
    {
      var size := SizeOf(rowsArg, colsArg);
      if size.None? {
        return Fail(ValueError);
      }
      var r, c := size.value.0, size.value.1;
      if r < 0 || c < 0 {
        return Fail(ValueError);
      }
      var grid := StepRows(Value(), r);
      if c > cols {
        var complete;
        grid, complete := WidenRows(grid, r, c - cols, dflt);
        if !complete {
          data := grid;
          return Fail(IndexError);
        }
      } else if c < cols {
        grid := NarrowRows(grid, r, c);
      }
      data, rows, cols := grid, r, c;
      return Pass;
    }

    /** The row step of `_resize`: append blank rows up to `r`, or delete
        the rows from `r` on. */
    static method StepRows(m: Mat, r: nat) returns (grid: seq<seq<int>>)
      requires WellFormed(m)
      ensures grid == RowStep(m, r)
    {
      grid := m.data;
      if r > m.rows {
        grid := AppendRows(grid, r - m.rows, Fill(m.cols, m.dflt));
      } else if r < m.rows {
        grid := grid[..Min(r, |grid|)];
      }
    }

    /** `for _ in range(k): self._data.append(blank)`. */
    static method AppendRows(grid: seq<seq<int>>, k: nat, blank: seq<int>) returns (g: seq<seq<int>>)
      ensures g == grid + seq(k, _ => blank)
    {
      g := grid;
      var n := 0;
      while n < k
        invariant 0 <= n <= k && |g| == |grid| + n
        invariant g[..|grid|] == grid
        invariant forall q :: |grid| <= q < |g| ==> g[q] == blank
      {
        g := g + [blank];
        n := n + 1;
      }
      assert g == grid + seq(k, _ => blank);
    }

    /** `for row in range(r): self._data[row] += [default] * add`: false
        with the rows before the first missing row list widened when there
        are fewer than `r` row lists. */
    static method WidenRows(grid: seq<seq<int>>, r: int, add: nat, d: int) returns (g: seq<seq<int>>, complete: bool)
      requires |grid| <= r
      ensures g == Widen(grid, add, d)
      ensures complete <==> |grid| == r
    {
      g := grid;
      var i := 0;
      while i < r
        invariant 0 <= i <= Max(r, 0) && i <= |grid| && |g| == |grid|
        invariant forall q :: 0 <= q < |grid| ==> g[q] == if q < i then grid[q] + Fill(add, d) else grid[q]
      {
        if i >= |g| {
          assert g == Widen(grid, add, d);
          return g, false;
        }
        g := g[i := g[i] + Fill(add, d)];
        i := i + 1;
      }
      assert g == Widen(grid, add, d);
      return g, true;
    }

    /** `for row in range(r): del self._data[row][c:]`. */
    static method NarrowRows(grid: seq<seq<int>>, r: nat, c: nat) returns (g: seq<seq<int>>)
      requires |grid| == r && forall q :: 0 <= q < r ==> |grid[q]| >= c
      ensures g == Narrow(grid, c)
    {
      g := grid;
      var i := 0;
      while i < r
        invariant 0 <= i <= r && |g| == r
        invariant forall q :: 0 <= q < r ==> g[q] == if q < i then grid[q][..c] else grid[q]
      {
        g := g[i := g[i][..c]];
        i := i + 1;
      }
      assert g == Narrow(grid, c);
    }

    /** `_flip`: "row" reverses the row lists, "col" each row list in the
        row range. */
    method Flip(axis: string) returns (o: Outcome)
      requires Valid()
      modifies this
      ensures Grid.Flip(old(Value()), axis).Ok? ==> o == Pass && Value() == Grid.Flip(old(Value()), axis).value
      ensures Grid.Flip(old(Value()), axis).Err? ==>
        o == Fail(Grid.Flip(old(Value()), axis).error) && Value() == old(Value())
    {
      if axis == "row" {
        data := Reverse(data);
        return Pass;
      }
      if axis == "col" {
        var d := data;
        var grid := d;
        var i := 0;
        while i < rows
          invariant 0 <= i <= Max(rows, 0) && i <= |d| && |grid| == |d|
          invariant forall q :: 0 <= q < |d| ==> grid[q] == if q < i then Reverse(d[q]) else d[q]
        {
          if i >= |grid| {
            forall q | 0 <= q < |d| ensures grid[q] == d[q] {
              assert |d[q]| == 0;
            }
            return Fail(IndexError);
          }
          grid := grid[i := Reverse(grid[i])];
          i := i + 1;
        }
        assert grid == seq(|d|, q requires 0 <= q < |d| => Reverse(d[q]));
        data := grid;
        return Pass;
      }
      return Fail(ValueError);
    }

    /** `_insertrow`. */
    method InsertRow(index: int, line: seq<int>)
      requires Valid()
      modifies this
      ensures Value() == Grid.InsertRow(old(Value()), index, line)
    {
      data := InsertAt(data, index, Fit(line, cols, dflt));
      rows := rows + 1;
    }

    /** `_insertcol`: cell `i` of the fitted line goes into row list `i` for
        every row in the row range; a missing row list raises IndexError
        after the rows before it were extended. */
    method InsertCol(index: int, line: seq<int>) returns (o: Outcome)
      requires Valid()
      modifies this
      ensures Effect(o, Value()) == Grid.InsertCol(old(Value()), index, line)
    {
      var col := Fit(line, rows, dflt);
      var d := data;
      var grid := d;
      var i := 0;
      while i < rows
        invariant 0 <= i <= Max(rows, 0) && i <= |d| && |grid| == |d|
        invariant forall q :: 0 <= q < |d| ==> grid[q] == if q < i then InsertAt(d[q], index, col[q]) else d[q]
      {
        if i >= |grid| {
          assert grid == seq(|d|, q requires 0 <= q < |d| => InsertAt(d[q], index, col[q]));
          data := grid;
          return Fail(IndexError);
        }
        grid := grid[i := InsertAt(grid[i], index, col[i])];
        i := i + 1;
      }
      assert grid == seq(|d|, q requires 0 <= q < |d| => InsertAt(d[q], index, col[q]));
      data, cols := grid, cols + 1;
      return Pass;
    }

    /** `_removerow`. */
    method RemoveRow(index: int) returns (o: Outcome)
      requires Valid()
      modifies this
      ensures Grid.RemoveRow(old(Value()), index).Ok? ==> o == Pass && Value() == Grid.RemoveRow(old(Value()), index).value
      ensures Grid.RemoveRow(old(Value()), index).Err? ==>
        o == Fail(Grid.RemoveRow(old(Value()), index).error) && Value() == old(Value())
    {
      if !InBounds(index, rows) || !PyValid(index, |data|) {
        return Fail(IndexError);
      }
      data := RemoveAt(data, Offset(index, |data|));
      rows := rows - 1;
      return Pass;
    }

    /** `_removecol`: the cell is deleted from every row list in the row
        range without a prior check. */
    method RemoveCol(index: int) returns (o: Outcome)
      requires Valid()
      modifies this
      ensures Grid.RemoveCol(old(Value()), index).Ok? ==> o == Pass && Value() == Grid.RemoveCol(old(Value()), index).value
      ensures Grid.RemoveCol(old(Value()), index).Err? ==>
        o == Fail(Grid.RemoveCol(old(Value()), index).error) && Value() == old(Value())
    {
      var d := data;
      var grid := d;
      var i := 0;
      while i < rows
        invariant 0 <= i <= Max(rows, 0) && |grid| == |d|
        invariant i > 0 ==> |d| == rows && PyValid(index, cols)
        invariant forall q :: 0 <= q < |d| ==> grid[q] == if q < i then RemoveAt(d[q], Offset(index, cols)) else d[q]
      {
        if i >= |grid| || !PyValid(index, |grid[i]|) {
          return Fail(IndexError);
        }
        grid := grid[i := RemoveAt(grid[i], Offset(index, |grid[i]|))];
        i := i + 1;
      }
      var p := Offset(index, cols);
      assert rows > 0 ==> grid == seq(|d|, q requires 0 <= q < |d| => RemoveAt(d[q], p));
      data, cols := grid, cols - 1;
      return Pass;
    }

    /** `_swaprows`. */
    method SwapRows(a: int, b: int) returns (o: Outcome)
      requires Valid()
      modifies this
      ensures Grid.SwapRows(old(Value()), a, b).Ok? ==> o == Pass && Value() == Grid.SwapRows(old(Value()), a, b).value
      ensures Grid.SwapRows(old(Value()), a, b).Err? ==>
        o == Fail(Grid.SwapRows(old(Value()), a, b).error) && Value() == old(Value())
    {
      if !InBounds(a, rows) || !InBounds(b, rows) || !PyValid(a, |data|) || !PyValid(b, |data|) {
        return Fail(IndexError);
      }
      var pa, pb := Offset(a, |data|), Offset(b, |data|);
      data := data[pa := data[pb]][pb := data[pa]];
      return Pass;
    }

    /** `_swapcols`: both indices are checked, then the two cells trade
        places in every row list of the row range. */
    method SwapCols(a: int, b: int) returns (o: Outcome)
      requires Valid()
      modifies this
      ensures Grid.SwapCols(old(Value()), a, b).Ok? ==> o == Pass && Value() == Grid.SwapCols(old(Value()), a, b).value
      ensures Grid.SwapCols(old(Value()), a, b).Err? ==>
        o == Fail(Grid.SwapCols(old(Value()), a, b).error) && Value() == old(Value())
    {
      if !InBounds(a, cols) || !InBounds(b, cols) {
        return Fail(IndexError);
      }
      var pa, pb := Offset(a, cols), Offset(b, cols);
      var d := data;
      var grid := d;
      var i := 0;
      while i < rows
        invariant 0 <= i <= rows == |d| == |grid|
        invariant forall q :: 0 <= q < |d| ==>
          grid[q] == if q < i then d[q][pa := d[q][pb]][pb := d[q][pa]] else d[q]
      {
        grid := grid[i := grid[i][pa := grid[i][pb]][pb := grid[i][pa]]];
        i := i + 1;
      }
      assert grid == seq(|d|, q requires 0 <= q < |d| => d[q][pa := d[q][pb]][pb := d[q][pa]]);
      data := grid;
      return Pass;
    }

    // ------------------------------------------------------- arithmetic

    /** The double loop of `_imatadd` / `_imatsub` over the row and column
        ranges: cell `(i, j)` becomes `grid[i][j] op other[i][j]`. Without
        columns the inner loop never runs and nothing is read. */
    static method CombineGrid(grid: seq<seq<int>>, other: seq<seq<int>>, r: nat, c: nat, op: ArithOp)
      returns (g: seq<seq<int>>)
      requires Rect(grid, c) && Rect(other, c)
      requires c > 0 ==> |grid| == r && |other| == r
      ensures c == 0 ==> g == grid
      ensures c > 0 ==> g == seq(r, i requires 0 <= i < r => CombineRow(grid[i], other[i], op))
    {
      g := grid;
      var i := 0;
      while i < r
        invariant 0 <= i <= r && |g| == |grid|
        invariant c == 0 ==> g == grid
        invariant c > 0 ==> forall q :: 0 <= q < r ==>
          g[q] == if q < i then CombineRow(grid[q], other[q], op) else grid[q]
      {
        var j := 0;
        while j < c
          invariant 0 <= j <= c && |g| == |grid|
          invariant c > 0 ==> forall q :: 0 <= q < r && q != i ==>
            g[q] == if q < i then CombineRow(grid[q], other[q], op) else grid[q]
          invariant c == 0 ==> g == grid
          invariant c > 0 ==> |g[i]| == c && g[i][j..] == grid[i][j..]
          invariant c > 0 ==> forall l :: 0 <= l < j ==> g[i][l] == Apply(op, grid[i][l], other[i][l])
        {
          g := g[i := g[i][j := Apply(op, g[i][j], other[i][j])]];
          j := j + 1;
        }
        if c > 0 {
          assert g[i] == CombineRow(grid[i], other[i], op);
        }
        i := i + 1;
      }
      if c > 0 {
        assert g == seq(r, i requires 0 <= i < r => CombineRow(grid[i], other[i], op));
      }
    }

    /** `_imatadd` (`Plus`) and `_imatsub` (`Minus`), reading `other` as
        the state it has when the call starts (each cell of the receiver
        is read before it is written, so an aliased operand reads the
        same). */
    method IElementwise(other: Mat, op: ArithOp) returns (o: Outcome)
      requires Valid() && WellFormed(other)
      modifies this
      ensures Elementwise(old(Value()), other, op).Ok? ==>
        o == Pass && Value() == Elementwise(old(Value()), other, op).value
      ensures Elementwise(old(Value()), other, op).Err? ==>
        o == Fail(ValueError) && Value() == old(Value())
    {
      if rows != other.rows || cols != other.cols {
        return Fail(ValueError);
      }
      data := CombineGrid(data, other.data, rows, cols, op);
      return Pass;
    }

    /** `_imatmul`: ValueError unless `other` has the reversed shape; the
        product is computed in full before the grid and shape change. */
    method IMatMul(other: Mat) returns (o: Outcome)
      modifies this
      ensures MatMulOp(old(Value()), other).Ok? ==> o == Pass && Value() == MatMulOp(old(Value()), other).value
      ensures MatMulOp(old(Value()), other).Err? ==>
        o == Fail(MatMulOp(old(Value()), other).error) && Value() == old(Value())
    {
      if rows != other.cols || cols != other.rows {
        return Fail(ValueError);
      }
      var product := MatMul(data, other.data);
      if product.Err? {
        return Fail(product.error);
      }
      data, cols := product.value, other.cols;
      return Pass;
    }

    /** The double loop of `_map`, `_iscaladd`, `_iscalsub` and
        `_iscalmul`: every cell in the row and column ranges is replaced by
        `f` of its value. */
    static method MapGrid(grid: seq<seq<int>>, r: int, c: int, f: int -> int) returns (g: seq<seq<int>>)
      requires WellFormed(Mat(grid, r, c, 0))
      ensures g == MapCells(Mat(grid, r, c, 0), f).data
    {
      g := grid;
      var i := 0;
      while i < r
        invariant 0 <= i <= r && |g| == |grid|
        invariant c == 0 ==> g == grid
        invariant c > 0 ==> forall q :: 0 <= q < r ==>
          g[q] == if q < i then seq(c, l requires 0 <= l < c => f(grid[q][l])) else grid[q]
      {
        var j := 0;
        while j < c
          invariant 0 <= j <= c && |g| == |grid|
          invariant c > 0 ==> forall q :: 0 <= q < r && q != i ==>
            g[q] == if q < i then seq(c, l requires 0 <= l < c => f(grid[q][l])) else grid[q]
          invariant c == 0 ==> g == grid
          invariant c > 0 ==> |g[i]| == c && g[i][j..] == grid[i][j..]
          invariant c > 0 ==> forall l :: 0 <= l < j ==> g[i][l] == f(grid[i][l])
        {
          g := g[i := g[i][j := f(g[i][j])]];
          j := j + 1;
        }
        if c > 0 {
          assert g[i] == seq(c, l requires 0 <= l < c => f(grid[i][l]));
        }
        i := i + 1;
      }
      ghost var want := MapCells(Mat(grid, r, c, 0), f).data;
      forall q | 0 <= q < |grid| ensures g[q] == want[q] {
        if c == 0 {
          assert |grid[q]| == 0;
        }
      }
    }

    /** `_map`. */
    method Map(f: int -> int)
      requires Valid()
      modifies this
      ensures Value() == MapCells(old(Value()), f)
    {
      data := MapGrid(data, rows, cols, f);
    }

    /** `_iscaladd` (`Plus`), `_iscalsub` (`Minus`) and `_iscalmul`
        (`Times`). */
    method IScalar(op: ArithOp, s: int)
      requires Valid()
      modifies this
      ensures Value() == Scalar(old(Value()), op, s)
    {
      data := MapGrid(data, rows, cols, x => Apply(op, x, s));
    }

    // ----------------------------------------------------------- writing

    /** `_setitem`. */
    method SetItem(row: int, col: int, v: int) returns (o: Outcome)
      requires Valid()
      modifies this
      ensures Access.SetItem(old(Value()), row, col, v).Ok? ==>
        o == Pass && Value() == Access.SetItem(old(Value()), row, col, v).value
      ensures Access.SetItem(old(Value()), row, col, v).Err? ==>
        o == Fail(IndexError) && Value() == old(Value())
    {
      if !InBounds(row, rows) || !InBounds(col, cols) {
        return Fail(IndexError);
      }
      var i, j := Offset(row, rows), Offset(col, cols);
      data := data[i := data[i][j := v]];
      return Pass;
    }

    /** `_setslice`: resolve both selectors, pair the cells, flatten the
        values, compare the counts, then `_setitem` cell by cell; the first
        failing write ends the loop with the earlier writes kept. */
    method SetSlice(rsel: Selector, csel: Selector, p: Payload) returns (o: Outcome)
      requires Valid()
      modifies this
      ensures Valid()
      ensures Effect(o, Value()) == Access.SetSlice(old(Value()), rsel, csel, p)
    {
      var rs := Resolve(rsel, rows);
      if rs.Err? {
        return Fail(rs.error);
      }
      var cs := Resolve(csel, cols);
      if cs.Err? {
        return Fail(cs.error);
      }
      var cells := Pairs(rs.value, cs.value);
      var vals := Flatten(p);
      if vals.Err? {
        return Fail(vals.error);
      }
      if |vals.value| != |cells| {
        return Fail(ValueError);
      }
      o := WriteAll(cells, vals.value);
    }

    /** The loop of `_setslice`: `_setitem` for each cell and its value in
        order, stopping at the first that raises. */
    method WriteAll(cells: seq<(int, int)>, vals: seq<int>) returns (o: Outcome)
      requires Valid() && |cells| == |vals|
      modifies this
      ensures Valid()
      ensures Effect(o, Value()) == WriteCells(old(Value()), cells, vals)
    {
      var k := 0;
      while k < |cells|
        invariant 0 <= k <= |cells| && Valid()
        invariant WriteCells(Value(), cells[k..], vals[k..]) == WriteCells(old(Value()), cells, vals)
      {
        assert cells[k..][0] == cells[k] && vals[k..][0] == vals[k];
        assert cells[k..][1..] == cells[k + 1..] && vals[k..][1..] == vals[k + 1..];
        var step := SetItem(cells[k].0, cells[k].1, vals[k]);
        if step.Fail? {
          return step;
        }
        k := k + 1;
      }
      return Pass;
    }

    // --------------------------------------------------- copying variants

    /** `matadd` (`Plus`) and `matsub` (`Minus`): the operation on a copy;
        the receiver is left alone. */
    method MatElementwise(other: Mat, op: ArithOp) returns (r: Result<MatrixABC>)
      requires Valid() && WellFormed(other)
      ensures Elementwise(Value(), other, op).Ok? ==>
        r.Ok? && fresh(r.value) && r.value.Value() == Elementwise(Value(), other, op).value
      ensures Elementwise(Value(), other, op).Err? ==> r == Err(ValueError)
    {
      var c := Copy();
      var o := c.IElementwise(other, op);
      if o.Fail? {
        return Err(o.error);
      }
      return Ok(c);
    }

    /** `matmul`: the product on a copy. */
    method MatMulCopy(other: Mat) returns (r: Result<MatrixABC>)
      ensures MatMulOp(Value(), other).Ok? ==>
        r.Ok? && fresh(r.value) && r.value.Value() == MatMulOp(Value(), other).value
      ensures MatMulOp(Value(), other).Err? ==> r == Err(MatMulOp(Value(), other).error)
    {
      var c := Copy();
      var o := c.IMatMul(other);
      if o.Fail? {
        return Err(o.error);
      }
      return Ok(c);
    }

    /** `scaladd`, `scalsub` and `scalmul`: the scalar operation on a copy. */
    method ScalarCopy(op: ArithOp, s: int) returns (r: MatrixABC)
      requires Valid()
      ensures fresh(r) && r.Value() == Scalar(Value(), op, s)
    {
      r := Copy();
      r.IScalar(op, s);
    }

    /** `__add__` (`Plus`) and `__sub__` (`Minus`): `matadd` / `matsub` for
        a matrix operand, `scaladd` / `scalsub` otherwise. */
    method Operator(x: Operand, op: ArithOp) returns (r: Result<MatrixABC>)
      requires Valid() && (x.MatrixOperand? ==> WellFormed(x.m))
      ensures x.ScalarOperand? ==> r.Ok? && fresh(r.value) && r.value.Value() == Scalar(Value(), op, x.s)
      ensures x.MatrixOperand? && Elementwise(Value(), x.m, op).Ok? ==>
        r.Ok? && fresh(r.value) && r.value.Value() == Elementwise(Value(), x.m, op).value
      ensures x.MatrixOperand? && Elementwise(Value(), x.m, op).Err? ==> r == Err(ValueError)
    {
      if x.MatrixOperand? {
        r := MatElementwise(x.m, op);
      } else {
        var c := ScalarCopy(op, x.s);
        r := Ok(c);
      }
    }
  }
}

=== FILE: construct.dfy ===
/** Building a matrix state from the arguments of `MatrixABC.__init__`
    (matrices/_base.py): shape inference, argument checks, and the three
    initialisers for another matrix, a sequence of rows and a flat
    sequence. */
module Construction {
  import opened Errors
  import opened IterUtils
  import opened Grid

  /** The `data` argument: a non-empty sequence whose items are all
      sequences, a flat sequence of values, or another matrix. An empty
      sequence of either kind is read as a flat sequence. */
  datatype Source = Rows(lines: seq<seq<int>>) | Flat(items: seq<int>) | Copy(src: Mat)

  /** `max(len(x) for x in data)`. */
  function MaxLen(lines: seq<seq<int>>): (n: nat)
    ensures forall i :: 0 <= i < |lines| ==> |lines[i]| <= n
    ensures |lines| > 0 ==> exists i :: 0 <= i < |lines| && |lines[i]| == n
    ensures |lines| == 0 ==> n == 0
  {
    if |lines| == 0 then 0
    else
      var rest := MaxLen(lines[1..]);
      assert forall i :: 1 <= i < |lines| ==> lines[i] == lines[1..][i - 1];
      if |lines[0]| >= rest then |lines[0]|
      else
        var k :| 0 <= k < |lines[1..]| && |lines[1..][k]| == rest;
        assert |lines[k + 1]| == rest;
        rest
  }

  /** The shape taken when none is passed: the other matrix's shape, `(0, 0)`
      for an empty sequence, (number of rows, longest row) for rows; a
      non-empty flat sequence has none. */
  function InferShape(src: Source): (r: Option<seq<int>>)
    ensures r.Some? <==> !(src.Flat? && |src.items| > 0)
    ensures r.Some? && !src.Copy? ==> |r.value| == 2 && r.value[0] >= 0 && r.value[1] >= 0
  {
    match src
    case Copy(m) => Some([m.rows, m.cols])
    case Rows(ls) => if |ls| == 0 then Some([0, 0]) else Some([|ls|, MaxLen(ls)])
    case Flat(xs) => if |xs| == 0 then Some([0, 0]) else None
  }

  /** `_init_from_seqseq`: missing rows are added as default rows, then the
      first `r` rows are each padded or cut to `c` cells. */
  function RowsLayout(lines: seq<seq<int>>, r: nat, c: nat, d: int): (out: seq<seq<int>>)
    ensures |out| == r && Rect(out, c)
    ensures forall i, j :: 0 <= i < r && 0 <= j < c ==>
      out[i][j] == if i < |lines| && j < |lines[i]| then lines[i][j] else d
  {
    var out := seq(r, i requires 0 <= i < r => Fit(if i < |lines| then lines[i] else [], c, d));
    assert forall p :: 0 <= p < r ==> |out[p]| == |Fit(if p < |lines| then lines[p] else [], c, d)|;
    out
  }

  /** `_init_from_sequence`: the values are padded or cut to `r * c` cells
      and split into rows of `c` (no rows at all when `c` is 0). */
  function FlatLayout(items: seq<int>, r: nat, c: nat, d: int): seq<seq<int>>
  {
    MulZero(r);
    Chunked(Fit(items, r * c, d), c)
  }

  /** The state `_init_from_matrix`, `_init_from_seqseq` or
      `_init_from_sequence` leaves for a checked shape and default: another
      matrix is copied as it is (its own shape and default), rows and flat
      values are laid out in the given shape. */
  function Initialised(src: Source, r: nat, c: nat, d: int): Mat
  {
    match src
    case Copy(m) => m
    case Rows(ls) =>
      if |ls| > 0 then Mat(RowsLayout(ls, r, c, d), r, c, d)
      else Mat(FlatLayout([], r, c, d), r, c, d)
    case Flat(xs) => Mat(FlatLayout(xs, r, c, d), r, c, d)
  }

  /** `MatrixABC(data, shape, default=...)`: the shape (given or inferred)
      and default are checked, the matching initialiser runs, and a state
      whose shape is not the requested one is resized to it. */
  function Construct(src: Source, shape: Option<seq<int>>, dflt: Option<int>): Result<Mat>
    requires src.Copy? ==> WellFormed(src.src)
  {
    var sh :- match shape
      case Some(s) => Ok(s)
      case None => if InferShape(src).Some? then Ok(InferShape(src).value) else Err(TypeError);
    if dflt.None? && !src.Copy? then Err(TypeError)
    else if |sh| != 2 then Err(TypeError)
    else if sh[0] < 0 || sh[1] < 0 then Err(ValueError)
    else
      var m := Initialised(src, sh[0], sh[1], if dflt.Some? then dflt.value else src.src.dflt);
      if [m.rows, m.cols] == sh then Ok(m)
      else
        var e := Resize(m, ShapeSeq(sh), None);
        if e.outcome.Pass? then Ok(e.after) else Err(e.outcome.error)
  }

  /** The argument errors: no shape for a non-empty flat sequence, no
      default for anything but a matrix, a shape that is not a pair, and a
      negative dimension. */
  lemma ConstructRejects(src: Source, shape: Option<seq<int>>, dflt: Option<int>)
    requires src.Copy? ==> WellFormed(src.src)
    ensures shape.None? && src.Flat? && |src.items| > 0 ==> Construct(src, shape, dflt) == Err(TypeError)
    ensures dflt.None? && !src.Copy? ==> Construct(src, shape, dflt) == Err(TypeError)
    ensures shape.Some? && |shape.value| != 2 ==> Construct(src, shape, dflt) == Err(TypeError)
    ensures shape.Some? && |shape.value| == 2 && (shape.value[0] < 0 || shape.value[1] < 0) &&
            (dflt.Some? || src.Copy?) ==>
            Construct(src, shape, dflt) == Err(ValueError)
  {
  }

  /** From rows with a shape: row `i`, column `j` holds the given value when
      row `i` has one there, the default otherwise, and the state is dense. */
  lemma RowsCells(lines: seq<seq<int>>, r: int, c: int, d: int)
    requires |lines| > 0 && r >= 0 && c >= 0
    ensures Construct(Rows(lines), Some([r, c]), Some(d)).Ok?
    ensures Dense(Construct(Rows(lines), Some([r, c]), Some(d)).value)
    ensures Construct(Rows(lines), Some([r, c]), Some(d)).value.rows == r
    ensures Construct(Rows(lines), Some([r, c]), Some(d)).value.cols == c
    ensures forall i, j :: 0 <= i < r && 0 <= j < c ==>
      Construct(Rows(lines), Some([r, c]), Some(d)).value.data[i][j] ==
        if i < |lines| && j < |lines[i]| then lines[i][j] else d
  {
  }

  /** From rows without a shape: one row per line, as wide as the longest
      line, so that no value is lost and shorter lines are padded with the
      default; it is the construction with shape (lines, longest line). */
  lemma {:induction false} RowsInferred(lines: seq<seq<int>>, d: int)
    requires |lines| > 0
    ensures Construct(Rows(lines), None, Some(d)) == Construct(Rows(lines), Some([|lines|, MaxLen(lines)]), Some(d))
    ensures Construct(Rows(lines), None, Some(d)).Ok?
    ensures Dense(Construct(Rows(lines), None, Some(d)).value)
    ensures Construct(Rows(lines), None, Some(d)).value.rows == |lines|
    ensures Construct(Rows(lines), None, Some(d)).value.cols == MaxLen(lines)
    ensures Construct(Rows(lines), None, Some(d)).value.dflt == d
    ensures forall i, j :: 0 <= i < |lines| && 0 <= j < |lines[i]| ==>
      Construct(Rows(lines), None, Some(d)).value.data[i][j] == lines[i][j]
    ensures forall i, j :: 0 <= i < |lines| && |lines[i]| <= j < MaxLen(lines) ==>
      Construct(Rows(lines), None, Some(d)).value.data[i][j] == d
  {
    RowsCells(lines, |lines|, MaxLen(lines), d);
    assert Construct(Rows(lines), None, Some(d)) == Construct(Rows(lines), Some([|lines|, MaxLen(lines)]), Some(d));
  }

  /** From a flat sequence with at least one column: cell `(i, j)` holds
      value `i * c + j` when there is one, the default otherwise. */
  lemma {:induction false} FlatCells(items: seq<int>, r: int, c: int, d: int, i: int, j: int)
    requires r >= 0 && c > 0 && 0 <= i < r && 0 <= j < c
    ensures Construct(Flat(items), Some([r, c]), Some(d)).Ok?
    ensures Dense(Construct(Flat(items), Some([r, c]), Some(d)).value)
    ensures Construct(Flat(items), Some([r, c]), Some(d)).value.data[i][j] ==
      if i * c + j < |items| then items[i * c + j] else d
  {
    FlatShape(items, r, c, d);
    ChunkedExact(Fit(items, r * c, d), c, r, i, j);
  }

  /** A flat sequence with no columns leaves no row lists at all, whatever
      the row count. */
  lemma FlatWithoutCols(items: seq<int>, r: int, d: int)
    requires r >= 0
    ensures Construct(Flat(items), Some([r, 0]), Some(d)) == Ok(Mat([], r, 0, d))
    ensures WellFormed(Mat([], r, 0, d)) && (r > 0 ==> !Dense(Mat([], r, 0, d)))
  {
  }

  /** A matrix argument keeps its own default, even when another one is
      passed, and is copied unchanged when the shape matches. */
  lemma CopyKeepsDefault(m: Mat, dflt: Option<int>)
    requires WellFormed(m)
    ensures Construct(Copy(m), None, dflt) == Ok(m)
    ensures Construct(Copy(m), Some([m.rows, m.cols]), dflt) == Ok(m)
  {
  }

  /** A matrix argument with another shape is resized to it. */
  lemma CopyResized(m: Mat, r: int, c: int, dflt: Option<int>)
    requires Dense(m) && r >= 0 && c >= 0
    ensures Construct(Copy(m), Some([r, c]), dflt) == Ok(Resize(m, Count(r), Some(c)).after)
  {
    ResizeCells(m, r, c);
    if [m.rows, m.cols] == [r, c] {
      assert RowStep(m, r) == m.data;
    }
  }

  /** Every state the constructor produces keeps the invariant. */
  lemma {:induction false} ConstructWellFormed(src: Source, shape: Option<seq<int>>, dflt: Option<int>)
    requires src.Copy? ==> WellFormed(src.src)
    requires Construct(src, shape, dflt).Ok?
    ensures WellFormed(Construct(src, shape, dflt).value)
  {
    var sh := if shape.Some? then shape.value else InferShape(src).value;
    var d := if dflt.Some? then dflt.value else src.src.dflt;
    var m0 := Initialised(src, sh[0], sh[1], d);
    InitialisedWellFormed(src, sh[0], sh[1], d);
    if [m0.rows, m0.cols] != sh {
      ResizeWellFormed(m0, ShapeSeq(sh), None);
    }
  }

  /** Each initialiser leaves a state that keeps the invariant. */
  lemma {:induction false} InitialisedWellFormed(src: Source, r: nat, c: nat, d: int)
    requires src.Copy? ==> WellFormed(src.src)
    ensures WellFormed(Initialised(src, r, c, d))
  {
    match src
    case Copy(o) =>
    case Rows(ls) =>
      if |ls| == 0 && c > 0 {
        FlatShape([], r, c, d);
      }
    case Flat(xs) =>
      if c > 0 {
        FlatShape(xs, r, c, d);
      }
  }

  /** With at least one column the flat layout has `r` rows of `c` cells. */
  lemma {:induction false} FlatShape(items: seq<int>, r: nat, c: nat, d: int)
    requires c > 0
    ensures |FlatLayout(items, r, c, d)| == r && Rect(FlatLayout(items, r, c, d), c)
  {
    var flat := Fit(items, r * c, d);
    if r == 0 {
      assert |flat| == 0;
    } else {
      ChunkedExact(flat, c, r, 0, 0);
      forall k | 0 <= k < r ensures |FlatLayout(items, r, c, d)[k]| == c {
        ChunkedExact(flat, c, r, k, 0);
      }
    }
  }

  /** Building from a state's own row lists with its own shape and default
      gives that state back. */
  lemma {:induction false} FromOwnRows(m: Mat)
    requires Dense(m)
    ensures Construct(Rows(m.data), Some([m.rows, m.cols]), Some(m.dflt)) == Ok(m)
  {
    if m.rows > 0 {
      var out := RowsLayout(m.data, m.rows, m.cols, m.dflt);
      forall i | 0 <= i < m.rows ensures out[i] == m.data[i] {
        assert |out[i]| == |m.data[i]|;
      }
      assert out == m.data;
    } else {
      MulZero(m.cols);
      assert Fit([], 0, m.dflt) == [];
    }
  }

  /** Building from a state's values in row-major order with its shape and
      default gives that state back, when it has columns. */
  lemma {:induction false} FromOwnValues(m: Mat)
    requires Dense(m) && m.cols > 0
    ensures Construct(Flat(Concat(m.data)), Some([m.rows, m.cols]), Some(m.dflt)) == Ok(m)
  {
    var xs := Concat(m.data);
    ConcatLength(m.data, m.cols);
    var out := FlatLayout(xs, m.rows, m.cols, m.dflt);
    FlatShape(xs, m.rows, m.cols, m.dflt);
    forall i | 0 <= i < m.rows ensures out[i] == m.data[i] {
      forall j | 0 <= j < m.cols ensures out[i][j] == m.data[i][j] {
        FlatCells(xs, m.rows, m.cols, m.dflt, i, j);
        ConcatRect(m.data, m.cols, i, j);
      }
    }
    assert out == m.data;
  }
}

=== FILE: errors.dfy ===
/** The exceptions the matrix core raises, and the wrappers that carry them
    through otherwise pure functions. */
module Errors {
  /** The Python exception classes raised by the core. */
  datatype Error = TypeError | ValueError | IndexError | NotImplementedError | AttributeError

  datatype Option<+T> = None | Some(value: T)

  /** A value, or the exception raised instead of producing it. */
  datatype Result<+T> = Ok(value: T) | Err(error: Error)
  {
    predicate IsFailure() { Err? }

    function PropagateFailure<U>(): Result<U>
      requires Err?
    {
      Err(error)
    }

    function Extract(): T
      requires Ok?
    {
      value
    }
  }

  /** Whether an in-place operation ran to completion or raised part way. */
  datatype Outcome = Pass | Fail(error: Error)

  function Max(a: int, b: int): int { if a < b then b else a }

  function Min(a: int, b: int): int { if a < b then a else b }
}

=== FILE: frozen.dfy ===
/** FrozenMatrix (matrices/_frozen_matrix.py): the immutable façade. Every
    operation copies the receiver, runs the MatrixABC helper on the copy and
    returns the copy as a new FrozenMatrix. No method here has a `modifies`
    clause, so the receiver never changes; a failing helper discards the
    copy and raises (`Err`). */
module Immutable {
  import opened Errors
  import opened Grid
  import opened Arith
  import opened Construction
  import opened Base

  class FrozenMatrix {
    const base: MatrixABC

    constructor Wrap(b: MatrixABC)
      ensures base == b
    {
      base := b;
    }

    function Value(): Mat
      reads base
    {
      base.Value()
    }

    ghost predicate Valid()
      reads base
    {
      base.Valid()
    }

    /** `FrozenMatrix(data, shape, default=...)`. */
    static method New(src: Source, shape: Option<seq<int>>, dflt: Option<int>) returns (r: Result<FrozenMatrix>)
      requires src.Copy? ==> WellFormed(src.src)
      ensures Construct(src, shape, dflt).Err? ==> r == Err(Construct(src, shape, dflt).error)
      ensures Construct(src, shape, dflt).Ok? ==>
        r.Ok? && fresh(r.value) && fresh(r.value.base) && r.value.Value() == Construct(src, shape, dflt).value
    {
      var b :- MatrixABC.New(src, shape, dflt);
      var m := new FrozenMatrix.Wrap(b);
      return Ok(m);
    }

    /** `transpose()`. */
    method Transpose() returns (r: FrozenMatrix)
      requires Valid()
      ensures fresh(r) && fresh(r.base) && r.Value() == Grid.Transpose(Value())
    {
      var b := base.Copy();
      b.Transpose();
      r := new FrozenMatrix.Wrap(b);
    }

    /** `resize(rows_or_shape, cols=None)`: a shape sequence alone, or a row
        and a column count. */
    method Resize(rowsArg: RowsArg, colsArg: Option<int>) returns (r: Result<FrozenMatrix>)
      requires Valid()
      ensures var e := Grid.Resize(Value(), rowsArg, colsArg);
        (e.outcome.Fail? ==> r == Err(e.outcome.error)) &&
        (e.outcome.Pass? ==> r.Ok? && fresh(r.value) && fresh(r.value.base) && r.value.Value() == e.after)
    {
      var b := base.Copy();
      var o := b.Resize(rowsArg, colsArg);
      if o.Fail? {
        return Err(o.error);
      }
      var f := new FrozenMatrix.Wrap(b);
      r := Ok(f);
    }

    /** `flip(by=axis)`, with `fliph()` and `flipv()`. */
    method Flip(axis: string) returns (r: Result<FrozenMatrix>)
      requires Valid()
      ensures Grid.Flip(Value(), axis).Err? ==> r == Err(Grid.Flip(Value(), axis).error)
      ensures Grid.Flip(Value(), axis).Ok? ==>
        r.Ok? && fresh(r.value) && fresh(r.value.base) && r.value.Value() == Grid.Flip(Value(), axis).value
    {
      var b := base.Copy();
      var o := b.Flip(axis);
      if o.Fail? {
        return Err(o.error);
      }
      var f := new FrozenMatrix.Wrap(b);
      r := Ok(f);
    }

    method FlipH() returns (r: Result<FrozenMatrix>)
      requires Valid()
      ensures Grid.Flip(Value(), "col").Err? ==> r == Err(Grid.Flip(Value(), "col").error)
      ensures Grid.Flip(Value(), "col").Ok? ==>
        r.Ok? && fresh(r.value) && fresh(r.value.base) && r.value.Value() == Grid.Flip(Value(), "col").value
    {
      r := Flip("col");
    }

    method FlipV() returns (r: FrozenMatrix)
      requires Valid()
      ensures fresh(r) && fresh(r.base) && r.Value() == Grid.Flip(Value(), "row").value
    {
      var res := Flip("row");
      r := res.value;
    }

    /** `insertrow(index, line)`, with `appendrow` and `prependrow`. */
    method InsertRow(index: int, line: seq<int>) returns (r: FrozenMatrix)
      requires Valid()
      ensures fresh(r) && fresh(r.base) && r.Value() == Grid.InsertRow(Value(), index, line)
    {
      var b := base.Copy();
      b.InsertRow(index, line);
      r := new FrozenMatrix.Wrap(b);
    }

    /** `insertcol(index, line)`, with `appendcol` and `prependcol`. */
    method InsertCol(index: int, line: seq<int>) returns (r: Result<FrozenMatrix>)
      requires Valid()
      ensures var e := Grid.InsertCol(Value(), index, line);
        (e.outcome.Fail? ==> r == Err(e.outcome.error)) &&
        (e.outcome.Pass? ==> r.Ok? && fresh(r.value) && fresh(r.value.base) && r.value.Value() == e.after)
    {
      var b := base.Copy();
      var o := b.InsertCol(index, line);
      if o.Fail? {
        return Err(o.error);
      }
      var f := new FrozenMatrix.Wrap(b);
      r := Ok(f);
    }

    /** `removerow(index)`. */
    method RemoveRow(index: int) returns (r: Result<FrozenMatrix>)
      requires Valid()
      ensures Grid.RemoveRow(Value(), index).Err? ==> r == Err(Grid.RemoveRow(Value(), index).error)
      ensures Grid.RemoveRow(Value(), index).Ok? ==>
        r.Ok? && fresh(r.value) && fresh(r.value.base) && r.value.Value() == Grid.RemoveRow(Value(), index).value
    {
      var b := base.Copy();
      var o := b.RemoveRow(index);
      if o.Fail? {
        return Err(o.error);
      }
      var f := new FrozenMatrix.Wrap(b);
      r := Ok(f);
    }

    /** `removecol(index)`. */
    method RemoveCol(index: int) returns (r: Result<FrozenMatrix>)
      requires Valid()
      ensures Grid.RemoveCol(Value(), index).Err? ==> r == Err(Grid.RemoveCol(Value(), index).error)
      ensures Grid.RemoveCol(Value(), index).Ok? ==>
        r.Ok? && fresh(r.value) && fresh(r.value.base) && r.value.Value() == Grid.RemoveCol(Value(), index).value
    {
      var b := base.Copy();
      var o := b.RemoveCol(index);
      if o.Fail? {
        return Err(o.error);
      }
      var f := new FrozenMatrix.Wrap(b);
      r := Ok(f);
    }

    /** `swaprows(a, b)`. */
    method SwapRows(a: int, b: int) returns (r: Result<FrozenMatrix>)
      requires Valid()
      ensures Grid.SwapRows(Value(), a, b).Err? ==> r == Err(Grid.SwapRows(Value(), a, b).error)
      ensures Grid.SwapRows(Value(), a, b).Ok? ==>
        r.Ok? && fresh(r.value) && fresh(r.value.base) && r.value.Value() == Grid.SwapRows(Value(), a, b).value
    {
      var c := base.Copy();
      var o := c.SwapRows(a, b);
      if o.Fail? {
        return Err(o.error);
      }
      var f := new FrozenMatrix.Wrap(c);
      r := Ok(f);
    }

    /** `swapcols(a, b)`. */
    method SwapCols(a: int, b: int) returns (r: Result<FrozenMatrix>)
      requires Valid()
      ensures Grid.SwapCols(Value(), a, b).Err? ==> r == Err(Grid.SwapCols(Value(), a, b).error)
      ensures Grid.SwapCols(Value(), a, b).Ok? ==>
        r.Ok? && fresh(r.value) && fresh(r.value.base) && r.value.Value() == Grid.SwapCols(Value(), a, b).value
    {
      var c := base.Copy();
      var o := c.SwapCols(a, b);
      if o.Fail? {
        return Err(o.error);
      }
      var f := new FrozenMatrix.Wrap(c);
      r := Ok(f);
    }

    /** `map(f)`. */
    method Map(f: int -> int) returns (r: FrozenMatrix)
      requires Valid()
      ensures fresh(r) && fresh(r.base) && r.Value() == MapCells(Value(), f)
    {
      var b := base.Copy();
      b.Map(f);
      r := new FrozenMatrix.Wrap(b);
    }
  }
}

=== FILE: grid.dfy ===
/** The state of a matrix (`_data`, `_shape`, `_default` of MatrixABC in
    matrices/_base.py) as a value, and the shape-changing operations on it as
    functions from the old state to the new one. Operations that raise part
    way through a loop give an `Effect`: the exception and the state the loop
    left behind. */
module Grid {
  import opened Errors
  import opened IterUtils
  import opened Selectors

  /** `_data` (row lists), `_shape` (rows, cols) and `_default`. */
  datatype Mat = Mat(data: seq<seq<int>>, rows: int, cols: int, dflt: int)

  /** The outcome of an in-place operation and the state it leaves. */
  datatype Effect = Effect(outcome: Outcome, after: Mat)

  /** The invariant the operations keep: a non-negative shape, rows of
      `cols` cells, and one row list per row, except that a matrix without
      columns may hold fewer (empty) row lists than its row count, as the
      flat constructor and `transpose` leave it. */
  predicate WellFormed(m: Mat)
  {
    m.rows >= 0 && m.cols >= 0 && Rect(m.data, m.cols) && |m.data| <= m.rows &&
    (m.cols > 0 ==> |m.data| == m.rows)
  }

  /** A well-formed state with exactly one row list per row. */
  predicate Dense(m: Mat)
  {
    WellFormed(m) && |m.data| == m.rows
  }

  /** `[d] * n`. */
  function Fill(n: int, d: int): (r: seq<int>)
    ensures |r| == Max(n, 0) && forall k :: 0 <= k < |r| ==> r[k] == d
  {
    seq(Max(n, 0), _ => d)
  }

  /** A line cut down or padded with the default to exactly `n` cells, as
      `_insertrow`, `_insertcol` and the constructors prepare their input. */
  function Fit(line: seq<int>, n: nat, d: int): (r: seq<int>)
    ensures |r| == n
    ensures forall k :: 0 <= k < n ==> r[k] == if k < |line| then line[k] else d
  {
    if |line| < n then line + Fill(n - |line|, d) else line[..n]
  }

  /** The cell at row `i`, column `j` of a dense state with both in range. */
  function Cell(m: Mat, i: int, j: int): int
    requires Dense(m) && 0 <= i < m.rows && 0 <= j < m.cols
  {
    m.data[i][j]
  }

  // ---------------------------------------------------------------- transpose

  /** `[list(row) for row in zip(*data, strict=True)]`: no rows when `data`
      is empty or its rows are empty, otherwise row `j` holds column `j`. */
  function Transposed(data: seq<seq<int>>): (t: seq<seq<int>>)
    requires data != [] ==> Rect(data, |data[0]|)
    ensures data == [] ==> t == []
    ensures data != [] ==> |t| == |data[0]| && Rect(t, |data|)
    ensures data != [] ==> forall j, i :: 0 <= j < |t| && 0 <= i < |data| ==> t[j][i] == data[i][j]
  {
    if data == [] then []
    else seq(|data[0]|, j requires 0 <= j < |data[0]| => seq(|data|, i requires 0 <= i < |data| => data[i][j]))
  }

  /** `_transpose`: the grid is transposed and the shape swapped. */
  function Transpose(m: Mat): Mat
    requires WellFormed(m)
  {
    Mat(Transposed(m.data), m.cols, m.rows, m.dflt)
  }

  /** Transposing keeps the invariant and moves cell (i, j) to (j, i). */
  lemma TransposeCells(m: Mat)
    requires WellFormed(m)
    ensures WellFormed(Transpose(m))
    ensures Dense(m) && (m.rows > 0 || m.cols == 0) ==> Dense(Transpose(m))
    ensures m.rows == 0 && m.cols > 0 ==> !Dense(Transpose(m))
    ensures Dense(m) && m.rows > 0 && m.cols > 0 ==>
      forall i, j :: 0 <= i < m.rows && 0 <= j < m.cols ==> Transpose(m).data[j][i] == m.data[i][j]
  {
    if m.data != [] && m.cols == 0 {
      assert |m.data[0]| == 0;
    }
  }

  /** Transposing twice restores a matrix with columns, or one without row
      lists. */
  lemma {:induction false} TransposeTwice(m: Mat)
    requires WellFormed(m) && (m.cols > 0 || m.data == [])
    ensures WellFormed(Transpose(m)) && Transpose(Transpose(m)) == m
  {
    TransposeCells(m);
    var t := Transpose(m);
    TransposeCells(t);
    if m.data != [] {
      assert m.rows > 0 && m.cols > 0;
      var back := Transposed(t.data);
      assert |back| == m.rows;
      forall i | 0 <= i < m.rows ensures back[i] == m.data[i] {
        assert |back[i]| == m.cols;
      }
    }
  }

  /** A matrix of empty rows loses its row lists when transposed twice:
      (1, 0) with `[[]]` becomes (0, 1) with no rows, then (1, 0) with no
      rows, which compares unequal to the original. */
  lemma TransposeTwiceDropsEmptyRows(d: int)
    ensures Transpose(Transpose(Mat([[]], 1, 0, d))) == Mat([], 1, 0, d)
  {
  }

  // ------------------------------------------------------------------ flip

  /** `list.reverse()`. */
  function Reverse<T>(s: seq<T>): (r: seq<T>)
    ensures |r| == |s| && forall k :: 0 <= k < |s| ==> r[k] == s[|s| - 1 - k]
  {
    if s == [] then [] else Reverse(s[1..]) + [s[0]]
  }

  lemma ReverseTwice<T>(s: seq<T>)
    ensures Reverse(Reverse(s)) == s
  {
  }

  /** `_flip`: "row" reverses the order of the rows, "col" the cells of each
      row (IndexError when a row list is missing), anything else is a
      ValueError. */
  function Flip(m: Mat, axis: string): Result<Mat>
    requires WellFormed(m)
  {
    if axis == "row" then Ok(m.(data := Reverse(m.data)))
    else if axis == "col" then
      if |m.data| < m.rows then Err(IndexError)
      else Ok(m.(data := seq(|m.data|, i requires 0 <= i < |m.data| => Reverse(m.data[i]))))
    else Err(ValueError)
  }

  /** Flipping keeps the shape and the invariant, mirrors the cells, and
      rejects any direction other than "row" and "col". */
  lemma FlipCells(m: Mat, axis: string)
    requires Dense(m)
    ensures axis != "row" && axis != "col" ==> Flip(m, axis) == Err(ValueError)
    ensures axis == "row" || axis == "col" ==> Flip(m, axis).Ok? && Dense(Flip(m, axis).value)
    ensures axis == "row" ==> forall i, j :: 0 <= i < m.rows && 0 <= j < m.cols ==>
      Flip(m, axis).value.data[i][j] == m.data[m.rows - 1 - i][j]
    ensures axis == "col" ==> forall i, j :: 0 <= i < m.rows && 0 <= j < m.cols ==>
      Flip(m, axis).value.data[i][j] == m.data[i][m.cols - 1 - j]
    ensures axis == "row" || axis == "col" ==>
      Flip(m, axis).value.rows == m.rows && Flip(m, axis).value.cols == m.cols && Flip(m, axis).value.dflt == m.dflt
  {
  }

  /** Flipping twice the same way restores the matrix. */
  lemma {:induction false} FlipTwice(m: Mat, axis: string)
    requires WellFormed(m) && Flip(m, axis).Ok?
    ensures WellFormed(Flip(m, axis).value) && Flip(Flip(m, axis).value, axis) == Ok(m)
  {
    if axis == "row" {
      ReverseTwice(m.data);
    } else {
      FlipColsTwice(m);
    }
  }

  lemma {:induction false} FlipColsTwice(m: Mat)
    requires WellFormed(m) && |m.data| >= m.rows
    ensures Flip(m, "col").Ok? && WellFormed(Flip(m, "col").value)
    ensures Flip(Flip(m, "col").value, "col") == Ok(m)
  {
    var f := Flip(m, "col").value;
    var g := seq(|f.data|, i requires 0 <= i < |f.data| => Reverse(f.data[i]));
    forall i | 0 <= i < |m.data| ensures g[i] == m.data[i] {
      ReverseTwice(m.data[i]);
    }
    assert g == m.data;
  }

  // ---------------------------------------------------------------- resize

  /** The first argument of `_resize`: a row count, or a shape sequence. */
  datatype RowsArg = Count(n: int) | ShapeSeq(items: seq<int>)

  /** How `_resize` reads its arguments: a two-item sequence without `cols`
      is unpacked; otherwise both must be integers, else ValueError. */
  function SizeOf(rows: RowsArg, cols: Option<int>): Option<(int, int)>
  {
    if cols.None? && rows.ShapeSeq? && |rows.items| == 2 then Some((rows.items[0], rows.items[1]))
    else if rows.Count? && cols.Some? then Some((rows.n, cols.value))
    else None
  }

  /** The row step of `_resize`: append default rows of the old width, or
      delete the rows from `r` on. */
  function RowStep(m: Mat, r: nat): (d: seq<seq<int>>)
    requires WellFormed(m)
    ensures |d| <= r && Rect(d, m.cols)
    ensures |m.data| == m.rows ==> |d| == r
    ensures forall i :: 0 <= i < |d| ==> d[i] == if i < |m.data| then m.data[i] else Fill(m.cols, m.dflt)
  {
    if r > m.rows then m.data + seq(r - m.rows, _ => Fill(m.cols, m.dflt))
    else m.data[..Min(r, |m.data|)]
  }

  /** `self._data[row] += [default] * k` for every row list. */
  function Widen(d: seq<seq<int>>, k: nat, dflt: int): (w: seq<seq<int>>)
    ensures |w| == |d| && forall i :: 0 <= i < |d| ==> w[i] == d[i] + Fill(k, dflt)
  {
    seq(|d|, i requires 0 <= i < |d| => d[i] + Fill(k, dflt))
  }

  /** `del self._data[row][c:]` for every row list. */
  function Narrow(d: seq<seq<int>>, c: nat): (w: seq<seq<int>>)
    requires forall i :: 0 <= i < |d| ==> |d[i]| >= c
    ensures |w| == |d| && forall i :: 0 <= i < |d| ==> w[i] == d[i][..c]
  {
    seq(|d|, i requires 0 <= i < |d| => d[i][..c])
  }

  /** Widening rows of `c` cells by `k` gives rows of `c + k` cells, and
      cutting them back to `c` restores them: the two column steps of a
      resize undo each other. */
  lemma NarrowUndoesWiden(d: seq<seq<int>>, c: nat, k: nat, x: int)
    requires Rect(d, c)
    ensures Rect(Widen(d, k, x), c + k)
    ensures Narrow(Widen(d, k, x), c) == d
  {
    forall i | 0 <= i < |d| ensures Narrow(Widen(d, k, x), c)[i] == d[i] {
      assert (d[i] + Fill(k, x))[..c] == d[i];
    }
  }

  /** `_resize(rows, cols)`: ValueError for unreadable or negative sizes;
      otherwise the row step, then the column step over the new row range,
      which raises IndexError part way when row lists are missing. */
  function Resize(m: Mat, rows: RowsArg, cols: Option<int>): Effect
    requires WellFormed(m)
  {
    match SizeOf(rows, cols)
    case None => Effect(Fail(ValueError), m)
    case Some((r, c)) =>
      if r < 0 || c < 0 then Effect(Fail(ValueError), m)
      else
        var d := RowStep(m, r);
        if c > m.cols && |d| < r then Effect(Fail(IndexError), m.(data := Widen(d, c - m.cols, m.dflt)))
        else if c > m.cols then Effect(Pass, Mat(Widen(d, c - m.cols, m.dflt), r, c, m.dflt))
        else if c < m.cols then Effect(Pass, Mat(Narrow(d, c), r, c, m.dflt))
        else Effect(Pass, Mat(d, r, c, m.dflt))
  }

  /** Resizing a dense matrix to a valid shape keeps the cells inside both
      shapes and fills the new ones with the default. */
  lemma ResizeCells(m: Mat, r: int, c: int)
    requires Dense(m) && r >= 0 && c >= 0
    ensures Resize(m, Count(r), Some(c)) == Resize(m, ShapeSeq([r, c]), None)
    ensures Resize(m, Count(r), Some(c)).outcome == Pass
    ensures Dense(Resize(m, Count(r), Some(c)).after)
    ensures Resize(m, Count(r), Some(c)).after.rows == r && Resize(m, Count(r), Some(c)).after.cols == c
    ensures Resize(m, Count(r), Some(c)).after.dflt == m.dflt
    ensures forall i, j :: 0 <= i < r && 0 <= j < c ==>
      Resize(m, Count(r), Some(c)).after.data[i][j] == if i < m.rows && j < m.cols then m.data[i][j] else m.dflt
  {
  }

  /** Unreadable or negative sizes raise ValueError and change nothing. */
  lemma ResizeRejects(m: Mat, rows: RowsArg, cols: Option<int>)
    requires WellFormed(m)
    requires SizeOf(rows, cols).None? || SizeOf(rows, cols).value.0 < 0 || SizeOf(rows, cols).value.1 < 0
    ensures Resize(m, rows, cols) == Effect(Fail(ValueError), m)
  {
  }

  /** Resizing keeps the invariant whenever it completes. */
  lemma ResizeWellFormed(m: Mat, rows: RowsArg, cols: Option<int>)
    requires WellFormed(m) && Resize(m, rows, cols).outcome == Pass
    ensures WellFormed(Resize(m, rows, cols).after)
  {
  }

  /** Growing a dense matrix and then shrinking it back restores it. */
  lemma {:induction false} ResizeGrowShrink(m: Mat, r: int, c: int)
    requires Dense(m) && r >= m.rows && c >= m.cols
    ensures Resize(Resize(m, Count(r), Some(c)).after, Count(m.rows), Some(m.cols)) == Effect(Pass, m)
  {
    ResizeCells(m, r, c);
    var g := Resize(m, Count(r), Some(c)).after;
    ResizeCells(g, m.rows, m.cols);
    var back := Resize(g, Count(m.rows), Some(m.cols)).after;
    forall i | 0 <= i < m.rows ensures back.data[i] == m.data[i] {
      assert |back.data[i]| == m.cols;
    }
  }

  /** Resizing twice to the same shape changes nothing the second time. */
  lemma {:induction false} ResizeIdempotent(m: Mat, r: int, c: int)
    requires Dense(m) && r >= 0 && c >= 0
    ensures Resize(Resize(m, Count(r), Some(c)).after, Count(r), Some(c)) == Resize(m, Count(r), Some(c))
  {
    ResizeCells(m, r, c);
    var g := Resize(m, Count(r), Some(c)).after;
    assert RowStep(g, r) == g.data;
  }

  /** On a matrix without columns but with missing row lists, widening
      fails at the first missing row and leaves the rows before it widened
      while the shape stays as it was; that state no longer keeps the
      invariant, since its one row list has a cell under a column count of 0. */
  lemma ResizePartial(d: int)
    ensures WellFormed(Mat([[]], 3, 0, d))
    ensures Resize(Mat([[]], 3, 0, d), Count(3), Some(1)) == Effect(Fail(IndexError), Mat([[d]], 3, 0, d))
    ensures !WellFormed(Mat([[d]], 3, 0, d))
  {
    assert RowStep(Mat([[]], 3, 0, d), 3) == [[]];
    var w := Widen([[]], 1, d);
    assert Fill(1, d) == [d];
    assert |w| == 1 && w[0] == [d];
    assert w == [[d]];
  }

  // ------------------------------------------------------------- insertion

  /** Where `list.insert(i, x)` puts `x` in a list of length `n`: a negative
      position counts from the end, clipped to the ends of the list. */
  function InsertPos(i: int, n: nat): (p: nat)
    ensures p <= n
    ensures 0 <= i <= n ==> p == i
    ensures -(n as int) <= i < 0 ==> p == n + i
  {
    if i < 0 then Max(n + i, 0) else Min(i, n)
  }

  /** `list.insert(i, x)`. */
  function InsertAt<T>(s: seq<T>, i: int, x: T): (r: seq<T>)
    ensures |r| == |s| + 1 && r[InsertPos(i, |s|)] == x
    ensures forall k :: 0 <= k < InsertPos(i, |s|) ==> r[k] == s[k]
    ensures forall k :: InsertPos(i, |s|) < k <= |s| ==> r[k] == s[k - 1]
  {
    var p := InsertPos(i, |s|);
    s[..p] + [x] + s[p..]
  }

  /** `_insertrow`: the line is fitted to the width and inserted as a row. */
  function InsertRow(m: Mat, index: int, line: seq<int>): Mat
    requires WellFormed(m)
  {
    m.(data := InsertAt(m.data, index, Fit(line, m.cols, m.dflt)), rows := m.rows + 1)
  }

  /** `_insertcol`: the line is fitted to the height and its cell `i`
      inserted into row `i`; missing row lists raise IndexError part way. */
  function InsertCol(m: Mat, index: int, line: seq<int>): Effect
    requires WellFormed(m)
  {
    var col := Fit(line, m.rows, m.dflt);
    var grown := seq(|m.data|, i requires 0 <= i < |m.data| => InsertAt(m.data[i], index, col[i]));
    if |m.data| < m.rows then Effect(Fail(IndexError), m.(data := grown))
    else Effect(Pass, Mat(grown, m.rows, m.cols + 1, m.dflt))
  }

  /** Inserting a row adds one row holding the fitted line at the insert
      position and keeps the other rows in order. */
  lemma InsertRowCells(m: Mat, index: int, line: seq<int>)
    requires WellFormed(m)
    ensures WellFormed(InsertRow(m, index, line))
    ensures Dense(m) ==> Dense(InsertRow(m, index, line))
    ensures InsertRow(m, index, line).rows == m.rows + 1 && InsertRow(m, index, line).cols == m.cols
    ensures InsertRow(m, index, line).dflt == m.dflt
    ensures InsertRow(m, index, line).data[InsertPos(index, |m.data|)] == Fit(line, m.cols, m.dflt)
    ensures InsertRow(m, index, line).data ==
      m.data[..InsertPos(index, |m.data|)] + [Fit(line, m.cols, m.dflt)] + m.data[InsertPos(index, |m.data|)..]
  {
  }

  /** Inserting a column into a dense matrix puts cell `i` of the fitted
      line into row `i` at the insert position and keeps the other cells. */
  lemma InsertColCells(m: Mat, index: int, line: seq<int>)
    requires Dense(m)
    ensures InsertCol(m, index, line).outcome == Pass
    ensures Dense(InsertCol(m, index, line).after)
    ensures InsertCol(m, index, line).after.rows == m.rows && InsertCol(m, index, line).after.cols == m.cols + 1
    ensures InsertCol(m, index, line).after.dflt == m.dflt
    ensures forall i :: 0 <= i < m.rows ==>
      InsertCol(m, index, line).after.data[i][InsertPos(index, m.cols)] == (if i < |line| then line[i] else m.dflt)
    ensures forall i :: 0 <= i < m.rows ==>
      InsertCol(m, index, line).after.data[i] ==
        m.data[i][..InsertPos(index, m.cols)] + [if i < |line| then line[i] else m.dflt] + m.data[i][InsertPos(index, m.cols)..]
  {
  }

  /** On a matrix without columns but with missing row lists, inserting a
      column fills the row lists that exist and then raises IndexError,
      leaving the shape as it was and the invariant broken. */
  lemma InsertColPartial(d: int, x: int)
    ensures WellFormed(Mat([[]], 3, 0, d))
    ensures InsertCol(Mat([[]], 3, 0, d), 0, [x]) == Effect(Fail(IndexError), Mat([[x]], 3, 0, d))
    ensures !WellFormed(Mat([[x]], 3, 0, d))
  {
    var col := Fit([x], 3, d);
    assert col[0] == x;
    assert InsertAt([], 0, x) == [x];
    assert |[[x]][0]| != 0;
  }

  // --------------------------------------------------------------- removal

  /** `del s[p]` for a position already read as non-negative. */
  function RemoveAt<T>(s: seq<T>, p: nat): (r: seq<T>)
    requires p < |s|
    ensures |r| == |s| - 1
    ensures forall k :: 0 <= k < |r| ==> r[k] == if k < p then s[k] else s[k + 1]
  {
    s[..p] + s[p + 1..]
  }

  /** `_removerow`: the index is checked against the row count (IndexError),
      then the row list is deleted and the row count decreases. */
  function RemoveRow(m: Mat, index: int): Result<Mat>
    requires WellFormed(m)
  {
    if !InBounds(index, m.rows) || !PyValid(index, |m.data|) then Err(IndexError)
    else Ok(m.(data := RemoveAt(m.data, Offset(index, |m.data|)), rows := m.rows - 1))
  }

  /** `_removecol`: no check; the cell is deleted from every row in the row
      range, so a matrix without rows just loses a column from its count
      (even below zero), and a bad index raises IndexError at the first row. */
  function RemoveCol(m: Mat, index: int): Result<Mat>
    requires WellFormed(m)
  {
    if m.rows == 0 then Ok(m.(cols := m.cols - 1))
    else if |m.data| == 0 || !PyValid(index, m.cols) then Err(IndexError)
    else Ok(Mat(seq(|m.data|, i requires 0 <= i < |m.data| => RemoveAt(m.data[i], Offset(index, m.cols))),
                m.rows, m.cols - 1, m.dflt))
  }

  /** On a dense matrix, removing a row succeeds exactly for an index in
      range, keeps the invariant and drops exactly that row. */
  lemma RemoveRowCells(m: Mat, index: int)
    requires Dense(m)
    ensures RemoveRow(m, index).Ok? <==> -m.rows <= index < m.rows
    ensures RemoveRow(m, index).Err? ==> RemoveRow(m, index).error == IndexError
    ensures RemoveRow(m, index).Ok? ==>
      Dense(RemoveRow(m, index).value) &&
      RemoveRow(m, index).value.rows == m.rows - 1 && RemoveRow(m, index).value.cols == m.cols &&
      RemoveRow(m, index).value.dflt == m.dflt &&
      RemoveRow(m, index).value.data == m.data[..Offset(index, m.rows)] + m.data[Offset(index, m.rows) + 1..]
  {
  }

  /** Inserting a row at a position within the matrix and removing the row
      at that position restores the matrix. */
  lemma InsertThenRemoveRow(m: Mat, index: int, line: seq<int>)
    requires Dense(m) && 0 <= index <= m.rows
    ensures RemoveRow(InsertRow(m, index, line), index) == Ok(m)
  {
    var g := InsertRow(m, index, line);
    assert RemoveAt(g.data, index) == m.data;
  }

  /** On a dense matrix with rows, removing a column succeeds exactly for
      an index in range, keeps the invariant and drops that cell from every
      row. */
  lemma RemoveColCells(m: Mat, index: int)
    requires Dense(m) && m.rows > 0
    ensures RemoveCol(m, index).Ok? <==> -m.cols <= index < m.cols
    ensures RemoveCol(m, index).Err? ==> RemoveCol(m, index).error == IndexError
    ensures RemoveCol(m, index).Ok? ==>
      Dense(RemoveCol(m, index).value) && RemoveCol(m, index).value.cols == m.cols - 1 &&
      RemoveCol(m, index).value.rows == m.rows && RemoveCol(m, index).value.dflt == m.dflt &&
      forall i :: 0 <= i < m.rows ==>
        RemoveCol(m, index).value.data[i] == m.data[i][..Offset(index, m.cols)] + m.data[i][Offset(index, m.cols) + 1..]
  {
  }

  /** A matrix without rows accepts any column index and its column count
      can go negative: (0, 0) becomes (0, -1). */
  lemma RemoveColWithoutRows(m: Mat, index: int)
    requires WellFormed(m) && m.rows == 0
    ensures RemoveCol(m, index) == Ok(m.(cols := m.cols - 1))
    ensures m.cols == 0 ==> !WellFormed(RemoveCol(m, index).value)
  {
  }

  /** Inserting a column at a position within a dense matrix with rows and
      removing the column at that position restores the matrix. */
  lemma {:induction false} InsertThenRemoveCol(m: Mat, index: int, line: seq<int>)
    requires Dense(m) && m.rows > 0 && 0 <= index <= m.cols
    ensures InsertCol(m, index, line).outcome == Pass
    ensures RemoveCol(InsertCol(m, index, line).after, index) == Ok(m)
  {
    InsertColCells(m, index, line);
    var g := InsertCol(m, index, line).after;
    assert g.rows == m.rows && g.cols == m.cols + 1 && |g.data| == m.rows;
    assert PyValid(index, g.cols) && Offset(index, g.cols) == index;
    var back := RemoveCol(g, index);
    assert back.Ok?;
    forall i | 0 <= i < m.rows ensures back.value.data[i] == m.data[i] {
      var x := Fit(line, m.rows, m.dflt)[i];
      assert g.data[i] == InsertAt(m.data[i], index, x);
      assert InsertAt(m.data[i], index, x) == m.data[i][..index] + [x] + m.data[i][index..];
      assert RemoveAt(g.data[i], index) == m.data[i];
    }
    assert back.value.data == m.data;
  }

  // --------------------------------------------------------------- swapping

  /** `_swaprows`: both indices are checked against the row count, then the
      two row lists trade places. */
  function SwapRows(m: Mat, a: int, b: int): Result<Mat>
    requires WellFormed(m)
  {
    if !InBounds(a, m.rows) || !InBounds(b, m.rows) || !PyValid(a, |m.data|) || !PyValid(b, |m.data|) then
      Err(IndexError)
    else
      var pa, pb := Offset(a, |m.data|), Offset(b, |m.data|);
      Ok(m.(data := m.data[pa := m.data[pb]][pb := m.data[pa]]))
  }

  /** `_swapcols`: both indices are checked against the column count, then
      the two cells trade places in every row. */
  function SwapCols(m: Mat, a: int, b: int): Result<Mat>
    requires WellFormed(m)
  {
    if !InBounds(a, m.cols) || !InBounds(b, m.cols) then Err(IndexError)
    else
      var pa, pb := Offset(a, m.cols), Offset(b, m.cols);
      Ok(m.(data := seq(|m.data|, i requires 0 <= i < |m.data| => m.data[i][pa := m.data[i][pb]][pb := m.data[i][pa]])))
  }

  /** Swapping rows of a dense matrix succeeds exactly for indices in range,
      exchanges the two rows and leaves every other row alone. */
  lemma SwapRowsCells(m: Mat, a: int, b: int)
    requires Dense(m)
    ensures SwapRows(m, a, b).Ok? <==> (-m.rows <= a < m.rows && -m.rows <= b < m.rows)
    ensures SwapRows(m, a, b).Ok? ==>
      var s := SwapRows(m, a, b).value;
      Dense(s) && s.rows == m.rows && s.cols == m.cols && s.dflt == m.dflt &&
      s.data[Offset(a, m.rows)] == m.data[Offset(b, m.rows)] &&
      s.data[Offset(b, m.rows)] == m.data[Offset(a, m.rows)] &&
      forall i :: 0 <= i < m.rows && i != Offset(a, m.rows) && i != Offset(b, m.rows) ==> s.data[i] == m.data[i]
  {
  }

  /** Swapping columns of a dense matrix succeeds exactly for indices in
      range, exchanges the two cells of every row and nothing else. */
  lemma SwapColsCells(m: Mat, a: int, b: int)
    requires Dense(m)
    ensures SwapCols(m, a, b).Ok? <==> (-m.cols <= a < m.cols && -m.cols <= b < m.cols)
    ensures SwapCols(m, a, b).Ok? ==>
      var s := SwapCols(m, a, b).value;
      var pa, pb := Offset(a, m.cols), Offset(b, m.cols);
      Dense(s) && s.rows == m.rows && s.cols == m.cols && s.dflt == m.dflt &&
      forall i, j :: 0 <= i < m.rows && 0 <= j < m.cols ==>
        s.data[i][j] == (if j == pa then m.data[i][pb] else if j == pb then m.data[i][pa] else m.data[i][j])
  {
  }

  /** Swapping the same two rows twice restores the matrix. */
  lemma SwapRowsTwice(m: Mat, a: int, b: int)
    requires WellFormed(m) && SwapRows(m, a, b).Ok?
    ensures WellFormed(SwapRows(m, a, b).value) && SwapRows(SwapRows(m, a, b).value, a, b) == Ok(m)
  {
    var s := SwapRows(m, a, b).value;
    var pa, pb := Offset(a, |m.data|), Offset(b, |m.data|);
    assert |s.data| == |m.data|;
    assert s.data[pa := s.data[pb]][pb := s.data[pa]] == m.data;
  }

  /** Swapping the same two columns twice restores the matrix. */
  lemma {:induction false} SwapColsTwice(m: Mat, a: int, b: int)
    requires WellFormed(m) && SwapCols(m, a, b).Ok?
    ensures WellFormed(SwapCols(m, a, b).value) && SwapCols(SwapCols(m, a, b).value, a, b) == Ok(m)
  {
    var s := SwapCols(m, a, b).value;
    var pa, pb := Offset(a, m.cols), Offset(b, m.cols);
    var back := SwapCols(s, a, b).value;
    forall i | 0 <= i < |m.data| ensures back.data[i] == m.data[i] {
      assert s.data[i] == m.data[i][pa := m.data[i][pb]][pb := m.data[i][pa]];
      assert back.data[i] == s.data[i][pa := s.data[i][pb]][pb := s.data[i][pa]];
    }
    assert back.data == m.data;
  }
}

=== FILE: iterutils.dfy ===
/** Iterator helpers of the package: `chunked`, `_anysum`, `_sumprod` and the
    list-of-lists matrix product `matmul` (matrices/_iterutils.py). Lazy
    iterators are modelled by the sequences they would yield. */
module IterUtils {
  import opened Errors

  /** The concatenation of a sequence of lists, as `itertools.chain(*xss)` yields it. */
  function Concat<T>(xss: seq<seq<T>>): seq<T>
  {
    if xss == [] then [] else xss[0] + Concat(xss[1..])
  }

  lemma {:induction false} ConcatCons<T>(x: seq<T>, xss: seq<seq<T>>)
    ensures Concat([x] + xss) == x + Concat(xss)
  {
    assert ([x] + xss)[1..] == xss;
  }

  /** Every item of the concatenation is `d` exactly when every item of
      every list is. */
  lemma {:induction false} ConcatAllEqual(xss: seq<seq<int>>, d: int)
    ensures (forall v :: v in Concat(xss) ==> v == d) <==>
      (forall i, j :: 0 <= i < |xss| && 0 <= j < |xss[i]| ==> xss[i][j] == d)
  {
    if xss != [] {
      var rest := xss[1..];
      ConcatAllEqual(rest, d);
      assert Concat(xss) == xss[0] + Concat(rest);
      if forall v :: v in Concat(xss) ==> v == d {
        forall v | v in Concat(rest) ensures v == d {
          var k :| 0 <= k < |Concat(rest)| && Concat(rest)[k] == v;
          assert Concat(xss)[|xss[0]| + k] == v;
          assert v in Concat(xss);
        }
        forall i, j | 0 <= i < |xss| && 0 <= j < |xss[i]| ensures xss[i][j] == d {
          if i == 0 {
            assert xss[0][j] in Concat(xss);
          } else {
            assert xss[i] == rest[i - 1];
          }
        }
      }
      if forall i, j :: 0 <= i < |xss| && 0 <= j < |xss[i]| ==> xss[i][j] == d {
        forall i, j | 0 <= i < |rest| && 0 <= j < |rest[i]| ensures rest[i][j] == d {
          assert rest[i] == xss[i + 1];
        }
        forall v | v in Concat(xss) ensures v == d {
          var k :| 0 <= k < |Concat(xss)| && Concat(xss)[k] == v;
          if k < |xss[0]| {
            assert xss[0][k] == v;
          } else {
            assert Concat(rest)[k - |xss[0]|] == v;
          }
        }
      }
    }
  }

  /** One more row of `c` items shifts a flat row-major position by `c`. */
  lemma MulStep(i: int, c: int, j: int)
    ensures (i + 1) * c + j == c + (i * c + j)
  {
  }

  /** Concatenating lists that all have `c` items puts item `j` of list `i`
      at position `i * c + j`. */
  lemma {:induction false} ConcatRect<T>(xss: seq<seq<T>>, c: nat, i: nat, j: nat)
    requires forall p :: 0 <= p < |xss| ==> |xss[p]| == c
    requires i < |xss| && j < c
    ensures |Concat(xss)| == |xss| * c
    ensures i * c + j < |Concat(xss)| && Concat(xss)[i * c + j] == xss[i][j]
  {
    if i == 0 {
      ConcatLength(xss, c);
    } else {
      ConcatRect(xss[1..], c, i - 1, j);
      MulStep(i - 1, c, j);
      MulStep(|xss| - 1, c, 0);
    }
  }

  lemma {:induction false} ConcatLength<T>(xss: seq<seq<T>>, c: nat)
    requires forall p :: 0 <= p < |xss| ==> |xss[p]| == c
    ensures |Concat(xss)| == |xss| * c
  {
    if xss != [] {
      ConcatLength(xss[1..], c);
      MulStep(|xss| - 1, c, 0);
    }
  }

  /** `[(x, y) for x in xs for y in ys]`. */
  function Pairs<A, B>(xs: seq<A>, ys: seq<B>): (r: seq<(A, B)>)
    ensures |r| == |xs| * |ys|
    ensures forall k :: 0 <= k < |r| ==> r[k].0 in xs && r[k].1 in ys
  {
    if xs == [] then []
    else
      MulStep(|xs| - 1, |ys|, 0);
      seq(|ys|, j requires 0 <= j < |ys| => (xs[0], ys[j])) + Pairs(xs[1..], ys)
  }

  /** The pair of `xs[i]` and `ys[j]` sits at position `i * |ys| + j`. */
  lemma {:induction false} PairsAt<A, B>(xs: seq<A>, ys: seq<B>, i: nat, j: nat)
    requires i < |xs| && j < |ys|
    ensures i * |ys| + j < |Pairs(xs, ys)| && Pairs(xs, ys)[i * |ys| + j] == (xs[i], ys[j])
  {
    MulStep(|xs| - 1, |ys|, 0);
    if i > 0 {
      PairsAt(xs[1..], ys, i - 1, j);
      MulStep(i - 1, |ys|, j);
    }
  }

  /** Pairing two lists without repetitions gives no pair twice. */
  lemma {:induction false} PairsDistinct<A, B>(xs: seq<A>, ys: seq<B>)
    requires forall k, l :: 0 <= k < l < |xs| ==> xs[k] != xs[l]
    requires forall k, l :: 0 <= k < l < |ys| ==> ys[k] != ys[l]
    ensures forall k, l :: 0 <= k < l < |Pairs(xs, ys)| ==> Pairs(xs, ys)[k] != Pairs(xs, ys)[l]
  {
    if xs != [] {
      var head := seq(|ys|, j requires 0 <= j < |ys| => (xs[0], ys[j]));
      var tail := Pairs(xs[1..], ys);
      PairsDistinct(xs[1..], ys);
      assert Pairs(xs, ys) == head + tail;
      assert forall i :: 0 <= i < |xs| - 1 ==> xs[1..][i] != xs[0];
      forall k, l | 0 <= k < l < |head + tail| ensures (head + tail)[k] != (head + tail)[l] {
        if k < |head| <= l {
          assert tail[l - |head|].0 in xs[1..];
        }
      }
    }
  }

  /** Position `k` of the pairs holds `xs[k / |ys|]` and `ys[k % |ys|]`. */
  lemma {:induction false} PairsIndex<A, B>(xs: seq<A>, ys: seq<B>, k: nat)
    requires k < |xs| * |ys|
    ensures |ys| > 0 && k / |ys| < |xs| && k == (k / |ys|) * |ys| + k % |ys|
    ensures Pairs(xs, ys)[k] == (xs[k / |ys|], ys[k % |ys|])
  {
    var c := |ys|;
    if c == 0 {
      MulZero(|xs|);
      assert false;
    }
    DivMod(k, c);
    var i, j := k / c, k % c;
    if i >= |xs| {
      MulMono(|xs|, i, c);
      assert false;
    }
    PairsAt(xs, ys, i, j);
  }

  lemma MulZero(a: int)
    ensures a * 0 == 0
  {
  }

  /** Euclidean division by a positive divisor. */
  lemma DivMod(k: nat, c: nat)
    requires c > 0
    ensures k == (k / c) * c + k % c && 0 <= k % c < c && k / c >= 0
  {
  }

  /** Multiplying by a natural number keeps the order. */
  lemma {:induction false} MulMono(a: nat, b: nat, c: nat)
    requires a <= b
    ensures a * c <= b * c
  {
    if a < b {
      MulMono(a, b - 1, c);
      MulStep(b - 1, c, 0);
    }
  }

  /** `chunked(xs, n)`: consecutive lists of `n` items, the last one possibly
      shorter; a chunk size of 0 yields nothing at all. */
  function Chunked<T>(xs: seq<T>, n: nat): (r: seq<seq<T>>)
    ensures n == 0 ==> r == []
    ensures n > 0 ==> Concat(r) == xs
    ensures forall i :: 0 <= i < |r| ==> 0 < |r[i]| <= n
    ensures forall i :: 0 <= i < |r| - 1 ==> |r[i]| == n
    decreases |xs|
  {
    if n == 0 || xs == [] then []
    else if |xs| <= n then
      assert Concat([xs]) == xs + Concat([xs][1..]);
      [xs]
    else
      var rest := Chunked(xs[n..], n);
      ConcatCons(xs[..n], rest);
      assert xs[..n] + xs[n..] == xs;
      [xs[..n]] + rest
  }

  /** When `|xs|` is a multiple `k * n` of the chunk size, chunking gives `k`
      full rows in row-major order. */
  lemma {:induction false} ChunkedExact<T>(xs: seq<T>, n: nat, k: nat, i: nat, j: nat)
    requires n > 0 && |xs| == k * n
    requires i < k && j < n
    ensures |Chunked(xs, n)| == k
    ensures i * n + j < |xs| && |Chunked(xs, n)[i]| == n && Chunked(xs, n)[i][j] == xs[i * n + j]
  {
    ChunkedFull(xs, n, k);
    ConcatRect(Chunked(xs, n), n, i, j);
  }

  /** `k * n` items make exactly `k` chunks of `n`. */
  lemma {:induction false} ChunkedFull<T>(xs: seq<T>, n: nat, k: nat)
    requires n > 0 && |xs| == k * n
    ensures |Chunked(xs, n)| == k
    ensures forall i :: 0 <= i < k ==> |Chunked(xs, n)[i]| == n
    decreases k
  {
    if k == 0 {
      assert xs == [];
    } else if k == 1 {
      assert |xs| == n;
      assert Chunked(xs, n) == [xs];
    } else {
      ChunkedSplit(xs, n, k);
      ChunkedFull(xs[n..], n, k - 1);
    }
  }

  /** More than one full chunk: the first chunk is split off. */
  lemma {:induction false} ChunkedSplit<T>(xs: seq<T>, n: nat, k: nat)
    requires n > 0 && k > 1 && |xs| == k * n
    ensures |xs| > n && |xs[n..]| == (k - 1) * n
    ensures Chunked(xs, n) == [xs[..n]] + Chunked(xs[n..], n)
  {
    MulStep(k - 1, n, 0);
    MulAtLeast(k - 1, n);
  }

  /** A positive multiple of `b` is at least `b`. */
  lemma {:induction false} MulAtLeast(a: nat, b: nat)
    requires a >= 1
    ensures a * b >= b
  {
    if a > 1 {
      MulAtLeast(a - 1, b);
      MulStep(a - 1, b, 0);
    }
  }

  /** The left fold of `+` over a non-empty list: `((x0 + x1) + x2) + ...`. */
  function FoldSum(xs: seq<int>): int
    requires |xs| > 0
  {
    if |xs| == 1 then xs[0] else FoldSum(xs[..|xs| - 1]) + xs[|xs| - 1]
  }

  /** `_anysum(xs)`: starts from the first item and adds the rest in order;
      an empty input raises ValueError. */
  method AnySum(xs: seq<int>) returns (r: Result<int>)
    ensures xs == [] ==> r == Err(ValueError)
    ensures xs != [] ==> r == Ok(FoldSum(xs))
  {
    if xs == [] {
      return Err(ValueError);
    }
    var total := xs[0];
    var i := 1;
    while i < |xs|
      invariant 1 <= i <= |xs|
      invariant total == FoldSum(xs[..i])
    {
      assert xs[..i + 1][..i] == xs[..i];
      total := total + xs[i];
      i := i + 1;
    }
    assert xs[..|xs|] == xs;
    return Ok(total);
  }

  /** Reference definition of the dot product of two equally long vectors. */
  function Dot(a: seq<int>, b: seq<int>): int
    requires |a| == |b|
  {
    if a == [] then 0 else a[0] * b[0] + Dot(a[1..], b[1..])
  }

  /** The pairwise products `a[k] * b[k]`. */
  function Products(a: seq<int>, b: seq<int>): (r: seq<int>)
    requires |a| == |b|
    ensures |r| == |a| && forall k :: 0 <= k < |a| ==> r[k] == a[k] * b[k]
  {
    seq(|a|, k requires 0 <= k < |a| => a[k] * b[k])
  }

  lemma {:induction false} DotSnoc(a: seq<int>, b: seq<int>)
    requires |a| == |b| > 0
    ensures Dot(a, b) == Dot(a[..|a| - 1], b[..|b| - 1]) + a[|a| - 1] * b[|b| - 1]
  {
    if |a| > 1 {
      DotSnoc(a[1..], b[1..]);
      assert a[1..][..|a| - 2] == a[..|a| - 1][1..];
      assert b[1..][..|b| - 2] == b[..|b| - 1][1..];
    }
  }

  /** Summing the products from the left, as `_anysum` does, gives the dot product. */
  lemma {:induction false} FoldSumIsDot(a: seq<int>, b: seq<int>)
    requires |a| == |b| > 0
    ensures FoldSum(Products(a, b)) == Dot(a, b)
  {
    DotSnoc(a, b);
    if |a| > 1 {
      var n := |a| - 1;
      assert Products(a, b)[..n] == Products(a[..n], b[..n]);
      FoldSumIsDot(a[..n], b[..n]);
    }
  }

  /** `_sumprod(a, b)`: the dot product of two vectors; ValueError when their
      lengths differ (strict zip) or when both are empty (`_anysum`). */
  function SumProd(a: seq<int>, b: seq<int>): (r: Result<int>)
    ensures r.Err? <==> (|a| != |b| || a == [])
    ensures r.Err? ==> r.error == ValueError
    ensures r.Ok? ==> r.value == Dot(a, b)
  {
    if |a| != |b| || a == [] then Err(ValueError)
    else
      FoldSumIsDot(a, b);
      Ok(FoldSum(Products(a, b)))
  }

  /** Every list of `m` has exactly `n` items. */
  predicate Rect(m: seq<seq<int>>, n: int)
  {
    forall p :: 0 <= p < |m| ==> |m[p]| == n
  }

  /** Column `j` of a list of rows. */
  function Column(m: seq<seq<int>>, j: nat): (r: seq<int>)
    requires forall p :: 0 <= p < |m| ==> j < |m[p]|
    ensures |r| == |m| && forall p :: 0 <= p < |m| ==> r[p] == m[p][j]
  {
    seq(|m|, p requires 0 <= p < |m| => m[p][j])
  }

  /** The flat, row-major sequence of the dot products of every row of `m1`
      with every column of `m2`, as `starmap(_sumprod, product(m1, zip(*m2)))`
      yields them. */
  function ProductStream(m1: seq<seq<int>>, m2: seq<seq<int>>, n: nat): (r: seq<int>)
    requires Rect(m1, |m2|) && Rect(m2, n)
    ensures |r| == |m1| * n
  {
    if m1 == [] then []
    else
      seq(n, j requires 0 <= j < n => Dot(m1[0], Column(m2, j))) + ProductStream(m1[1..], m2, n)
  }

  lemma {:induction false} ProductStreamAt(m1: seq<seq<int>>, m2: seq<seq<int>>, n: nat, i: nat, j: nat)
    requires Rect(m1, |m2|) && Rect(m2, n)
    requires i < |m1| && j < n
    ensures i * n + j < |m1| * n
    ensures ProductStream(m1, m2, n)[i * n + j] == Dot(m1[i], Column(m2, j))
  {
    var head := seq(n, j requires 0 <= j < n => Dot(m1[0], Column(m2, j)));
    var rest := ProductStream(m1[1..], m2, n);
    assert ProductStream(m1, m2, n) == head + rest;
    if i > 0 {
      ProductStreamAt(m1[1..], m2, n, i - 1, j);
      MulStep(i - 1, n, j);
      MulStep(|m1| - 1, n, 0);
      assert m1[1..][i - 1] == m1[i];
    } else {
      MulZero(n);
    }
  }

  /** `matmul(m1, m2)`: IndexError when `m2` has no rows (`len(m2[0])`);
      ValueError when the rows of `m2` differ in length or a row of `m1` does
      not match the height of `m2` (strict zips); otherwise the products,
      chunked into rows of `len(m2[0])` items. */
  function MatMul(m1: seq<seq<int>>, m2: seq<seq<int>>): (r: Result<seq<seq<int>>>)
  {
    if |m2| == 0 then Err(IndexError)
    else if !Rect(m2, |m2[0]|) then Err(ValueError)
    else
      var n := |m2[0]|;
      if |m1| == 0 || n == 0 then Ok([])
      else if !Rect(m1, |m2|) then Err(ValueError)
      else Ok(Chunked(ProductStream(m1, m2, n), n))
  }

  /** The product of an `a x b` list of rows and a `b x c` list of rows (with
      `b, c > 0`) has `a` rows of `c` items, item `(i, j)` being the
      `_sumprod` of row `i` and column `j`. */
  lemma MatMulCells(m1: seq<seq<int>>, m2: seq<seq<int>>, c: nat)
    requires |m2| > 0 && c > 0 && Rect(m1, |m2|) && Rect(m2, c)
    ensures MatMul(m1, m2).Ok?
    ensures |MatMul(m1, m2).value| == |m1|
    ensures forall i, j :: 0 <= i < |m1| && 0 <= j < c ==>
      |MatMul(m1, m2).value[i]| == c &&
      MatMul(m1, m2).value[i][j] == Dot(m1[i], Column(m2, j)) == SumProd(m1[i], Column(m2, j)).value
  {
    if |m1| > 0 {
      MatMulCell(m1, m2, c, 0, 0);
      forall i, j | 0 <= i < |m1| && 0 <= j < c
        ensures |MatMul(m1, m2).value[i]| == c
        ensures MatMul(m1, m2).value[i][j] == Dot(m1[i], Column(m2, j))
      {
        MatMulCell(m1, m2, c, i, j);
      }
    }
  }

  /** One cell of a product, as `MatMulCells` states it for all cells. */
  lemma {:induction false} MatMulCell(m1: seq<seq<int>>, m2: seq<seq<int>>, c: nat, i: nat, j: nat)
    requires |m2| > 0 && c > 0 && Rect(m1, |m2|) && Rect(m2, c)
    requires i < |m1| && j < c
    ensures MatMul(m1, m2).Ok? && |MatMul(m1, m2).value| == |m1|
    ensures |MatMul(m1, m2).value[i]| == c && MatMul(m1, m2).value[i][j] == Dot(m1[i], Column(m2, j))
  {
    var flat := ProductStream(m1, m2, c);
    ChunkedExact(flat, c, |m1|, i, j);
    ProductStreamAt(m1, m2, c, i, j);
  }

  /** A product is undefined when the inner dimensions disagree. */
  lemma {:induction false} MatMulMismatch(m1: seq<seq<int>>, m2: seq<seq<int>>, c: nat)
    requires |m1| > 0 && c > 0 && |m2| > 0 && Rect(m2, c)
    requires exists i :: 0 <= i < |m1| && |m1[i]| != |m2|
    ensures MatMul(m1, m2) == Err(ValueError)
  {
  }

  lemma Dot3(a: seq<int>, b: seq<int>)
    requires |a| == |b| == 3
    ensures Dot(a, b) == a[0] * b[0] + a[1] * b[1] + a[2] * b[2]
  {
    assert Dot(a[1..][1..][1..], b[1..][1..][1..]) == 0;
    assert Dot(a[1..][1..], b[1..][1..]) == a[2] * b[2];
    assert Dot(a[1..], b[1..]) == a[1] * b[1] + a[2] * b[2];
  }

  /** The square of the 3 x 3 matrix of 1..9, worked out cell by cell. */
  lemma MatMulExample()
    ensures MatMul([[1, 2, 3], [4, 5, 6], [7, 8, 9]], [[1, 2, 3], [4, 5, 6], [7, 8, 9]])
         == Ok([[30, 36, 42], [66, 81, 96], [102, 126, 150]])
  {
    var a := [[1, 2, 3], [4, 5, 6], [7, 8, 9]];
    var c0, c1, c2 := Column(a, 0), Column(a, 1), Column(a, 2);
    assert c0 == [1, 4, 7] && c1 == [2, 5, 8] && c2 == [3, 6, 9];
    MatMulCell(a, a, 3, 0, 0);
    var r := MatMul(a, a).value;
    assert r[0] == [30, 36, 42] by {
      MatMulCell(a, a, 3, 0, 1); MatMulCell(a, a, 3, 0, 2);
      Dot3(a[0], c0); Dot3(a[0], c1); Dot3(a[0], c2);
    }
    assert r[1] == [66, 81, 96] by {
      MatMulCell(a, a, 3, 1, 0); MatMulCell(a, a, 3, 1, 1); MatMulCell(a, a, 3, 1, 2);
      Dot3(a[1], c0); Dot3(a[1], c1); Dot3(a[1], c2);
    }
    assert r[2] == [102, 126, 150] by {
      MatMulCell(a, a, 3, 2, 0); MatMulCell(a, a, 3, 2, 1); MatMulCell(a, a, 3, 2, 2);
      Dot3(a[2], c0); Dot3(a[2], c1); Dot3(a[2], c2);
    }
    assert r == [[30, 36, 42], [66, 81, 96], [102, 126, 150]];
  }
}

=== FILE: legacy.dfy ===
/** The earlier package `matrix_types`. Its grid helpers, wrappers and
    operators are the same code as those of `matrices` (with `delrow` and
    `delcol` for `removerow` and `removecol`, and `flatten` for `values`).
    This module holds only what differs: the column-tuple check, item
    assignment, the constructor that pads the caller's list, and the
    loop-built `asdict`. */
module Legacy {
  import opened Errors
  import opened Selectors
  import opened Grid
  import opened Access
  import opened Views
  import opened Construction

  // ------------------------------------------------------ column indices

  /** `_coltoindices`: integers and slices are resolved against the column
      count, but a tuple is checked against the row count. */
  function ResolveColumnAsWritten(sel: Selector, rows: int, cols: int): (r: Result<seq<int>>)
    ensures sel.Tup? ==> (r.Ok? <==> forall k :: 0 <= k < |sel.items| ==> InBounds(sel.items[k], rows))
    ensures sel.Tup? && r.Ok? ==> r.value == sel.items
    ensures sel.Idx? ==> (r.Ok? <==> InBounds(sel.i, cols))
  {
    if sel.Tup? then Resolve(sel, rows) else Resolve(sel, cols)
  }

  /** `_getslice` with the column check above. */
  function GetSliceAsWritten(m: Mat, rsel: Selector, csel: Selector): Result<Mat>
    requires WellFormed(m)
  {
    var rs :- Resolve(rsel, m.rows);
    var cs :- ResolveColumnAsWritten(csel, m.rows, m.cols);
    Submatrix(m, rs, cs)
  }

  /** `get(row, col)`. */
  function GetAsWritten(m: Mat, rsel: Selector, csel: Selector): Result<Got>
    requires WellFormed(m)
  {
    if rsel.Idx? && csel.Idx? then
      var v :- GetItem(m, rsel.i, csel.i);
      Ok(Value(v))
    else
      var s :- GetSliceAsWritten(m, rsel, csel);
      Ok(Sub(s))
  }

  /** Reading differs from `matrices` only through a column tuple on a
      matrix that is not square. */
  lemma GetAgrees(m: Mat, rsel: Selector, csel: Selector)
    requires WellFormed(m)
    requires !csel.Tup? || m.rows == m.cols
    ensures GetAsWritten(m, rsel, csel) == Get(m, rsel, csel)
  {
  }

  /** In a 2×3 matrix, column 2 is in range, yet `get(0, (2,))` raises
      IndexError because 2 is the row count; the column check of `matrices`
      accepts it and returns the 1×1 submatrix holding that cell. */
  lemma ColumnTupleFinding()
    ensures var m := Mat([[1, 2, 3], [4, 5, 6]], 2, 3, 0);
      GetAsWritten(m, Idx(0), Tup([2])) == Err(IndexError) &&
      Get(m, Idx(0), Tup([2])) == Ok(Sub(Mat([[3]], 1, 1, 0)))
  {
    var m := Mat([[1, 2, 3], [4, 5, 6]], 2, 3, 0);
    assert Tup([2]).items[0] == 2 && !InBounds(2, 2);
    assert Resolve(Tup([2]), 3) == Ok([2]);
    assert PyValid(0, |m.data|) && PyValid(2, m.cols);
    var s := Submatrix(m, [0], [2]);
    assert s.Ok? && s.value.data[0] == [3];
    assert s.value.data == [[3]];
    assert s == Ok(Mat([[3]], 1, 1, 0));
  }

  // ---------------------------------------------------------- assignment

  /** `__setitem__`, `__delitem__` and `_setslice`: every assignment, of a
      cell or of a slice, raises NotImplementedError and changes nothing. */
  function Assign(m: Mat, rsel: Selector, csel: Selector, p: Payload): (e: Effect)
    ensures e.outcome == Fail(NotImplementedError) && e.after == m
  {
    Effect(Fail(NotImplementedError), m)
  }

  // -------------------------------------------------------- construction

  /** `_init_from_seqseq`: the caller's own object is extended with default
      rows up to `r` (the caller sees those rows afterwards), and the grid
      takes the first `r` of its rows, each cut or padded to `c` cells.
      `appendable` says whether the caller's object has `append` (a list
      does, a tuple does not); a short object without it raises
      AttributeError before anything is built. */
  method InitFromRowsAsWritten(lines: seq<seq<int>>, appendable: bool, r: nat, c: nat, d: int)
    returns (data: Result<seq<seq<int>>>, caller: seq<seq<int>>)
    ensures |lines| < r && !appendable ==> data == Err(AttributeError) && caller == lines
    ensures |lines| >= r ==> caller == lines && data == Ok(RowsLayout(lines, r, c, d))
    ensures |lines| < r && appendable ==>
      caller == lines + seq(r - |lines|, _ => Fill(c, d)) && data == Ok(RowsLayout(lines, r, c, d))
  {
    caller := lines;
    if |caller| < r && !appendable {
      return Err(AttributeError), caller;
    }
    while |caller| < r
      invariant |lines| <= |caller| && (|lines| < r ==> |caller| <= r)
      invariant |lines| >= r ==> caller == lines
      invariant caller == lines + seq(|caller| - |lines|, _ => Fill(c, d))
      decreases r - |caller|
    {
      caller := caller + [Fill(c, d)];
    }
    var grid := [];
    var i := 0;
    while i < r
      invariant 0 <= i <= r
      invariant |grid| == i
      invariant forall p :: 0 <= p < i ==> grid[p] == Fit(if p < |lines| then lines[p] else [], c, d)
    {
      var row := caller[i];
      assert row == if i < |lines| then lines[i] else Fill(c, d);
      if |row| < c {
        grid := grid + [row + Fill(c - |row|, d)];
      } else {
        grid := grid + [row[..c]];
      }
      assert grid[i] == Fit(if i < |lines| then lines[i] else [], c, d);
      i := i + 1;
    }
    assert grid == RowsLayout(lines, r, c, d);
    data := Ok(grid);
  }

  // -------------------------------------------------------------- asdict

  /** `asdict`, filled one cell at a time in row-major order. */
  method AsDictLoop(m: Mat) returns (d: map<(int, int), int>)
    requires WellFormed(m)
    ensures d == AsDict(m)
  {
    d := map[];
    var r := 0;
    while r < m.rows
      invariant 0 <= r <= m.rows
      invariant forall p :: p in d <==> 0 <= p.0 < r && 0 <= p.1 < m.cols
      invariant forall p :: p in d ==> d[p] == m.data[p.0][p.1]
    {
      var c := 0;
      while c < m.cols
        invariant 0 <= c <= m.cols
        invariant forall p :: p in d <==> (0 <= p.0 < r && 0 <= p.1 < m.cols) || (p.0 == r && 0 <= p.1 < c)
        invariant forall p :: p in d ==> d[p] == m.data[p.0][p.1]
      {
        d := d[(r, c) := m.data[r][c]];
        c := c + 1;
      }
      r := r + 1;
    }
    AsDictCovers(m);
    assert forall p :: p in d <==> p in AsDict(m);
  }
}

=== FILE: matrix.dfy ===
/** Matrix (matrices/_matrix.py): the mutable façade. Every operation runs
    the MatrixABC helper on the receiver's own state and returns the
    receiver itself, or raises (`Err`) leaving whatever state the helper
    left. */
module Mutable {
  import opened Errors
  import opened Selectors
  import opened Grid
  import opened Arith
  import opened Access
  import opened Construction
  import opened Base

  class Matrix {
    const base: MatrixABC

    constructor Wrap(b: MatrixABC)
      ensures base == b
    {
      base := b;
    }

    function Value(): Mat
      reads base
    {
      base.Value()
    }

    ghost predicate Valid()
      reads base
    {
      base.Valid()
    }

    /** `Matrix(data, shape, default=...)`. */
    static method New(src: Source, shape: Option<seq<int>>, dflt: Option<int>) returns (r: Result<Matrix>)
      requires src.Copy? ==> WellFormed(src.src)
      ensures Construct(src, shape, dflt).Err? ==> r == Err(Construct(src, shape, dflt).error)
      ensures Construct(src, shape, dflt).Ok? ==>
        r.Ok? && fresh(r.value) && fresh(r.value.base) && r.value.Value() == Construct(src, shape, dflt).value
    {
      var b :- MatrixABC.New(src, shape, dflt);
      var m := new Matrix.Wrap(b);
      return Ok(m);
    }

    /** `transpose()`. */
    method Transpose() returns (r: Matrix)
      requires Valid()
      modifies base
      ensures r == this && Value() == Grid.Transpose(old(Value()))
    {
      base.Transpose();
      return this;
    }

    /** `resize(rows, cols)`: `cols` is a required argument here (it may be
        passed as None together with a shape sequence). */
    method Resize(rowsArg: RowsArg, colsArg: Option<int>) returns (r: Result<Matrix>)
      requires Valid()
      modifies base
      ensures var e := Grid.Resize(old(Value()), rowsArg, colsArg);
        Value() == e.after && r == (if e.outcome.Pass? then Ok(this) else Err(e.outcome.error))
    {
      var o := base.Resize(rowsArg, colsArg);
      r := if o.Pass? then Ok(this) else Err(o.error);
    }

    /** The `shape` setter: it calls `resize(shape)` without the required
        `cols` argument, so it raises TypeError and changes nothing. */
    method SetShape(shape: seq<int>) returns (r: Result<Matrix>)
      ensures r == Err(TypeError)
    {
      return Err(TypeError);
    }

    /** `flip(by=axis)`; `fliph()` and `flipv()` are `flip(by="col")` and
        `flip(by="row")`. */
    method Flip(axis: string) returns (r: Result<Matrix>)
      requires Valid()
      modifies base
      ensures Grid.Flip(old(Value()), axis).Ok? ==> r == Ok(this) && Value() == Grid.Flip(old(Value()), axis).value
      ensures Grid.Flip(old(Value()), axis).Err? ==>
        r == Err(Grid.Flip(old(Value()), axis).error) && Value() == old(Value())
    {
      var o := base.Flip(axis);
      r := if o.Pass? then Ok(this) else Err(o.error);
    }

    method FlipH() returns (r: Result<Matrix>)
      requires Valid()
      modifies base
      ensures Grid.Flip(old(Value()), "col").Ok? ==> r == Ok(this) && Value() == Grid.Flip(old(Value()), "col").value
      ensures Grid.Flip(old(Value()), "col").Err? ==>
        r == Err(Grid.Flip(old(Value()), "col").error) && Value() == old(Value())
    {
      r := Flip("col");
    }

    method FlipV() returns (r: Result<Matrix>)
      requires Valid()
      modifies base
      ensures r == Ok(this) && Value() == Grid.Flip(old(Value()), "row").value
    {
      r := Flip("row");
    }

    /** `insertrow(index, line)`. */
    method InsertRow(index: int, line: seq<int>) returns (r: Matrix)
      requires Valid()
      modifies base
      ensures r == this && Value() == Grid.InsertRow(old(Value()), index, line)
    {
      base.InsertRow(index, line);
      return this;
    }

    /** `appendrow(line)` (`insertrow(rows, line)`) and `prependrow(line)`
        (`insertrow(0, line)`). */
    method AppendRow(line: seq<int>) returns (r: Matrix)
      requires Valid()
      modifies base
      ensures r == this && Value() == Grid.InsertRow(old(Value()), old(Value()).rows, line)
    {
      r := InsertRow(base.rows, line);
    }

    method PrependRow(line: seq<int>) returns (r: Matrix)
      requires Valid()
      modifies base
      ensures r == this && Value() == Grid.InsertRow(old(Value()), 0, line)
    {
      r := InsertRow(0, line);
    }

    /** `insertcol(index, line)`. */
    method InsertCol(index: int, line: seq<int>) returns (r: Result<Matrix>)
      requires Valid()
      modifies base
      ensures var e := Grid.InsertCol(old(Value()), index, line);
        Value() == e.after && r == (if e.outcome.Pass? then Ok(this) else Err(e.outcome.error))
    {
      var o := base.InsertCol(index, line);
      r := if o.Pass? then Ok(this) else Err(o.error);
    }

    /** `appendcol(line)` (`insertcol(cols, line)`) and `prependcol(line)`
        (`insertcol(0, line)`). */
    method AppendCol(line: seq<int>) returns (r: Result<Matrix>)
      requires Valid()
      modifies base
      ensures var e := Grid.InsertCol(old(Value()), old(Value()).cols, line);
        Value() == e.after && r == (if e.outcome.Pass? then Ok(this) else Err(e.outcome.error))
    {
      r := InsertCol(base.cols, line);
    }

    method PrependCol(line: seq<int>) returns (r: Result<Matrix>)
      requires Valid()
      modifies base
      ensures var e := Grid.InsertCol(old(Value()), 0, line);
        Value() == e.after && r == (if e.outcome.Pass? then Ok(this) else Err(e.outcome.error))
    {
      r := InsertCol(0, line);
    }

    /** `removerow(index)`. */
    method RemoveRow(index: int) returns (r: Result<Matrix>)
      requires Valid()
      modifies base
      ensures Grid.RemoveRow(old(Value()), index).Ok? ==>
        r == Ok(this) && Value() == Grid.RemoveRow(old(Value()), index).value
      ensures Grid.RemoveRow(old(Value()), index).Err? ==>
        r == Err(Grid.RemoveRow(old(Value()), index).error) && Value() == old(Value())
    {
      var o := base.RemoveRow(index);
      r := if o.Pass? then Ok(this) else Err(o.error);
    }

    /** `removecol(index)`. */
    method RemoveCol(index: int) returns (r: Result<Matrix>)
      requires Valid()
      modifies base
      ensures Grid.RemoveCol(old(Value()), index).Ok? ==>
        r == Ok(this) && Value() == Grid.RemoveCol(old(Value()), index).value
      ensures Grid.RemoveCol(old(Value()), index).Err? ==>
        r == Err(Grid.RemoveCol(old(Value()), index).error) && Value() == old(Value())
    {
      var o := base.RemoveCol(index);
      r := if o.Pass? then Ok(this) else Err(o.error);
    }

    /** `swaprows(a, b)`. */
    method SwapRows(a: int, b: int) returns (r: Result<Matrix>)
      requires Valid()
      modifies base
      ensures Grid.SwapRows(old(Value()), a, b).Ok? ==>
        r == Ok(this) && Value() == Grid.SwapRows(old(Value()), a, b).value
      ensures Grid.SwapRows(old(Value()), a, b).Err? ==>
        r == Err(Grid.SwapRows(old(Value()), a, b).error) && Value() == old(Value())
    {
      var o := base.SwapRows(a, b);
      r := if o.Pass? then Ok(this) else Err(o.error);
    }

    /** `swapcols(a, b)`. */
    method SwapCols(a: int, b: int) returns (r: Result<Matrix>)
      requires Valid()
      modifies base
      ensures Grid.SwapCols(old(Value()), a, b).Ok? ==>
        r == Ok(this) && Value() == Grid.SwapCols(old(Value()), a, b).value
      ensures Grid.SwapCols(old(Value()), a, b).Err? ==>
        r == Err(Grid.SwapCols(old(Value()), a, b).error) && Value() == old(Value())
    {
      var o := base.SwapCols(a, b);
      r := if o.Pass? then Ok(this) else Err(o.error);
    }

    // ------------------------------------------------------- arithmetic

    /** `imatadd(other)` (`Plus`) and `imatsub(other)` (`Minus`): `other`
        is read, never written, so it may be the receiver itself. */
    method IMatElementwise(other: Matrix, op: ArithOp) returns (r: Result<Matrix>)
      requires Valid() && other.Valid()
      modifies base
      ensures Elementwise(old(Value()), old(other.Value()), op).Ok? ==>
        r == Ok(this) && Value() == Elementwise(old(Value()), old(other.Value()), op).value
      ensures Elementwise(old(Value()), old(other.Value()), op).Err? ==>
        r == Err(ValueError) && Value() == old(Value())
    {
      var o := base.IElementwise(other.Value(), op);
      r := if o.Pass? then Ok(this) else Err(o.error);
    }

    /** `imatmul(other)` and `@=`. */
    method IMatMul(other: Matrix) returns (r: Result<Matrix>)
      modifies base
      ensures MatMulOp(old(Value()), old(other.Value())).Ok? ==>
        r == Ok(this) && Value() == MatMulOp(old(Value()), old(other.Value())).value
      ensures MatMulOp(old(Value()), old(other.Value())).Err? ==>
        r == Err(MatMulOp(old(Value()), old(other.Value())).error) && Value() == old(Value())
    {
      var o := base.IMatMul(other.Value());
      r := if o.Pass? then Ok(this) else Err(o.error);
    }

    /** `iscaladd(s)` (`Plus`), `iscalsub(s)` (`Minus`), `iscalmul(s)`
        (`Times`) and `*=`. */
    method IScalar(op: ArithOp, s: int) returns (r: Matrix)
      requires Valid()
      modifies base
      ensures r == this && Value() == Scalar(old(Value()), op, s)
    {
      base.IScalar(op, s);
      return this;
    }

    /** `+=` (`Plus`) and `-=` (`Minus`): element-wise for a matrix operand,
        scalar otherwise. */
    method IOperator(x: Operand, op: ArithOp) returns (r: Result<Matrix>)
      requires Valid() && (x.MatrixOperand? ==> WellFormed(x.m))
      modifies base
      ensures x.ScalarOperand? ==> r == Ok(this) && Value() == Scalar(old(Value()), op, x.s)
      ensures x.MatrixOperand? && Elementwise(old(Value()), x.m, op).Ok? ==>
        r == Ok(this) && Value() == Elementwise(old(Value()), x.m, op).value
      ensures x.MatrixOperand? && Elementwise(old(Value()), x.m, op).Err? ==>
        r == Err(ValueError) && Value() == old(Value())
    {
      if x.MatrixOperand? {
        var o := base.IElementwise(x.m, op);
        r := if o.Pass? then Ok(this) else Err(o.error);
      } else {
        base.IScalar(op, x.s);
        r := Ok(this);
      }
    }

    /** `map(f)`. */
    method Map(f: int -> int) returns (r: Matrix)
      requires Valid()
      modifies base
      ensures r == this && Value() == MapCells(old(Value()), f)
    {
      base.Map(f);
      return this;
    }

    // ------------------------------------------------- default and cells

    /** The `default` setter: no cell changes. */
    method SetDefault(d: int)
      modifies base
      ensures Value() == old(Value()).(dflt := d)
    {
      base.dflt := d;
    }

    /** `set(row, col, values)` and `m[row, col] = values`: one cell for
        two indices, a slice write otherwise. */
    method Set(rsel: Selector, csel: Selector, p: Payload) returns (o: Outcome)
      requires Valid()
      requires rsel.Idx? && csel.Idx? ==> p.Single?
      modifies base
      ensures Effect(o, Value()) == Access.Set(old(Value()), rsel, csel, p)
    {
      if rsel.Idx? && csel.Idx? {
        o := base.SetItem(rsel.i, csel.i, p.v);
      } else {
        o := base.SetSlice(rsel, csel, p);
      }
    }

    /** `del m[row, col]`: `m[row, col] = default`. */
    method Delete(rsel: Selector, csel: Selector) returns (o: Outcome)
      requires Valid()
      modifies base
      ensures Effect(o, Value()) == Access.Delete(old(Value()), rsel, csel)
    {
      o := Set(rsel, csel, Single(base.dflt));
    }
  }
}

=== FILE: selectors.dfy ===
/** Row and column selectors and their resolution into index lists
    (`_check_rowindex`, `_check_colindex`, `_rowtoindices`, `_coltoindices`). */
module Selectors {
  import opened Errors
  import opened IterUtils

  /** What may stand in a row or column position of a subscript: one index,
      a tuple of indices, or a slice whose parts may each be omitted. */
  datatype Selector =
    | Idx(i: int)
    | Tup(items: seq<int>)
    | Slice(start: Option<int>, stop: Option<int>, step: Option<int>)

  function Abs(x: int): nat { if x < 0 then -x else x }

  /** The bounds test of `_check_rowindex` and `_check_colindex`: an index is
      rejected when it equals the length or its magnitude exceeds it. For a
      non-negative length this admits exactly Python's valid indices. */
  function InBounds(i: int, n: int): (ok: bool)
    ensures n >= 0 ==> (ok <==> -n <= i < n)
    ensures n < 0 ==> !ok
  {
    !(i == n || Abs(i) > n)
  }

  /** Python's reading of a possibly negative index into a list of length `n`. */
  function Offset(i: int, n: int): (p: int)
    ensures InBounds(i, n) ==> 0 <= p < n
  {
    if i < 0 then i + n else i
  }

  /** Whether Python's `xs[i]` succeeds on a list of length `n`. */
  predicate PyValid(i: int, n: int)
  {
    -n <= i < n
  }

  /** Python's `x or d` for an optional integer: a missing part or a zero
      gives the fallback. */
  function OrElse(x: Option<int>, d: int): int
  {
    if x.Some? && x.value != 0 then x.value else d
  }

  /** A negative slice bound counts from the end, clipped at 0; a
      non-negative one is kept as it is, even beyond the length. */
  function Bound(b: int, n: int): (r: int)
    ensures b >= 0 ==> r == b
    ensures b < 0 && n >= 0 ==> 0 <= r <= n
  {
    if b < 0 then Max(n - Abs(b), 0) else b
  }

  /** `range(start, stop, step)`: the arithmetic progression from `start`
      that stops before passing `stop`. */
  function Range(start: int, stop: int, step: int): (r: seq<int>)
    requires step != 0
    ensures forall k :: 0 <= k < |r| ==> r[k] == start + k * step
    ensures step > 0 ==> forall k :: 0 <= k < |r| ==> start <= r[k] < stop
    ensures step < 0 ==> forall k :: 0 <= k < |r| ==> stop < r[k] <= start
    ensures step > 0 ==> start + |r| * step >= stop
    ensures step < 0 ==> start + |r| * step <= stop
    decreases if step > 0 then stop - start else start - stop
  {
    if (step > 0 && start >= stop) || (step < 0 && start <= stop) then []
    else
      var rest := Range(start + step, stop, step);
      forall k | 0 <= k <= |rest|
        ensures start + step + k * step == start + (k + 1) * step
      {
        MulStep(k, step, 0);
      }
      [start] + rest
  }

  /** With step 1, `range(start, stop)` holds exactly `start, ..., stop - 1`. */
  lemma RangeUnit(start: int, stop: int)
    ensures |Range(start, stop, 1)| == Max(stop - start, 0)
    ensures forall k :: 0 <= k < |Range(start, stop, 1)| ==> Range(start, stop, 1)[k] == start + k
  {
    var r := Range(start, stop, 1);
    assert start + |r| * 1 >= stop;
    if |r| > 0 {
      assert r[|r| - 1] < stop;
    }
  }

  /** The indices a slice selects from a dimension of length `n`. */
  function SliceIndices(start: Option<int>, stop: Option<int>, step: Option<int>, n: int): seq<int>
  {
    Range(Bound(OrElse(start, 0), n), Bound(OrElse(stop, n), n), OrElse(step, 1))
  }

  /** `_rowtoindices` / `_coltoindices` for a dimension of length `n`: an
      index or a tuple is bounds-checked (IndexError) and returned as it is;
      a slice is never checked and becomes its range of indices. */
  function Resolve(sel: Selector, n: int): (r: Result<seq<int>>)
    ensures r.Err? ==> r.error == IndexError && !sel.Slice?
    ensures sel.Idx? ==> (r.Ok? <==> InBounds(sel.i, n))
    ensures sel.Tup? ==> (r.Ok? <==> forall k :: 0 <= k < |sel.items| ==> InBounds(sel.items[k], n))
    ensures r.Ok? && !sel.Slice? ==> forall k :: 0 <= k < |r.value| ==> 0 <= Offset(r.value[k], n) < n
  {
    match sel
    case Idx(i) => if InBounds(i, n) then Ok([i]) else Err(IndexError)
    case Tup(items) =>
      if forall k :: 0 <= k < |items| ==> InBounds(items[k], n) then Ok(items) else Err(IndexError)
    case Slice(start, stop, step) => Ok(SliceIndices(start, stop, step, n))
  }

  /** A resolved slice never holds a negative index, and a slice with a
      positive step and no explicit stop beyond the length selects only
      valid indices. */
  lemma SliceIndicesInRange(start: Option<int>, stop: Option<int>, step: Option<int>, n: int)
    requires n >= 0
    ensures forall k :: 0 <= k < |SliceIndices(start, stop, step, n)| ==> SliceIndices(start, stop, step, n)[k] >= 0
    ensures OrElse(step, 1) > 0 && OrElse(stop, n) <= n ==>
      forall k :: 0 <= k < |SliceIndices(start, stop, step, n)| ==> SliceIndices(start, stop, step, n)[k] < n
  {
  }

  /** The indices `0, 1, ..., n - 1`, as `range(n)` yields them. */
  function Iota(n: int): (r: seq<int>)
    ensures |r| == Max(n, 0) && forall k :: 0 <= k < |r| ==> r[k] == k
    ensures forall x :: x in r <==> 0 <= x < n
  {
    if n <= 0 then [] else Iota(n - 1) + [n - 1]
  }

  /** A full slice, or one whose stop is 0 (Python's `or` treats 0 as
      missing), selects every index of the dimension in order. */
  lemma {:induction false} FullSlice(n: nat, stop: Option<int>)
    requires stop == None || stop == Some(0)
    ensures Resolve(Slice(None, stop, None), n) == Ok(Iota(n))
  {
    RangeUnit(0, n);
    assert Range(0, n, 1) == Iota(n);
  }

  /** A negative stop counts from the end: `[:-1]` drops the last index. */
  lemma {:induction false} NegativeStop(n: nat)
    requires n > 0
    ensures Resolve(Slice(None, Some(-1), None), n) == Ok(Iota(n - 1))
  {
    RangeUnit(0, n - 1);
    assert Range(0, n - 1, 1) == Iota(n - 1);
  }
}

=== FILE: views.dfy ===
/** The read-only views of MatrixABC (matrices/_base.py): `aslist`,
    `asdict`, `keys`, `values`, `items`, `empty`, truthiness, `len`,
    membership and equality. */
module Views {
  import opened Errors
  import opened IterUtils
  import opened Selectors
  import opened Grid

  /** `aslist(by=...)`: the rows, or the columns ("col"); any other value of
      `by` is a TypeError. */
  function AsList(m: Mat, axis: string): (r: Result<seq<seq<int>>>)
    requires WellFormed(m)
    ensures r.Err? <==> axis != "row" && axis != "col"
    ensures r.Err? ==> r.error == TypeError
  {
    if axis == "row" then Ok(m.data)
    else if axis == "col" then Ok(Transposed(m.data))
    else Err(TypeError)
  }

  /** Each pair turned round. */
  function Swapped(ps: seq<(int, int)>): (r: seq<(int, int)>)
    ensures |r| == |ps| && forall k :: 0 <= k < |ps| ==> r[k] == (ps[k].1, ps[k].0)
  {
    seq(|ps|, k requires 0 <= k < |ps| => (ps[k].1, ps[k].0))
  }

  /** Turning every pair round twice gives the pairs back. */
  lemma SwappedTwice(ps: seq<(int, int)>)
    ensures Swapped(Swapped(ps)) == ps
  {
  }

  /** `keys(by=...)`: every (row, col) pair of the shape, row by row, or
      column by column ("col"); any other value of `by` is a TypeError. */
  function Keys(m: Mat, axis: string): Result<seq<(int, int)>>
  {
    if axis == "row" then Ok(Pairs(Iota(m.rows), Iota(m.cols)))
    else if axis == "col" then Ok(Swapped(Pairs(Iota(m.cols), Iota(m.rows))))
    else Err(TypeError)
  }

  /** `values(by=...)`: the cells chained row by row, or column by column
      ("col"); any other value of `by` is a TypeError. */
  function Values(m: Mat, axis: string): Result<seq<int>>
    requires WellFormed(m)
  {
    if axis == "row" then Ok(Concat(m.data))
    else if axis == "col" then Ok(Concat(Transposed(m.data)))
    else Err(TypeError)
  }

  /** `items(by=...)`: each key of `keys(by)` with the value of its cell. */
  function Items(m: Mat, axis: string): Result<seq<((int, int), int)>>
    requires WellFormed(m)
  {
    var ks :- Keys(m, axis);
    KeysInRange(m, axis);
    Ok(seq(|ks|, k requires 0 <= k < |ks| => (ks[k], m.data[ks[k].0][ks[k].1])))
  }

  /** Every key names a cell of the grid. */
  lemma KeysInRange(m: Mat, axis: string)
    requires WellFormed(m) && Keys(m, axis).Ok?
    ensures forall k :: 0 <= k < |Keys(m, axis).value| ==>
      0 <= Keys(m, axis).value[k].0 < |m.data| && 0 <= Keys(m, axis).value[k].1 < m.cols
  {
    var ks := Keys(m, axis).value;
    forall k | 0 <= k < |ks| ensures 0 <= ks[k].0 < |m.data| && 0 <= ks[k].1 < m.cols {
      if axis == "row" {
        assert ks[k].0 in Iota(m.rows) && ks[k].1 in Iota(m.cols);
      } else {
        var p := Pairs(Iota(m.cols), Iota(m.rows));
        assert p[k].0 in Iota(m.cols) && p[k].1 in Iota(m.rows);
      }
    }
  }

  /** `len(m)`: the number of cells the shape describes. */
  function Len(m: Mat): int
  {
    m.rows * m.cols
  }

  /** There is a key for every cell: row by row, cell (i, j) is key number
      `i * cols + j`; column by column it is key number `j * rows + i`. */
  lemma {:induction false} KeysOrder(m: Mat, i: nat, j: nat)
    requires WellFormed(m) && i < m.rows && j < m.cols
    ensures |Keys(m, "row").value| == Len(m) && |Keys(m, "col").value| == Len(m)
    ensures i * m.cols + j < Len(m) && Keys(m, "row").value[i * m.cols + j] == (i, j)
    ensures j * m.rows + i < Len(m) && Keys(m, "col").value[j * m.rows + i] == (i, j)
  {
    assert |Iota(m.rows)| == m.rows && |Iota(m.cols)| == m.cols;
    assert m.cols * m.rows == Len(m);
    PairsAt(Iota(m.rows), Iota(m.cols), i, j);
    PairsAt(Iota(m.cols), Iota(m.rows), j, i);
  }

  /** The values list the cells in key order: row by row, value number
      `i * cols + j` is cell (i, j); column by column, value number
      `j * rows + i` is. */
  lemma {:induction false} ValuesOrder(m: Mat, i: nat, j: nat)
    requires Dense(m) && i < m.rows && j < m.cols
    ensures |Values(m, "row").value| == Len(m) && |Values(m, "col").value| == Len(m)
    ensures i * m.cols + j < Len(m) && Values(m, "row").value[i * m.cols + j] == m.data[i][j]
    ensures j * m.rows + i < Len(m) && Values(m, "col").value[j * m.rows + i] == m.data[i][j]
  {
    ConcatRect(m.data, m.cols, i, j);
    var t := Transposed(m.data);
    ConcatRect(t, m.rows, j, i);
    assert |t| == m.cols;
  }

  /** `items` pairs each key with the matching entry of `values`. */
  lemma {:induction false} ItemsMatch(m: Mat, axis: string)
    requires Dense(m) && (axis == "row" || axis == "col")
    ensures |Items(m, axis).value| == |Keys(m, axis).value| == |Values(m, axis).value| == Len(m)
    ensures forall k :: 0 <= k < Len(m) ==>
      Items(m, axis).value[k] == (Keys(m, axis).value[k], Values(m, axis).value[k])
  {
    if m.rows > 0 && m.cols > 0 {
      KeysOrder(m, 0, 0);
      ValuesOrder(m, 0, 0);
      forall k | 0 <= k < Len(m)
        ensures Items(m, axis).value[k] == (Keys(m, axis).value[k], Values(m, axis).value[k])
      {
        ItemsMatchAt(m, axis, k);
      }
    } else {
      assert Len(m) == 0 by {
        if m.rows == 0 { MulZero(m.cols); assert 0 * m.cols == 0; } else { MulZero(m.rows); }
      }
      ConcatLength(m.data, m.cols);
      assert |Values(m, axis).value| == 0 by {
        if axis == "col" && m.data != [] {
          assert |Transposed(m.data)| == 0;
        }
      }
    }
  }

  lemma {:induction false} ItemsMatchAt(m: Mat, axis: string, k: nat)
    requires Dense(m) && (axis == "row" || axis == "col") && m.rows > 0 && m.cols > 0 && k < Len(m)
    ensures k < |Items(m, axis).value| && k < |Keys(m, axis).value| && k < |Values(m, axis).value|
    ensures Items(m, axis).value[k] == (Keys(m, axis).value[k], Values(m, axis).value[k])
  {
    if axis == "row" {
      ItemsMatchRowAt(m, k);
    } else {
      ItemsMatchColAt(m, k);
    }
  }

  lemma {:induction false} ItemsMatchRowAt(m: Mat, k: nat)
    requires Dense(m) && m.rows > 0 && m.cols > 0 && k < Len(m)
    ensures k < |Items(m, "row").value| && k < |Keys(m, "row").value| && k < |Values(m, "row").value|
    ensures Items(m, "row").value[k] == (Keys(m, "row").value[k], Values(m, "row").value[k])
  {
    CellOfIndex(k, m.rows, m.cols);
    var i, j := k / m.cols, k % m.cols;
    KeysOrder(m, i, j);
    ValuesOrder(m, i, j);
    var ks := Keys(m, "row").value;
    assert ks[k] == (i, j);
    assert Items(m, "row").value[k] == (ks[k], m.data[i][j]);
  }

  lemma {:induction false} ItemsMatchColAt(m: Mat, k: nat)
    requires Dense(m) && m.rows > 0 && m.cols > 0 && k < Len(m)
    ensures k < |Items(m, "col").value| && k < |Keys(m, "col").value| && k < |Values(m, "col").value|
    ensures Items(m, "col").value[k] == (Keys(m, "col").value[k], Values(m, "col").value[k])
  {
    assert k < m.cols * m.rows;
    CellOfIndex(k, m.cols, m.rows);
    var j, i := k / m.rows, k % m.rows;
    KeysOrder(m, i, j);
    ValuesOrder(m, i, j);
    var ks := Keys(m, "col").value;
    assert ks[k] == (i, j);
    assert Items(m, "col").value[k] == (ks[k], m.data[i][j]);
  }

  /** Position `k` of a row-major listing of an `a x b` grid is entry
      `(k / b, k % b)`. */
  lemma {:induction false} CellOfIndex(k: nat, a: nat, b: nat)
    requires b > 0 && k < a * b
    ensures k / b < a && 0 <= k % b < b && k == (k / b) * b + k % b
  {
    DivMod(k, b);
    if k / b >= a {
      MulMono(a, k / b, b);
    }
  }

  /** `asdict()`: a dictionary from every (row, col) of the shape to its
      cell. */
  function AsDict(m: Mat): (d: map<(int, int), int>)
    requires WellFormed(m)
    ensures forall p :: p in d ==> 0 <= p.0 < m.rows && 0 <= p.1 < m.cols && d[p] == m.data[p.0][p.1]
  {
    map p | p in Pairs(Iota(m.rows), Iota(m.cols)) :: m.data[p.0][p.1]
  }

  /** A sequence without repetitions has as many distinct elements as
      items. */
  lemma {:induction false} DistinctCard<T>(s: seq<T>)
    requires forall k, l :: 0 <= k < l < |s| ==> s[k] != s[l]
    ensures |(set x | x in s)| == |s|
  {
    if s != [] {
      DistinctCard(s[1..]);
      assert (set x | x in s) == {s[0]} + (set x | x in s[1..]);
      assert s[0] !in (set x | x in s[1..]);
    }
  }

  /** The dictionary has exactly the row-major keys, one per cell. */
  lemma {:induction false} AsDictKeys(m: Mat)
    requires WellFormed(m)
    ensures AsDict(m).Keys == set k | k in Keys(m, "row").value
    ensures forall r, c :: 0 <= r < m.rows && 0 <= c < m.cols ==> (r, c) in AsDict(m)
    ensures |AsDict(m)| == Len(m)
  {
    AsDictDomain(m);
    AsDictCovers(m);
    KeysCount(m);
  }

  /** The dictionary's keys are the pairs the comprehension ranges over. */
  lemma {:induction false} AsDictDomain(m: Mat)
    requires WellFormed(m)
    ensures AsDict(m).Keys == set k | k in Pairs(Iota(m.rows), Iota(m.cols))
  {
  }

  /** Every cell of the shape is a key. */
  lemma {:induction false} AsDictCovers(m: Mat)
    requires WellFormed(m)
    ensures forall r, c :: 0 <= r < m.rows && 0 <= c < m.cols ==> (r, c) in AsDict(m)
  {
    forall r, c | 0 <= r < m.rows && 0 <= c < m.cols ensures (r, c) in AsDict(m) {
      PairsAt(Iota(m.rows), Iota(m.cols), r, c);
    }
  }

  /** As many distinct keys as cells. */
  lemma {:induction false} KeysCount(m: Mat)
    requires WellFormed(m)
    ensures |(set k | k in Pairs(Iota(m.rows), Iota(m.cols)))| == Len(m)
  {
    var ps := Pairs(Iota(m.rows), Iota(m.cols));
    KeysDistinct(m);
    assert Keys(m, "row").value == ps;
    DistinctCard(ps);
  }

  /** No key is listed twice. */
  lemma {:induction false} KeysDistinct(m: Mat)
    ensures forall k, l :: 0 <= k < l < |Keys(m, "row").value| ==> Keys(m, "row").value[k] != Keys(m, "row").value[l]
  {
    PairsDistinct(Iota(m.rows), Iota(m.cols));
  }

  /** `bool(m)`: false without rows or columns, otherwise whether some cell
      differs from the default. */
  function Truthy(m: Mat): bool
    requires WellFormed(m)
  {
    if m.rows == 0 || m.cols == 0 then false
    else exists r, c :: 0 <= r < m.rows && 0 <= c < m.cols && m.data[r][c] != m.dflt
  }

  /** `empty()`: true without rows or columns, otherwise whether every cell
      holds the default. */
  function IsEmpty(m: Mat): bool
    requires WellFormed(m)
  {
    if m.rows == 0 || m.cols == 0 then true
    else forall r, c :: 0 <= r < m.rows && 0 <= c < m.cols ==> m.data[r][c] == m.dflt
  }

  /** A matrix is empty exactly when it is falsy, and, with a row list per
      row, exactly when every entry of `values()` is the default. */
  lemma {:induction false} EmptyIsFalsy(m: Mat)
    requires WellFormed(m)
    ensures IsEmpty(m) == !Truthy(m)
    ensures Dense(m) ==> (IsEmpty(m) <==> forall v :: v in Values(m, "row").value ==> v == m.dflt)
  {
    if Dense(m) {
      var vs := Values(m, "row").value;
      assert vs == Concat(m.data);
      ghost var cells := forall i, j :: 0 <= i < |m.data| && 0 <= j < |m.data[i]| ==> m.data[i][j] == m.dflt;
      ConcatAllEqual(m.data, m.dflt);
      assert (forall v :: v in vs ==> v == m.dflt) == cells;
      assert IsEmpty(m) == cells by {
        assert forall i :: 0 <= i < |m.data| ==> |m.data[i]| == m.cols;
      }
    }
  }

  /** `x in m`: each row in the row range is searched in turn; a missing row
      list raises IndexError. */
  function ContainsFrom(m: Mat, x: int, r: nat): Result<bool>
    requires WellFormed(m)
    decreases m.rows - r
  {
    if r >= m.rows then Ok(false)
    else if r >= |m.data| then Err(IndexError)
    else if x in m.data[r] then Ok(true)
    else ContainsFrom(m, x, r + 1)
  }

  function Contains(m: Mat, x: int): Result<bool>
    requires WellFormed(m)
  {
    ContainsFrom(m, x, 0)
  }

  /** On a dense matrix, membership holds exactly when some cell holds the
      value; with row lists missing it raises IndexError. */
  lemma {:induction false} ContainsLaw(m: Mat, x: int, r: nat)
    requires WellFormed(m) && r <= m.rows
    ensures |m.data| == m.rows ==>
      ContainsFrom(m, x, r) == Ok(exists i, j :: r <= i < m.rows && 0 <= j < m.cols && m.data[i][j] == x)
    ensures r <= |m.data| < m.rows ==> ContainsFrom(m, x, r) == Err(IndexError)
    decreases m.rows - r
  {
    if r < m.rows {
      ContainsLaw(m, x, r + 1);
      if r < |m.data| && x in m.data[r] {
        var j :| 0 <= j < |m.data[r]| && m.data[r][j] == x;
        assert m.data[r][j] == x;
      }
    }
  }

  /** `m == other` for another matrix: the grids are compared, the shapes
      and defaults are not. */
  predicate Equal(a: Mat, b: Mat)
  {
    a.data == b.data
  }

  /** Two matrices that differ only in their default compare equal, and a
      (2, 0) matrix with no row lists compares unequal to one with two
      empty row lists. */
  lemma EqualIgnoresDefault(m: Mat, d: int)
    ensures Equal(m, m.(dflt := d))
    ensures !Equal(Mat([], 2, 0, d), Mat([[], []], 2, 0, d))
  {
  }

  /** `m == other` for a sequence of rows, as written: true for a (0, 0)
      matrix and an empty sequence, otherwise true when the first
      `len(other)` row lists equal the given rows, so a matrix equals every
      prefix of its rows; IndexError when `other` is longer. */
  function EqualsRowsAsWritten(m: Mat, other: seq<seq<int>>): Result<bool>
  {
    if m.rows == 0 && m.cols == 0 && |other| == 0 then Ok(true)
    else PrefixEqual(m.data, other, 0)
  }

  /** `all(list(other[r]) == data[r] for r in range(len(other)))`. */
  function PrefixEqual(data: seq<seq<int>>, other: seq<seq<int>>, r: nat): Result<bool>
    decreases |other| - r
  {
    if r >= |other| then Ok(true)
    else if r >= |data| then Err(IndexError)
    else if other[r] != data[r] then Ok(false)
    else PrefixEqual(data, other, r + 1)
  }

  /** A two-row matrix compares equal to its first row alone, and every
      matrix compares equal to an empty sequence. */
  lemma {:induction false} EqualsRowsPrefix(d: int)
    ensures EqualsRowsAsWritten(Mat([[1], [2]], 2, 1, d), [[1]]) == Ok(true)
    ensures EqualsRowsAsWritten(Mat([[1], [2]], 2, 1, d), []) == Ok(true)
  {
    assert PrefixEqual([[1], [2]], [[1]], 1) == Ok(true);
  }

  /** `m == other` for a sequence of rows as evidently intended: the rows
      must be the matrix's rows, all of them. */
  function EqualsRows(m: Mat, other: seq<seq<int>>): Result<bool>
  {
    Ok(other == m.data)
  }

  /** The intended comparison agrees with matrix equality on the rows of
      the other matrix, and with the comparison as written whenever the
      sequence has as many rows as the grid. */
  lemma {:induction false} EqualsRowsLaw(m: Mat, o: Mat, other: seq<seq<int>>)
    requires WellFormed(m) && WellFormed(o)
    ensures EqualsRows(m, AsList(o, "row").value) == Ok(Equal(m, o))
    ensures |other| == |m.data| ==> EqualsRowsAsWritten(m, other) == EqualsRows(m, other)
  {
    if |other| == |m.data| {
      PrefixEqualLaw(m.data, other, 0);
    }
  }

  lemma {:induction false} PrefixEqualLaw(data: seq<seq<int>>, other: seq<seq<int>>, r: nat)
    requires |other| == |data| && r <= |data|
    ensures PrefixEqual(data, other, r) == Ok(other[r..] == data[r..])
    decreases |other| - r
  {
    if r < |other| {
      PrefixEqualLaw(data, other, r + 1);
      assert other[r..] == [other[r]] + other[r + 1..];
      assert data[r..] == [data[r]] + data[r + 1..];
    }
  }
}
